=== FILE: README.md ===
# CNCMaps rendering core in Dafny

A model of the core of CNCMaps, a renderer that draws Command & Conquer
(Tiberian Sun, Firestorm, Red Alert 2, Yuri's Revenge) maps to images, with
proofs about that model. Four parts are modelled:

- **The software sprite rasterizer (`ShpRenderer`).** It covers:
  - frame selection, including the `Random` sentinel;
  - the depth-gated palette blit;
  - the shadow blit;
  - the building-silhouette depth lookup;
  - the bounds query.

  The drawing surface is a linear BGR byte buffer with parallel z, height and
  shadow planes. The model assumes its stride is exactly three bytes per pixel
  (see "Left out"). Under that assumption the source's address range check is a
  check on the linear pixel number: a pixel that runs off the right edge lands on
  the next row. Both pixel loops exist twice:
  - as methods that walk the running indices as the source does;
  - as row/pixel folds.

  The methods are proved equal to the folds, and the properties are proved about
  the folds.
- **Drawable configuration (`Drawable`).** It covers:
  - `LoadFromArtEssential`;
  - `LoadFromRulesFull`, a pure function from the rules and art sections (plus
    engine and collection) to the drawable's flags and `DrawProperties`;
  - `Clone`.

  The body follows the source's order of assignments, stage by stage. The lemmas
  state the outcome as precedence lists, highest priority first.
- **Collection loading (`ObjectCollection`).** It covers:
  - category defaults and offsets;
  - the simple and terrain loaders;
  - the overlay special cases;
  - the mod-configuration overrides: filter, then a stable descending-priority
    sort, then apply in turn;
  - theater-letter substitution in asset file names.
- **The drawables and the string table.** It covers:
  - the draw and bounds guards and the draw ordering of `ShpDrawable`,
    `TerrainDrawable` and `TileDrawable`;
  - the sub-tile image choice;
  - the Westwood CSF string-table decoder (`CsfFile`).

  The model also includes a CSF encoder that the source does not have. It is used
  to prove that the decoder reads back exactly the records that were written.

Conventions:
- C# integer division is `CsInt.CsDiv`, which truncates toward zero.
- `(short)` casts are `CsInt.Wrap16`.
- A thrown exception is a `faulted` render state or a `Fail` result.
- A call into code outside this model is a function-valued parameter. This
  covers:
  - the file system;
  - sprite decoding;
  - INI value conversion;
  - frame deciders;
  - category defaults;
  - special-overlay tables;
  - regular expressions;
  - the float blend;
  - the random generator. Each `Random.Next` call is its own oracle value: the
    shadow pass, the sprite pass and the bounds query each get one.

## Model

| member | source | states |
|---|---|---|
| CsInt.CsDiv | CNCMaps.Engine/Rendering/ShpRenderer.cs:42-43 | C# `/` truncates toward zero for every non-zero divisor: the remainder `a - q * b` has the dividend's sign and is smaller than the divisor in size, and the quotient agrees with Euclidean division on non-negative operands |
| CsInt.CsDivUnique | CNCMaps.Engine/Rendering/ShpRenderer.cs:42-43 | the remainder condition determines the quotient: any quotient with it is `CsDiv` |
| CsInt.Wrap16 | CNCMaps.Engine/Rendering/ShpRenderer.cs:61-62 | a `(short)` cast lands in the short range, is congruent to its operand modulo 2^16, and is the identity on values already in range |
| ShpRenderer.DecideFrameIndex | CNCMaps.Engine/Rendering/ShpRenderer.cs:249-262 | a decided index comes back unchanged; the `Random` sentinel yields a frame in `[0, numImages)`, and 0 for an empty file |
| ShpRenderer.RandomFrameReachesEveryImage | CNCMaps.Engine/Rendering/ShpRenderer.cs:251-252 | every frame of a non-empty file is a possible outcome of the `Random` sentinel |
| ShpRenderer.ChooseFrame | CNCMaps.Engine/Rendering/ShpRenderer.cs:32-39 | a draw skips exactly when the frame is at or past the image count, or its data is missing, or its length differs from width times height; a negative frame is a null image and throws; otherwise the frame is that image |
| ShpRenderer.BuildingZRowBottomAligned | CNCMaps.Engine/Rendering/ShpRenderer.cs:280-283 | the sprite's bottom row reads the asset's bottom row, each further sprite row reads the next asset row, and every row above the asset's top reads asset row 1 |
| ShpRenderer.BuildingZInsideAssetReads | CNCMaps.Engine/Rendering/ShpRenderer.cs:273-286 | a lookup whose row and column fall inside an asset of width x height bytes never throws and returns that pixel of the row-major data |
| ShpRenderer.BuildingZColumnIsNotClamped | CNCMaps.Engine/Rendering/ShpRenderer.cs:276-286 | for every asset and position with an unclamped row, moving one asset width to the right reads what the next sprite row reads: a column past the right edge wraps onto the next row |
| ShpRenderer.BuildingZClampedRowsAgree | CNCMaps.Engine/Rendering/ShpRenderer.cs:281-286 | every sprite row above the asset's top gives the same result, the byte at linear index width plus column, or the same throw |
| ShpRenderer.BuildingZColumnCanFault | CNCMaps.Engine/Rendering/ShpRenderer.cs:286 | a column far enough right reads past the data and throws |
| ShpRenderer.QuantizeTranslucencySteps | CNCMaps.Engine/Rendering/ShpRenderer.cs:55 | the translucency is rounded down to a multiple of 25, less than 25 below the request, and 0 for requests under 25 |
| ShpRenderer.CandidateDepth | CNCMaps.Engine/Rendering/ShpRenderer.cs:78-88 | the competing depth is always a short, and it is missing exactly when a non-flat building part's depth lookup throws |
| ShpRenderer.CandidateDepthBands | CNCMaps.Engine/Rendering/ShpRenderer.cs:78-88 | where the short arithmetic does not wrap, a flat pixel lies below the base depth `zOffset` by its distance from the frame's bottom, an upright non-building pixel lies the frame height above it, and a building pixel lies within 255 above it |
| ShpRenderer.WriteColor | CNCMaps.Engine/Rendering/ShpRenderer.cs:91-100 | only the destination pixel's colour changes; at translucency 0 it becomes exactly the palette colour in B, G, R order; the z, height and shadow planes are untouched |
| ShpRenderer.PixelAt | CNCMaps.Engine/Rendering/ShpRenderer.cs:76-111 | a transparent source pixel changes nothing; no pixel but the destination changes; the pixel throws exactly when a building part's candidate lookup fails, or when an accepted write's depth-byte lookup fails after the colour write; an off-surface or depth-rejected pixel leaves the surface unchanged and does not throw; a change implies the destination is on the surface and the candidate depth reaches the stored z; an accepted write stores the caster's height and the building depth byte at any translucency, whatever the candidate was, and at translucency 0 also copies the palette colour as B, G, R |
| ShpRenderer.Draw | CNCMaps.Engine/Rendering/ShpRenderer.cs:26-127 | a skipped frame leaves the surface as it was, a null frame throws without writing, and the shadow plane is never written |
| ShpRenderer.DrawPass | CNCMaps.Engine/Rendering/ShpRenderer.cs:59-126 | the pixel loop with its running source and plane indices, skipping rows above the surface, computes exactly the row-by-row fold |
| ShpRenderer.DrawRowPass | CNCMaps.Engine/Rendering/ShpRenderer.cs:75-125 | one row of that loop, pixel by pixel with the indices advanced in step, computes exactly the row's pixel fold |
| ShpRenderer.DrawMethod | CNCMaps.Engine/Rendering/ShpRenderer.cs:26-127 | the imperative draw, with its frame guards and loop, equals the functional `Draw` |
| ShpRenderer.ShadowPixelAt | CNCMaps.Engine/Rendering/ShpRenderer.cs:181-186 | a shadow pixel changes the surface exactly when the shadow condition accepts it, and it then sets the previously clear mark; z and height are never written |
| ShpRenderer.DrawShadow | CNCMaps.Engine/Rendering/ShpRenderer.cs:130-196 | the shadow frame is the decided frame moved by half the image count; a skipped frame leaves the surface as it was, a null frame throws; the z and height planes are never written |
| ShpRenderer.DrawShadowPass | CNCMaps.Engine/Rendering/ShpRenderer.cs:153-195 | the shadow loop with its running indices computes exactly the row-by-row shadow fold |
| ShpRenderer.DrawShadowMethod | CNCMaps.Engine/Rendering/ShpRenderer.cs:130-196 | the imperative shadow draw equals the functional `DrawShadow` |
| ShpRenderer.GetBounds | CNCMaps.Engine/Rendering/ShpRenderer.cs:13-24 | the frame's rectangle relative to the file's centre, with the frame's size; size zero at the centre offset when there is no frame |
| ShpRendererDrawFacts.ZBufferCanDecrease | CNCMaps.Engine/Rendering/ShpRenderer.cs:90-110 | the z plane is not monotonic: an accepted write can store a depth lower than the one it replaced |
| ShpRendererDrawFacts.DrawChangesOnlyHitPixels | CNCMaps.Engine/Rendering/ShpRenderer.cs:67-126 | a surface pixel that no opaque source pixel of a row on the surface lands on keeps its colour, z, height and shadow mark through the whole pass |
| ShpRendererDrawFacts.LowTranslucencyIsOpaque | CNCMaps.Engine/Rendering/ShpRenderer.cs:55-100 | requested translucencies 0 to 24 draw exactly as the opaque palette copy |
| ShpRendererShadowFacts.ShadowPixelDarkensIffAccepted | CNCMaps.Engine/Rendering/ShpRenderer.cs:174-186 | a shadow pixel darkens its destination if and only if the destination is on the surface, the source is opaque, the mark is clear, the depth reaches the stored z and the cast height reaches the stored height; darkening halves each channel and sets the mark, and nothing else changes |
| ShpRendererShadowFacts.ShadowPassDarkensAtMostOnce | CNCMaps.Engine/Rendering/ShpRenderer.cs:159-195 | over a whole shadow pass every pixel is either unchanged or was unmarked and ends marked with each channel halved exactly once; a pixel marked before the pass is untouched; z and height are never written |
| GameTypes.NewDrawable | CNCMaps.Engine/Drawables/Drawable.cs:30-55 | a fresh drawable has a 1x1 foundation, the Ready triple (0, 1, 1), is a building part, is neither flat nor hidden, and has no alpha images |
| GameTypes.CloneIsolatesProps | CNCMaps.Engine/Drawables/Drawable.cs:247-251 | the clone starts with the original's props, and replacing the clone's props leaves the original's unchanged |
| DrawableRules.LoadFromArtEssential | CNCMaps.Engine/Drawables/Drawable.cs:76-81 | the image is the art's `Image` or else the section name; `NewTheater` is forced from Red Alert 2 on; nothing but the art fields changes |
| DrawableRules.ParseReady | CNCMaps.Engine/Drawables/Drawable.cs:202-204 | a Ready value is read exactly when it splits at commas into three parts that all parse as integers, and it is then those three integers |
| DrawableRules.ReadyExamples | CNCMaps.Engine/Drawables/Drawable.cs:198-209 | "2,4,8" is read as (2, 4, 8); "2,4" leaves the defaults |
| DrawableRules.LoadFromRulesFull | CNCMaps.Engine/Drawables/Drawable.cs:119-156 | shadow is the art's `Shadow` (category default) and not the rules' `NoShadow`; cloakable is the rules' `Cloakable`; veins are flat whatever the keys, and otherwise gates and walls are upright |
| DrawableRules.RulesKindFlags | CNCMaps.Engine/Drawables/Drawable.cs:125-162 | the kind flags only switch on; a gate or wall becomes a building part; rubble is hidden; walls take the overlay-value frame decider and gates the null one |
| DrawableRules.RulesPalette | CNCMaps.Engine/Drawables/Drawable.cs:84-188 | the palette is by precedence: spawns-tiberium, railroad, veinhole/veins/wall/gate, terrain palette, anim palette, custom palette, no-tile-land-type. The custom name is set only with a custom palette. Terrain and anim palettes clear remapability, and the art's `Remapable` counts only up to Firestorm |
| DrawableRules.RulesLighting | CNCMaps.Engine/Drawables/Drawable.cs:91-188 | the lighting is by precedence: spawns-tiberium, railroad (full), veinhole/veins (none), wall (ambient), anim palette (none), no-tile-land-type (full), then the initial lighting |
| DrawableRules.RulesOffsets | CNCMaps.Engine/Drawables/Drawable.cs:139-196 | the art's draw offsets are added after every absolute vertical assignment. Rock and road add half a tile, Red Alert 2 walls add 3, veins set -1, the veinhole monster -49, railroad 11 or 14 by engine, and tiberium -1. A road whose upper-cased name contains LOBRDG or LOBRDB raises the z-adjust by a tile |
| DrawableRules.RulesAlphaAndReady | CNCMaps.Engine/Drawables/Drawable.cs:110-117 | an alpha image is added only when its file exists; a sequence's Ready triple replaces the defaults only when it parses whole |
| DrawableRules.RulesKeepIdentity | CNCMaps.Engine/Drawables/Drawable.cs:83-210 | resolution never changes the name, image, foundation, sprite, elevation, theater switches or owner |
| DrawableRules.LoadFromRules | CNCMaps.Engine/Drawables/Drawable.cs:71-74 | the essential art fields are read first, so the image always comes from the art; a rules `NoShadow` always removes the shadow |
| Ini.SplitJoin | CNCMaps.Engine/Drawables/Drawable.cs:202 | splitting the separator-joined list of separator-free parts gives back the parts |
| Ini.JoinSplit | CNCMaps.Engine/Drawables/Drawable.cs:202 | joining the parts of a split with the separator gives back the string |
| Ini.TryParseIntToString | CNCMaps.Engine/Drawables/Drawable.cs:204 | the integer parser reads back every 32-bit integer's decimal text |
| ObjectCollection.CategoryOffset | CNCMaps.Engine/Game/ObjectCollection.cs:134-147 | every category moves half a tile right; exactly buildings, overlays and smudges stay on the tile's top row |
| ObjectCollection.InitDrawableDefaults | CNCMaps.Engine/Game/ObjectCollection.cs:126-148 | the owner becomes the collection; palette, lighting, remapability and frame decider come from the category defaults; the category offset is added; name, art, frames and alpha images are kept |
| ObjectCollection.MatchingOverrides | CNCMaps.Engine/Game/ObjectCollection.cs:98-104 | an override is kept if and only if its collection and theater masks contain the current ones and its pattern matches the name |
| ObjectCollection.SortByDescendingPriority | CNCMaps.Engine/Game/ObjectCollection.cs:105 | the result is a permutation of the input, ordered by non-increasing priority |
| ObjectCollection.ApplyOverridesLastWins | CNCMaps.Engine/Game/ObjectCollection.cs:107-116 | after the loop, lighting and palette (with its file) hold the value of the last override that sets them, or the initial value when none does; no other prop changes |
| ObjectCollection.ConfigOverridesOutcome | CNCMaps.Engine/Game/ObjectCollection.cs:97-117 | the lighting, and the palette with its file, come from a matching override of the lowest priority among those that set it; they keep their earlier value when no matching override sets it |
| ObjectCollection.LoadOverlayDrawable | CNCMaps.Engine/Game/ObjectCollection.cs:179-211 | tiberium takes the value frame decider and no lighting, with the overlay palette from Red Alert 2 on, or else the unit palette plus remapping. A Red Alert 2 high bridge takes bridge offsets, elevation 4 and a 3x1 foundation. A Tiberian Sun high or rail bridge takes bridge offsets and elevation 4 but keeps its foundation. Any other overlay is unchanged |
| ObjectCollection.SmudgeFoundation | CNCMaps.Engine/Game/ObjectCollection.cs:162-163 | a smudge's foundation is the rules' Width x Height as read, each 1 when the key is absent or does not read as an integer |
| ObjectCollection.AttachSprite | CNCMaps.Engine/Game/ObjectCollection.cs:158-166 | the load fails exactly when the file name fails to resolve; otherwise the sprite is the one opened under that name, smudges take their foundation and overlays their special cases, and nothing else changes |
| ObjectCollection.LoadTerrainDrawable | CNCMaps.Engine/Game/ObjectCollection.cs:150-153 | terrain is owned by the collection and takes its image from the art |
| ObjectCollection.LoadDrawable | CNCMaps.Engine/Game/ObjectCollection.cs:73-118 | a category load failure is the result. Otherwise only the props change, and they become the loaded props with the matching overrides applied in descending priority |
| Theater.ApplyNewTheater | CNCMaps.Engine/Game/ObjectCollection.cs:236-246 | the name keeps its length and changes at most its second character, which becomes the theater letter if that file exists, else 'G' if that file exists, else stays; a name shorter than two characters throws |
| Theater.ApplyNewTheaterExistsOrOriginal | CNCMaps.Engine/Game/ObjectCollection.cs:239-245 | the substituted name is one that exists, or the original name |
| Theater.TheaterEligible | CNCMaps.Engine/Game/ObjectCollection.cs:214-232 | up to Firestorm, substitution needs G, N or C then A or T; Red Alert 2 also allows U; Yuri's Revenge needs only a second letter in A, T, U, D, L, N. It throws exactly when a needed character is missing |
| Theater.ApplyNewTheaterIfNeeded | CNCMaps.Engine/Game/ObjectCollection.cs:213-234 | an ineligible art name leaves the file name unchanged, an eligible one substitutes, and the length is always kept |
| Theater.YurisRevengeTheaterExample | CNCMaps.Engine/Game/ObjectCollection.cs:224-233 | art GATOWR under letter U uses GUTOWR.shp when it exists, else GGTOWR.shp, else GATOWR.shp |
| ShpDrawable.OnBridgeOffset | CNCMaps.Engine/Drawables/ShpDrawable.cs:30-37 | the shift is vertical, and non-zero exactly for infantry standing on a bridge |
| ShpDrawable.InfantryFrameDecider | CNCMaps.Engine/Drawables/ShpDrawable.cs:32-35 | infantry use the Ready triple, with a random facing in `[0, 256)` when the option is on and -1 otherwise |
| ShpDrawable.Draw | CNCMaps.Engine/Drawables/ShpDrawable.cs:28-45 | a hidden or sprite-less drawable draws nothing. The shadow pass comes first, only when it has a shadow, shadows are asked for and it is not cloakable. The sprite follows at translucency 50 when cloakable and 0 otherwise, both shifted by the bridge offset. The two passes decide their frames from separate random draws. The offset is restored unless a pass throws |
| ShpDrawable.DrawWithoutShadowKeepsMarks | CNCMaps.Engine/Drawables/ShpDrawable.cs:41-43 | a draw with shadows off never sets a shadow mark |
| ShpDrawable.DrawShadow | CNCMaps.Engine/Drawables/ShpDrawable.cs:47-51 | nothing is drawn for a hidden, sprite-less, unshadowed or cloakable drawable; z and height are never written |
| ShpDrawable.PlaceBounds | CNCMaps.Engine/Drawables/ShpDrawable.cs:57-58 | the rectangle moves by half a tile per tile step (C# division) and then by the props offset, keeping its size |
| Geometry.HalfTileExact | CNCMaps.Engine/Drawables/ShpDrawable.cs:57 | the half-tile projection `v * TileWidth / 2` (and its height twin) is exact for every tile step, negative ones included, because the tile sizes are even |
| ShpDrawable.BoundsMatchDrawPlacement | CNCMaps.Engine/Rendering/ShpRenderer.cs:13-24 | for any frame the sprite pass draws, the renderer's bounds placed at the object's tile and offset are exactly the rectangle that pass writes from: the corner at its surface offsets, the size the frame's |
| ShpDrawable.GetBounds | CNCMaps.Engine/Drawables/ShpDrawable.cs:53-60 | empty for a hidden or sprite-less drawable; otherwise the renderer's rectangle moved to the object's tile and by the props offset |
| ShpDrawable.GetFilename | CNCMaps.Engine/Drawables/ShpDrawable.cs:62-72 | the image plus the theater extension or ".shp", then theater substitution when asked (throwing without an owning collection); the length is kept and the extension is never touched |
| TerrainDrawable.InnerBase | CNCMaps.Engine/Drawables/TerrainDrawable.cs:25-28 | the inner sprite shares the terrain's props and owner, keeps the constructor's index 0, and is a visible, upright building part |
| TerrainDrawable.DrawAlphaImages | CNCMaps.Engine/Drawables/TerrainDrawable.cs:31-33 | the alpha overlays change only colour bytes, never z, height or shadow marks |
| TerrainDrawable.Draw | CNCMaps.Engine/Drawables/TerrainDrawable.cs:24-38 | alpha overlays come first, then the shadow only when asked, then the sprite with its own shadow off; a failed file name ends the draw; only the inner sprite and (for infantry) the props change |
| TerrainDrawable.GetBounds | CNCMaps.Engine/Drawables/TerrainDrawable.cs:40-53 | empty when hidden, or before a draw has created the inner sprite, or when its sprite is missing |
| TerrainDrawable.BoundsAgreeWithShpDrawable | CNCMaps.Engine/Drawables/TerrainDrawable.cs:49-52 | with an inner sprite, the bounds are exactly those of a ShpDrawable with that sprite |
| TerrainDrawable.BoundsAfterDraw | CNCMaps.Engine/Drawables/TerrainDrawable.cs:24-53 | after any draw the inner sprite exists, and when it found its sprite the bounds are that sprite's ShpDrawable bounds |
| TileDrawable.NewTile | CNCMaps.Engine/Drawables/TmpDrawable.cs:11-16 | the name comes from the tile-set entry only when there is one |
| TileDrawable.GetTileImage | CNCMaps.Engine/Drawables/TmpDrawable.cs:45-50 | nothing exactly when there is no file or it has no images; the sub-tile's image when it exists, else the first |
| TileDrawable.DoesSubTileExist | CNCMaps.Engine/Drawables/TmpDrawable.cs:52-59 | false exactly when a file exists and the sub-tile is positive and past its last image |
| TileDrawable.ExistingSubTileIsChosen | CNCMaps.Engine/Drawables/TmpDrawable.cs:45-59 | when the sub-tile exists in a non-empty file, the image drawn is that sub-tile's |
| TileDrawable.MissingSubTileFallsBack | CNCMaps.Engine/Drawables/TmpDrawable.cs:45-59 | when the sub-tile is missing, the first image stands in for it |
| TileDrawable.Draw | CNCMaps.Engine/Drawables/TmpDrawable.cs:18-26 | nothing happens without an object, an entry or a file; otherwise the entry's file goes to the TMP renderer |
| CsfFile.ReadInt32 | CNCMaps.FileFormats/CsfFile.cs:52-57 | a read fails exactly when fewer than four bytes remain, and otherwise yields the little-endian int32 and moves four bytes on |
| CsfFile.ReadStringSpec | CNCMaps.FileFormats/CsfFile.cs:96-98 | a string read is its length field followed by exactly that many ASCII bytes; a negative length fails |
| CsfFile.ReadWstringSpec | CNCMaps.FileFormats/CsfFile.cs:100-102 | a wide-string read takes twice the count (int32 wrap-around) in bytes; a count that doubles in range yields exactly that many code units, each complemented |
| CsfFile.ConvertToString | CNCMaps.FileFormats/CsfFile.cs:89-94 | each code unit is bitwise-complemented and the length is kept |
| CsfFile.ConvertToStringIsInvolution | CNCMaps.FileFormats/CsfFile.cs:89-94 | complementing twice gives back the string |
| CsfFile.SetValueSpec | CNCMaps.FileFormats/CsfFile.cs:78-80 | the entry is stored under the lower-cased name, replacing any earlier one; every other key keeps its entry |
| CsfFile.GetValue | CNCMaps.FileFormats/CsfFile.cs:82-87 | the stored value for a present name, "" for a missing one |
| CsfFile.CapitalisedNameIsNotFound | CNCMaps.FileFormats/CsfFile.cs:79-86 | lookup does not lower-case: a name with a capital letter is never found in a parsed table |
| CsfFile.ReadLabelValueSpec | CNCMaps.FileFormats/CsfFile.cs:63-72 | even flags store an empty entry and read nothing; odd flags read the tag and the value, and an extra value only behind the "STRW" tag |
| CsfFile.UnflaggedLabelReadsNoValue | CNCMaps.FileFormats/CsfFile.cs:71-72 | a record with bit 0 of its flags clear ends right after its name and stores ("", "") |
| CsfFile.ParseLabelSpec | CNCMaps.FileFormats/CsfFile.cs:60-72 | a record always consumes bytes, adds its key and keeps keys lower-case |
| CsfFile.ParseLabelsSpec | CNCMaps.FileFormats/CsfFile.cs:59-73 | the loop consumes at least one byte per counted record and keeps keys lower-case |
| CsfFile.ParseSpec | CNCMaps.FileFormats/CsfFile.cs:50-76 | data shorter than the header fails; the six header fields are the first six int32s, and the id is not checked; every key is lower-case; a label count of zero or less reads no records |
| CsfEncode.ParseEncode | CNCMaps.FileFormats/CsfFile.cs:50-76 | a file whose header counts its records parses back to that header and to the records stored in order under lower-cased names |
| CsfEncode.StoreLastWins | CNCMaps.FileFormats/CsfFile.cs:69-79 | of records with the same lower-cased name, the last one read decides the entry |
| CsfEncode.Utf16RoundTrip | CNCMaps.FileFormats/CsfFile.cs:101 | decoding little-endian UTF-16 bytes gives back the code units they were made from |

## Left out

- The float translucency blend (ShpRenderer.cs:91-95) is the `blend` parameter. A translucent write's colour is therefore unknown; its z and height stores are the same as an opaque write's.
- The surface's row stride is taken to be `3 * Width`. The source reads `BitmapData.Stride` separately (ShpRenderer.cs:46, 148), and a 24-bit GDI+ bitmap pads it to a multiple of 4 bytes. With padding, the source's byte address and plane index drift apart row by row. The model walks only the plane index.
- ShpRenderer.DrawShadow: `GameObject.owner` is never null here. The source checks `obj.Drawable != null` for the cast height (ShpRenderer.cs:161), then reads `obj.Drawable.Flat` unguarded (ShpRenderer.cs:175), which throws for an object without a drawable.
- `ShpRenderer.DrawAlpha` and `limit` are float multiply-and-truncate. In `TerrainDrawable` the alpha overlays' effect is the `alphaBlend` parameter, which may change only colour bytes.
- The `"3456"` debug branch of `Draw`, which writes building depth bytes as colours, and every `Logger` call are not modelled.
- The file system, SHP and TMP decoding and `Palette` contents are not modelled. The same holds for INI value conversion (`ReadBool`, `ReadInt`), `FrameDeciders`, `Defaults`, `SpecialOverlays`, `OffsetHacks`, `DrawProperties.GetOffset`/`GetShadowOffset`, `TmpRenderer` and .NET `Regex`. Each is a function-valued parameter of unknown behaviour. A missing INI key gives the default.
- `System.Random` is an oracle value, and `Next(n)` is that value modulo n. `ModConfig.ActiveTheater` is a parameter, and so is the cached `buildngz.shp` asset, given as its first image.
- A frame decider's result is `Decided`: an `Index` or the `Random` sentinel. The source returns a plain `int` and tests it against the `DrawFrame.Random` value (ShpRenderer.cs:250-252). The deciders, which are parameters here, are trusted to report that value as the sentinel and never as an `Index`.
- `int.TryParse` uses the current culture. The model parses as the invariant culture does: ASCII digits with an optional sign.
- `TileWidth` and `TileHeight` are fixed at the Red Alert 2 values 60 and 30. The source reads them from a static field and from the configuration.
- int32 overflow of the source's integer arithmetic is not modelled, except the `ReadInt32() * 2` of the CSF wide-string count. `(short)` casts are.
- LightingType.cs has no `Default` member, yet the override loop compares against one. An override's lighting is therefore `LightingChoice`, whose `DefaultLighting` means "leave alone".
- The collection and theater bit masks of an override are sets; `(mask & T) == T` is membership.
- ObjectCollection.SortByDescendingPriority is a stable sort, as `OrderByDescending` is. Among overrides of equal priority, ConfigOverridesOutcome names the one applied last, but not which of them that is.
- GameTypes.CloneIsolatesProps: with value semantics a clone shares nothing. The source's `MemberwiseClone` still shares `SubDrawables` and the other reference fields; that sharing is not modelled.
- The base-class constructors, `Drawable.DrawBoundingBox`, `ToString` and the drawable classes not listed (units, buildings, animations, alpha drawables) are not modelled. Their loaders enter `LoadDrawable` as the `otherLoad` parameter.
- `TerrainDrawable.LoadFromRules` only calls the base method, so it is `DrawableRules.LoadFromRules`. `TileDrawable.GetBounds` and `GetTileFile` only forward to `TmpRenderer` and the tile set, so they are not modelled.
- The drawable's flat field list is grouped into `traits`, `frames` and `art`, and sub-drawables into the list of alpha image files.
- ShpDrawable.Draw: a pass that throws leaves the bridge offset added, as in the source; the contract promises the restored offset only when no pass threw.
- TerrainDrawable.Draw: the props after drawing are promised unchanged only for non-infantry owners. An infantry-owned terrain would take the infantry frame decider through the shared props.
- CSF: stream reads past the end, and a negative length, are `Fail` results. The source's `VirtualFile` behaviour there is not part of this model.
- CSF: `Encoding.ASCII` decoding maps bytes above 127 to '?'. `Encoding.Unicode` is read per code unit, little-endian, without replacement of unpaired surrogates.
- CSF: `ToLower` is ASCII-only, not culture-sensitive.
- CsfEncode is a writer that the source does not have. It exists only to state the round trip.
- The C# mutation of a drawable in place becomes a function returning the updated drawable.

=== FILE: cs_int.dfy ===
/**
 * C# integer semantics that differ from Dafny's unbounded integers: truncating
 * division, the `(short)` and 32-bit wrap-around casts, and the byte range.
 */
module CsInt {

  type byte = x: int | 0 <= x < 256

  const ShortMin: int := -0x8000
  const ShortLimit: int := 0x1_0000
  const IntMin: int := -0x8000_0000
  const IntLimit: int := 0x1_0000_0000

  predicate IsShort(v: int) {
    ShortMin <= v < ShortMin + ShortLimit
  }

  predicate IsInt32(v: int) {
    IntMin <= v < IntMin + IntLimit
  }

  function Abs(v: int): int {
    if v < 0 then -v else v
  }

  /**
   * C#'s `/` on `int`: the quotient is truncated toward zero, so the remainder
   * `a - q * b` takes the dividend's sign and is smaller than the divisor in size.
   */
  function CsDiv(a: int, b: int): (q: int)
    requires b != 0
    ensures b > 0 && a >= 0 ==> q == a / b
    ensures a >= 0 ==> 0 <= a - q * b < Abs(b)
    ensures a < 0 ==> -Abs(b) < a - q * b <= 0
  {
    if a >= 0 then (if b > 0 then a / b else -(a / (-b)))
    else if b > 0 then -((-a) / b)
    else (-a) / (-b)
  }

  /** An unchecked `(short)` cast, also the implicit narrowing of `short += …`. */
  function Wrap16(v: int): (r: int)
    ensures IsShort(r)
    ensures (r - v) % ShortLimit == 0
    ensures IsShort(v) ==> r == v
  {
    (v - ShortMin) % ShortLimit + ShortMin
  }

  /** Unchecked 32-bit `int` arithmetic: the result wraps into the signed range. */
  function Wrap32(v: int): (r: int)
    ensures IsInt32(r)
    ensures (r - v) % IntLimit == 0
    ensures IsInt32(v) ==> r == v
  {
    (v - IntMin) % IntLimit + IntMin
  }

  /** An unchecked `(byte)` cast keeps the low eight bits. */
  function ToByte(v: int): (r: byte)
    ensures (r - v) % 256 == 0
    ensures 0 <= v < 256 ==> r == v
  {
    v % 256
  }

  lemma {:induction false} CsDivMatchesEuclideanOnNonNegatives(a: int, b: int)
    requires a >= 0 && b > 0
    ensures CsDiv(a, b) == a / b
  {
  }

  /** Where C# and Dafny differ: -7 / 2 is -3 in C#, -4 in Dafny; the signs combine as in C#. */
  lemma CsDivTruncatesTowardZero()
    ensures CsDiv(-7, 2) == -3 && -7 / 2 == -4
    ensures CsDiv(-7, -2) == 3 && CsDiv(-8, -2) == 4 && CsDiv(7, -2) == -3
  {
  }

  /** A non-zero multiple of `b` is at least `b` in size. */
  lemma {:induction false} MultipleSize(d: int, b: int)
    ensures d == 0 || Abs(d * b) >= Abs(b)
  {
    if d != 0 {
      var m, n := Abs(d), Abs(b);
      assert Abs(d * b) == m * n by {
        if d < 0 && b < 0 {
          assert d * b == (-d) * (-b);
        } else if d < 0 {
          assert d * b == -((-d) * b);
        } else if b < 0 {
          assert d * b == -(d * (-b));
        }
      }
      assert m * n == (m - 1) * n + n;
      NonNegativeProduct(m - 1, n);
    }
  }

  lemma NonNegativeProduct(x: int, y: int)
    requires x >= 0 && y >= 0
    ensures x * y >= 0
  {
  }

  /** The quotient is unique: any `q` with C#'s remainder condition is `CsDiv(a, b)`. */
  lemma {:induction false} CsDivUnique(a: int, b: int, q: int)
    requires b != 0
    requires a >= 0 ==> 0 <= a - q * b < Abs(b)
    requires a < 0 ==> -Abs(b) < a - q * b <= 0
    ensures q == CsDiv(a, b)
  {
    var q0 := CsDiv(a, b);
    MultipleSize(q - q0, b);
    assert (a - q0 * b) - (a - q * b) == (q - q0) * b;
  }
}

=== FILE: csf_encode.dfy ===
/**
 * The inverse of the CSF reader: an encoder for headers and label records, and
 * the round trip that Parse reads back exactly what was written. Keys come back
 * lower-cased, and a later record with the same key replaces an earlier one.
 */
module CsfEncode {
  import opened Wrappers
  import opened CsInt
  import opened CsfFile

  // ---------------------------------------------------------------------------
  // Encoders
  // ---------------------------------------------------------------------------

  /** The low 32 bits of `v`, little-endian: the two's-complement bytes of an int32. */
  function EncodeInt32(v: int): (b: seq<byte>)
    ensures |b| == 4
  {
    var u := v % 0x1_0000_0000;
    var q1 := u / 0x100;
    var q2 := q1 / 0x100;
    [u % 0x100, q1 % 0x100, q2 % 0x100, q2 / 0x100]
  }

  predicate IsAscii(s: string) {
    forall i | 0 <= i < |s| :: s[i] as int < 128
  }

  /** One byte per character: the low eight bits, which for ASCII is the character itself. */
  function AsciiBytes(s: string): (b: seq<byte>)
    ensures |b| == |s|
  {
    seq(|s|, i requires 0 <= i < |s| => s[i] as int % 0x100)
  }

  /** Code units as little-endian byte pairs. */
  function Utf16Bytes(w: WString): (b: seq<byte>)
    ensures |b| == 2 * |w|
  {
    seq(2 * |w|, k requires 0 <= k < 2 * |w| => if k % 2 == 0 then w[k / 2] % 0x100 else w[k / 2] / 0x100)
  }

  predicate EncodableString(s: string) {
    IsAscii(s) && |s| < 0x8000_0000
  }

  function EncodeString(s: string): (b: seq<byte>)
    ensures |b| == 4 + |s|
  {
    EncodeInt32(|s|) + AsciiBytes(s)
  }

  /** A wide string whose byte count still fits an int32. */
  predicate EncodableWString(w: WString) {
    |w| < 0x4000_0000
  }

  function EncodeWString(w: WString): (b: seq<byte>)
    ensures |b| == 4 + 2 * |w|
  {
    EncodeInt32(|w|) + Utf16Bytes(ConvertToString(w))
  }

  // ---------------------------------------------------------------------------
  // Fields
  // ---------------------------------------------------------------------------

  /** The three kinds of field a CSF file is made of. */
  datatype Field = Int32Field(v: int) | StringField(s: string) | WStringField(w: WString)

  predicate ValidField(f: Field) {
    match f
    case Int32Field(v) => IsInt32(v)
    case StringField(s) => EncodableString(s)
    case WStringField(w) => EncodableWString(w)
  }

  predicate AllValid(fs: seq<Field>) {
    forall i | 0 <= i < |fs| :: ValidField(fs[i])
  }

  function FieldSize(f: Field): nat {
    match f
    case Int32Field(_) => 4
    case StringField(s) => 4 + |s|
    case WStringField(w) => 4 + 2 * |w|
  }

  function FieldsSize(fs: seq<Field>): nat
    decreases |fs|
  {
    if |fs| == 0 then 0 else FieldSize(fs[0]) + FieldsSize(fs[1..])
  }

  function EncodeField(f: Field): (b: seq<byte>)
    ensures |b| == FieldSize(f)
  {
    match f
    case Int32Field(v) => EncodeInt32(v)
    case StringField(s) => EncodeString(s)
    case WStringField(w) => EncodeWString(w)
  }

  function EncodeFields(fs: seq<Field>): (b: seq<byte>)
    ensures |b| == FieldsSize(fs)
    decreases |fs|
  {
    if |fs| == 0 then [] else EncodeField(fs[0]) + EncodeFields(fs[1..])
  }

  /** The reader's view of a field: the matching read at `pos` yields its value and ends right after it. */
  predicate FieldAt(data: seq<byte>, pos: nat, f: Field) {
    match f
    case Int32Field(v) => ReadInt32(data, pos) == Ok((v, pos + 4))
    case StringField(s) => ReadString(data, pos) == Ok((s, pos + FieldSize(f)))
    case WStringField(w) => ReadWstring(data, pos) == Ok((w, pos + FieldSize(f)))
  }

  /** Consecutive fields as the reader sees them. */
  predicate FieldsAt(data: seq<byte>, pos: nat, fs: seq<Field>)
    decreases |fs|
  {
    |fs| == 0 || (FieldAt(data, pos, fs[0]) && FieldsAt(data, pos + FieldSize(fs[0]), fs[1..]))
  }

  // ---------------------------------------------------------------------------
  // Records and files
  // ---------------------------------------------------------------------------

  /**
   * A label record as written: label tag, flags, name, and for odd flags the
   * value tag, the value and (for the "STRW" tag) the extra value.
   */
  datatype LabelRecord = LabelRecord(
    labelTag: int, flags: int, name: string, valueTag: int, value: WString, extra: string)

  /** The fields after the name: none for even flags. */
  function ValueFields(r: LabelRecord): seq<Field> {
    if r.flags % 2 == 0 then []
    else [Int32Field(r.valueTag)] + ([WStringField(r.value)] + if r.valueTag == StrwId then [StringField(r.extra)] else [])
  }

  function LabelFields(r: LabelRecord): seq<Field> {
    [Int32Field(r.labelTag)] + ([Int32Field(r.flags)] + ([StringField(r.name)] + ValueFields(r)))
  }

  /** Every field of the record fits its int32 length prefix. */
  predicate ValidRecord(r: LabelRecord) {
    IsInt32(r.labelTag) && IsInt32(r.flags) && EncodableString(r.name)
    && (r.flags % 2 != 0 ==>
          IsInt32(r.valueTag) && EncodableWString(r.value) && (r.valueTag == StrwId ==> EncodableString(r.extra)))
  }

  lemma ValidRecordFields(r: LabelRecord)
    requires ValidRecord(r)
    ensures AllValid(LabelFields(r))
  {
    var fs := LabelFields(r);
    forall i | 0 <= i < |fs| ensures ValidField(fs[i]) {
      if i >= 3 {
        assert fs[i] == ValueFields(r)[i - 3];
      }
    }
  }

  /** The bytes after the name. */
  function ValueSize(r: LabelRecord): nat {
    if r.flags % 2 == 0 then 0
    else 8 + 2 * |r.value| + if r.valueTag == StrwId then 4 + |r.extra| else 0
  }

  /** The bytes of a whole record. */
  function LabelSize(r: LabelRecord): nat {
    12 + |r.name| + ValueSize(r)
  }

  lemma LabelFieldsSize(r: LabelRecord)
    ensures FieldsSize(ValueFields(r)) == ValueSize(r)
    ensures FieldsSize(LabelFields(r)) == LabelSize(r)
  {
    var rest := ValueFields(r);
    if r.flags % 2 != 0 {
      var last: seq<Field> := if r.valueTag == StrwId then [StringField(r.extra)] else [];
      FieldsSizeCons(Int32Field(r.valueTag), [WStringField(r.value)] + last);
      FieldsSizeCons(WStringField(r.value), last);
      if r.valueTag == StrwId {
        FieldsSizeCons(StringField(r.extra), []);
      }
    }
    FieldsSizeCons(Int32Field(r.labelTag), [Int32Field(r.flags)] + ([StringField(r.name)] + rest));
    FieldsSizeCons(Int32Field(r.flags), [StringField(r.name)] + rest);
    FieldsSizeCons(StringField(r.name), rest);
  }

  function EncodeLabel(r: LabelRecord): (b: seq<byte>)
    ensures |b| == LabelSize(r)
  {
    LabelFieldsSize(r);
    EncodeFields(LabelFields(r))
  }

  function LabelsSize(rs: seq<LabelRecord>): nat
    decreases |rs|
  {
    if |rs| == 0 then 0 else LabelSize(rs[0]) + LabelsSize(rs[1..])
  }

  /** The items' encodings one after another. */
  function Concat<T>(enc: T -> seq<byte>, xs: seq<T>): seq<byte>
    decreases |xs|
  {
    if |xs| == 0 then [] else enc(xs[0]) + Concat(enc, xs[1..])
  }

  /** What the record stores: empty for even flags; the extra value only behind a "STRW" tag. */
  function EntryOf(r: LabelRecord): CsfEntry {
    if r.flags % 2 == 0 then CsfEntry([], "")
    else CsfEntry(r.value, if r.valueTag == StrwId then r.extra else "")
  }

  /** The map after the record is stored under its name. */
  function Stored(m: map<string, CsfEntry>, r: LabelRecord): map<string, CsfEntry> {
    SetValue(m, r.name, EntryOf(r).value, EntryOf(r).extraValue)
  }

  /** The records stored one after another, as the parse loop stores them. */
  function Store(m: map<string, CsfEntry>, rs: seq<LabelRecord>): map<string, CsfEntry>
    decreases |rs|
  {
    if |rs| == 0 then m else Store(Stored(m, rs[0]), rs[1..])
  }

  function HeaderFields(h: Header): seq<Field> {
    [Int32Field(h.id)] + ([Int32Field(h.flags1)] + ([Int32Field(h.numLabels)] + ([Int32Field(h.numExtraValues)]
    + ([Int32Field(h.zero)] + [Int32Field(h.language)]))))
  }

  predicate ValidHeader(h: Header) {
    AllValid(HeaderFields(h))
  }

  /** A whole file: the six header fields, then the records. */
  function Encode(h: Header, rs: seq<LabelRecord>): (b: seq<byte>)
  {
    EncodeFields(HeaderFields(h)) + Concat(EncodeLabel, rs)
  }

  // ---------------------------------------------------------------------------
  // Reading back
  // ---------------------------------------------------------------------------

  /**
   * `data` holds `b` at `pos`, byte by byte. Stated recursively so that a proof
   * about one record does not unfold the whole encoding at once.
   */
  predicate HoldsAt(data: seq<byte>, pos: nat, b: seq<byte>)
    decreases |b|
  {
    if |b| == 0 then pos <= |data| else pos < |data| && data[pos] == b[0] && HoldsAt(data, pos + 1, b[1..])
  }

  lemma {:induction false} HoldsAtSlice(data: seq<byte>, pos: nat, b: seq<byte>)
    requires HoldsAt(data, pos, b)
    ensures pos + |b| <= |data| && data[pos..pos + |b|] == b
    decreases |b|
  {
    if |b| > 0 {
      HoldsAtSlice(data, pos + 1, b[1..]);
      assert data[pos..pos + |b|] == [data[pos]] + data[pos + 1..pos + 1 + |b[1..]|];
      assert b == [b[0]] + b[1..];
    }
  }

  lemma {:induction false} SliceHoldsAt(data: seq<byte>, pos: nat, b: seq<byte>)
    requires pos + |b| <= |data| && data[pos..pos + |b|] == b
    ensures HoldsAt(data, pos, b)
    decreases |b|
  {
    if |b| > 0 {
      assert data[pos] == b[0];
      assert data[pos + 1..pos + 1 + |b[1..]|] == b[1..];
      SliceHoldsAt(data, pos + 1, b[1..]);
    }
  }

  lemma {:induction false} HoldsAtSplit(data: seq<byte>, pos: nat, a: seq<byte>, b: seq<byte>)
    requires HoldsAt(data, pos, a + b)
    ensures HoldsAt(data, pos, a) && HoldsAt(data, pos + |a|, b)
    decreases |a|
  {
    if |a| == 0 {
      assert a + b == b;
      HoldsAtSlice(data, pos, b);
    } else {
      assert (a + b)[0] == a[0] && (a + b)[1..] == a[1..] + b;
      HoldsAtSplit(data, pos + 1, a[1..], b);
    }
  }

  lemma ReadInt32Encoded(data: seq<byte>, pos: nat, v: int)
    requires IsInt32(v) && HoldsAt(data, pos, EncodeInt32(v))
    ensures ReadInt32(data, pos) == Ok((v, pos + 4))
  {
    var e := EncodeInt32(v);
    HoldsAtSlice(data, pos, e);
    assert data[pos] == e[0] && data[pos + 1] == e[1] && data[pos + 2] == e[2] && data[pos + 3] == e[3] by {
      assert data[pos..pos + 4][0] == data[pos];
      assert data[pos..pos + 4][1] == data[pos + 1];
      assert data[pos..pos + 4][2] == data[pos + 2];
      assert data[pos..pos + 4][3] == data[pos + 3];
    }
  }

  lemma ReadStringEncoded(data: seq<byte>, pos: nat, s: string)
    requires EncodableString(s) && HoldsAt(data, pos, EncodeString(s))
    ensures ReadString(data, pos) == Ok((s, pos + |EncodeString(s)|))
  {
    HoldsAtSplit(data, pos, EncodeInt32(|s|), AsciiBytes(s));
    ReadInt32Encoded(data, pos, |s|);
    HoldsAtSlice(data, pos + 4, AsciiBytes(s));
    assert AsciiDecode(AsciiBytes(s)) == s;
  }

  lemma Utf16RoundTrip(w: WString)
    ensures Utf16Decode(Utf16Bytes(w)) == w
  {
    var b := Utf16Bytes(w);
    forall i | 0 <= i < |w| ensures Utf16Decode(b)[i] == w[i] {
      assert (2 * i) / 2 == i && (2 * i + 1) / 2 == i && (2 * i) % 2 == 0 && (2 * i + 1) % 2 == 1;
    }
  }

  lemma ReadWStringEncoded(data: seq<byte>, pos: nat, w: WString)
    requires EncodableWString(w) && HoldsAt(data, pos, EncodeWString(w))
    ensures ReadWstring(data, pos) == Ok((w, pos + |EncodeWString(w)|))
  {
    var units := ConvertToString(w);
    HoldsAtSplit(data, pos, EncodeInt32(|w|), Utf16Bytes(units));
    ReadInt32Encoded(data, pos, |w|);
    HoldsAtSlice(data, pos + 4, Utf16Bytes(units));
    assert Wrap32(|w| * 2) == 2 * |w|;
    Utf16RoundTrip(units);
    ConvertToStringIsInvolution(w);
  }

  lemma EncodedFieldAt(data: seq<byte>, pos: nat, f: Field)
    requires ValidField(f) && HoldsAt(data, pos, EncodeField(f))
    ensures FieldAt(data, pos, f)
  {
    match f
    case Int32Field(v) => ReadInt32Encoded(data, pos, v);
    case StringField(s) => ReadStringEncoded(data, pos, s);
    case WStringField(w) => ReadWStringEncoded(data, pos, w);
  }

  /** Items the reader sees one after another, each starting where the previous one's size ends. */
  ghost predicate AllAt<T>(at: (nat, T) -> bool, size: T -> nat, pos: nat, xs: seq<T>)
    decreases |xs|
  {
    |xs| == 0 || (at(pos, xs[0]) && AllAt(at, size, pos + size(xs[0]), xs[1..]))
  }

  /**
   * Concatenated encodings read back item by item, given that one encoded item
   * reads back wherever it is held.
   */
  lemma {:induction false} ConcatReadsBack<T>(data: seq<byte>, enc: T -> seq<byte>, size: T -> nat,
                                              at: (nat, T) -> bool, valid: T -> bool, pos: nat, xs: seq<T>)
    requires forall x :: |enc(x)| == size(x)
    requires forall i | 0 <= i < |xs| :: valid(xs[i])
    requires forall p: nat, x | valid(x) && HoldsAt(data, p, enc(x)) :: at(p, x)
    requires HoldsAt(data, pos, Concat(enc, xs))
    ensures AllAt(at, size, pos, xs)
    decreases |xs|
  {
    if |xs| > 0 {
      HoldsAtSplit(data, pos, enc(xs[0]), Concat(enc, xs[1..]));
      assert forall i | 0 <= i < |xs[1..]| :: valid(xs[1..][i]) by {
        forall i | 0 <= i < |xs[1..]| ensures valid(xs[1..][i]) {
          assert xs[1..][i] == xs[i + 1];
        }
      }
      ConcatReadsBack(data, enc, size, at, valid, pos + size(xs[0]), xs[1..]);
    }
  }

  lemma {:induction false} EncodeFieldsIsConcat(fs: seq<Field>)
    ensures EncodeFields(fs) == Concat(EncodeField, fs)
    decreases |fs|
  {
    if |fs| > 0 {
      EncodeFieldsIsConcat(fs[1..]);
    }
  }

  function FieldStep(data: seq<byte>): (nat, Field) -> bool {
    (p: nat, f: Field) => FieldAt(data, p, f)
  }

  lemma {:induction false} FieldsAtIsAllAt(data: seq<byte>, pos: nat, fs: seq<Field>)
    ensures FieldsAt(data, pos, fs) == AllAt(FieldStep(data), FieldSize, pos, fs)
    decreases |fs|
  {
    if |fs| > 0 {
      assert FieldStep(data)(pos, fs[0]) == FieldAt(data, pos, fs[0]);
      FieldsAtIsAllAt(data, pos + FieldSize(fs[0]), fs[1..]);
    }
  }

  lemma FieldStepReadsFields(data: seq<byte>)
    ensures forall p: nat, f | ValidField(f) && HoldsAt(data, p, EncodeField(f)) :: FieldStep(data)(p, f)
  {
    forall p: nat, f | ValidField(f) && HoldsAt(data, p, EncodeField(f)) ensures FieldStep(data)(p, f) {
      EncodedFieldAt(data, p, f);
    }
  }

  /** Valid fields held in the data read back one after another. */
  lemma EncodedFieldsAt(data: seq<byte>, pos: nat, fs: seq<Field>)
    requires AllValid(fs) && HoldsAt(data, pos, EncodeFields(fs))
    ensures FieldsAt(data, pos, fs)
  {
    EncodeFieldsIsConcat(fs);
    FieldStepReadsFields(data);
    ConcatReadsBack(data, EncodeField, FieldSize, FieldStep(data), ValidField, pos, fs);
    FieldsAtIsAllAt(data, pos, fs);
  }

  lemma FieldsAtCons(data: seq<byte>, pos: nat, f: Field, fs: seq<Field>)
    requires FieldsAt(data, pos, [f] + fs)
    ensures FieldAt(data, pos, f) && FieldsAt(data, pos + FieldSize(f), fs)
  {
    assert ([f] + fs)[1..] == fs;
  }

  lemma FieldsSizeCons(f: Field, fs: seq<Field>)
    ensures FieldsSize([f] + fs) == FieldSize(f) + FieldsSize(fs)
  {
    assert ([f] + fs)[1..] == fs;
  }

  /** The head fields read back: flags and name, ending where the value fields start. */
  lemma LabelHeadAt(data: seq<byte>, pos: nat, r: LabelRecord)
    requires FieldsAt(data, pos, LabelFields(r))
    ensures ReadLabelHead(data, pos) == Ok((r.flags, r.name, pos + 12 + |r.name|))
    ensures FieldsAt(data, pos + 12 + |r.name|, ValueFields(r))
  {
    var rest := ValueFields(r);
    FieldsAtCons(data, pos, Int32Field(r.labelTag), [Int32Field(r.flags)] + ([StringField(r.name)] + rest));
    FieldsAtCons(data, pos + 4, Int32Field(r.flags), [StringField(r.name)] + rest);
    FieldsAtCons(data, pos + 8, StringField(r.name), rest);
  }

  /** The value fields read back to the record's entry. */
  lemma LabelValueAt(data: seq<byte>, pos: nat, r: LabelRecord)
    requires FieldsAt(data, pos, ValueFields(r))
    ensures ReadLabelValue(data, pos, r.flags) == Ok((EntryOf(r), pos + ValueSize(r)))
  {
    if r.flags % 2 != 0 {
      var last: seq<Field> := if r.valueTag == StrwId then [StringField(r.extra)] else [];
      FieldsAtCons(data, pos, Int32Field(r.valueTag), [WStringField(r.value)] + last);
      FieldsAtCons(data, pos + 4, WStringField(r.value), last);
      if r.valueTag == StrwId {
        FieldsAtCons(data, pos + 8 + 2 * |r.value|, StringField(r.extra), []);
      }
    }
  }

  /** ParseLabel is its head read followed by its value read. */
  lemma ParseLabelOfParts(data: seq<byte>, pos: nat, m: map<string, CsfEntry>, flags: int, name: string, p3: nat,
                          e: CsfEntry, end: nat)
    requires ReadLabelHead(data, pos) == Ok((flags, name, p3))
    requires ReadLabelValue(data, p3, flags) == Ok((e, end))
    ensures ParseLabel(data, pos, m) == Ok((SetValue(m, name, e.value, e.extraValue), end))
  {
  }

  /** A record the reader sees field by field parses to its entry and ends after its last field. */
  lemma ParseLabelAt(data: seq<byte>, pos: nat, m: map<string, CsfEntry>, r: LabelRecord)
    requires FieldsAt(data, pos, LabelFields(r))
    ensures ParseLabel(data, pos, m)
      == Ok((SetValue(m, r.name, EntryOf(r).value, EntryOf(r).extraValue), pos + LabelSize(r)))
  {
    var p3 := pos + 12 + |r.name|;
    LabelHeadAt(data, pos, r);
    LabelValueAt(data, p3, r);
    ParseLabelOfParts(data, pos, m, r.flags, r.name, p3, EntryOf(r), pos + LabelSize(r));
  }

  lemma EncodedLabelParses(data: seq<byte>, pos: nat, m: map<string, CsfEntry>, r: LabelRecord)
    requires ValidRecord(r) && HoldsAt(data, pos, EncodeLabel(r))
    ensures ParseLabel(data, pos, m) == Ok((Stored(m, r), pos + LabelSize(r)))
  {
    ValidRecordFields(r);
    EncodedFieldsAt(data, pos, LabelFields(r));
    ParseLabelAt(data, pos, m, r);
  }

  // The parse loop with its step abstracted, so that the induction over the
  // records never unfolds a record read.

  type LabelStep = (nat, map<string, CsfEntry>) -> Result<(map<string, CsfEntry>, nat), CsfError>

  /** ParseLabels with `step` for the record read. */
  function Loop(step: LabelStep, pos: nat, m: map<string, CsfEntry>, count: int)
    : Result<(map<string, CsfEntry>, nat), CsfError>
    decreases count
  {
    if count <= 0 then Ok((m, pos))
    else
      var (m1, p1) :- step(pos, m);
      Loop(step, p1, m1, count - 1)
  }

  function ParseStep(data: seq<byte>): LabelStep {
    (p: nat, mm: map<string, CsfEntry>) => ParseLabel(data, p, mm)
  }

  lemma {:induction false} LoopIsParseLabels(data: seq<byte>, pos: nat, m: map<string, CsfEntry>, count: int)
    ensures ParseLabels(data, pos, m, count) == Loop(ParseStep(data), pos, m, count)
    decreases count
  {
    if count > 0 {
      var r := ParseLabel(data, pos, m);
      assert ParseStep(data)(pos, m) == r;
      if r.Ok? {
        LoopIsParseLabels(data, r.value.1, r.value.0, count - 1);
      }
    }
  }

  /** Each step stores the next record and moves past it. */
  ghost predicate StepsAt(step: LabelStep, pos: nat, m: map<string, CsfEntry>, rs: seq<LabelRecord>)
    decreases |rs|
  {
    |rs| == 0
    || (step(pos, m) == Ok((Stored(m, rs[0]), pos + LabelSize(rs[0])))
        && StepsAt(step, pos + LabelSize(rs[0]), Stored(m, rs[0]), rs[1..]))
  }

  lemma {:induction false} LoopStores(step: LabelStep, pos: nat, m: map<string, CsfEntry>, rs: seq<LabelRecord>,
                                      count: nat)
    requires StepsAt(step, pos, m, rs) && count == |rs|
    ensures Loop(step, pos, m, count) == Ok((Store(m, rs), pos + LabelsSize(rs)))
    decreases |rs|
  {
    if |rs| > 0 {
      LoopStores(step, pos + LabelSize(rs[0]), Stored(m, rs[0]), rs[1..], count - 1);
    }
  }

  /** Records held one after another are read one step each, whatever the encoder and the step. */
  lemma {:induction false} EncodedSteps(data: seq<byte>, enc: LabelRecord -> seq<byte>, step: LabelStep, pos: nat,
                                        m: map<string, CsfEntry>, rs: seq<LabelRecord>)
    requires forall i | 0 <= i < |rs| :: ValidRecord(rs[i])
    requires forall r :: |enc(r)| == LabelSize(r)
    requires forall p: nat, mm: map<string, CsfEntry>, r: LabelRecord | ValidRecord(r) && HoldsAt(data, p, enc(r))
      :: step(p, mm) == Ok((Stored(mm, r), p + LabelSize(r)))
    requires HoldsAt(data, pos, Concat(enc, rs))
    ensures StepsAt(step, pos, m, rs)
    decreases |rs|
  {
    if |rs| > 0 {
      HoldsAtSplit(data, pos, enc(rs[0]), Concat(enc, rs[1..]));
      EncodedSteps(data, enc, step, pos + LabelSize(rs[0]), Stored(m, rs[0]), rs[1..]);
    }
  }

  /** The record read steps over any valid encoded record and stores it. */
  lemma ParseStepReadsRecords(data: seq<byte>)
    ensures forall p: nat, mm: map<string, CsfEntry>, r: LabelRecord | ValidRecord(r) && HoldsAt(data, p, EncodeLabel(r))
      :: ParseStep(data)(p, mm) == Ok((Stored(mm, r), p + LabelSize(r)))
  {
    forall p: nat, mm: map<string, CsfEntry>, r: LabelRecord | ValidRecord(r) && HoldsAt(data, p, EncodeLabel(r))
      ensures ParseStep(data)(p, mm) == Ok((Stored(mm, r), p + LabelSize(r)))
    {
      EncodedLabelParses(data, p, mm, r);
    }
  }

  /** Encoded records, read by the parse loop, are stored in order. */
  lemma EncodedLabelsParse(data: seq<byte>, pos: nat, m: map<string, CsfEntry>, rs: seq<LabelRecord>, count: int)
    requires forall i | 0 <= i < |rs| :: ValidRecord(rs[i])
    requires HoldsAt(data, pos, Concat(EncodeLabel, rs)) && count == |rs|
    ensures ParseLabels(data, pos, m, count) == Ok((Store(m, rs), pos + LabelsSize(rs)))
  {
    ParseStepReadsRecords(data);
    EncodedSteps(data, EncodeLabel, ParseStep(data), pos, m, rs);
    LoopStores(ParseStep(data), pos, m, rs, count);
    LoopIsParseLabels(data, pos, m, count);
  }

  /** The header fields read back in order. */
  lemma HeaderAt(data: seq<byte>, h: Header)
    requires ValidHeader(h) && HoldsAt(data, 0, EncodeFields(HeaderFields(h)))
    ensures ReadInt32(data, 0) == Ok((h.id, 4)) && ReadInt32(data, 4) == Ok((h.flags1, 8))
    ensures ReadInt32(data, 8) == Ok((h.numLabels, 12)) && ReadInt32(data, 12) == Ok((h.numExtraValues, 16))
    ensures ReadInt32(data, 16) == Ok((h.zero, 20)) && ReadInt32(data, 20) == Ok((h.language, 24))
  {
    EncodedFieldsAt(data, 0, HeaderFields(h));
    var f5 := [Int32Field(h.language)];
    var f4 := [Int32Field(h.zero)] + f5;
    var f3 := [Int32Field(h.numExtraValues)] + f4;
    var f2 := [Int32Field(h.numLabels)] + f3;
    var f1 := [Int32Field(h.flags1)] + f2;
    FieldsAtCons(data, 0, Int32Field(h.id), f1);
    FieldsAtCons(data, 4, Int32Field(h.flags1), f2);
    FieldsAtCons(data, 8, Int32Field(h.numLabels), f3);
    FieldsAtCons(data, 12, Int32Field(h.numExtraValues), f4);
    FieldsAtCons(data, 16, Int32Field(h.zero), f5);
    FieldsAtCons(data, 20, Int32Field(h.language), []);
  }

  /** The header is 24 bytes. */
  lemma HeaderSize(h: Header)
    ensures |EncodeFields(HeaderFields(h))| == 24
  {
    var f5 := [Int32Field(h.language)];
    var f4 := [Int32Field(h.zero)] + f5;
    var f3 := [Int32Field(h.numExtraValues)] + f4;
    var f2 := [Int32Field(h.numLabels)] + f3;
    var f1 := [Int32Field(h.flags1)] + f2;
    FieldsSizeCons(Int32Field(h.id), f1);
    FieldsSizeCons(Int32Field(h.flags1), f2);
    FieldsSizeCons(Int32Field(h.numLabels), f3);
    FieldsSizeCons(Int32Field(h.numExtraValues), f4);
    FieldsSizeCons(Int32Field(h.zero), f5);
    FieldsSizeCons(Int32Field(h.language), []);
  }

  /** Bytes that hold an encoded header followed by encoded records parse back to them. */
  lemma HeldFileParses(data: seq<byte>, h: Header, rs: seq<LabelRecord>)
    requires ValidHeader(h) && h.numLabels == |rs|
    requires forall i | 0 <= i < |rs| :: ValidRecord(rs[i])
    requires HoldsAt(data, 0, EncodeFields(HeaderFields(h))) && HoldsAt(data, 24, Concat(EncodeLabel, rs))
    ensures Parse(data) == Ok(Csf(h, Store(map[], rs)))
  {
    HeaderAt(data, h);
    EncodedLabelsParse(data, 24, map[], rs, h.numLabels);
  }

  /**
   * The round trip: a file whose header counts its records parses back to that
   * header and to the records stored in order.
   */
  lemma ParseEncode(h: Header, rs: seq<LabelRecord>)
    requires ValidHeader(h) && h.numLabels == |rs|
    requires forall i | 0 <= i < |rs| :: ValidRecord(rs[i])
    ensures Parse(Encode(h, rs)) == Ok(Csf(h, Store(map[], rs)))
  {
    EncodeHolds(h, rs);
    HeldFileParses(Encode(h, rs), h, rs);
  }

  /** An encoded file holds its header at offset 0 and its records from offset 24. */
  lemma EncodeHolds(h: Header, rs: seq<LabelRecord>)
    ensures HoldsAt(Encode(h, rs), 0, EncodeFields(HeaderFields(h)))
    ensures HoldsAt(Encode(h, rs), 24, Concat(EncodeLabel, rs))
  {
    var data := Encode(h, rs);
    var head, body := EncodeFields(HeaderFields(h)), Concat(EncodeLabel, rs);
    assert data[0..|data|] == head + body;
    SliceHoldsAt(data, 0, head + body);
    HoldsAtSplit(data, 0, head, body);
    HeaderSize(h);
  }

  /** The last record with a given lower-cased name decides that key's entry. */
  lemma {:induction false} StoreLastWins(m: map<string, CsfEntry>, rs: seq<LabelRecord>, r: LabelRecord)
    ensures var s := Store(m, rs + [r]);
      AsciiLower(r.name) in s && s[AsciiLower(r.name)] == EntryOf(r)
    decreases |rs|
  {
    if |rs| == 0 {
      assert rs + [r] == [r];
    } else {
      assert (rs + [r])[1..] == rs[1..] + [r];
      StoreLastWins(Stored(m, rs[0]), rs[1..], r);
    }
  }
}

=== FILE: csf_file.dfy ===
/**
 * CNCMaps.FileFormats/CsfFile.cs: the Westwood string table. A header of six
 * little-endian int32 fields, then label records: a tag, a flags word, an ASCII
 * name, and, when bit 0 of the flags is set, a value tag, a wide string stored
 * with every UTF-16 code unit complemented, and an ASCII extra value when the
 * value tag is "STRW". Reading past the end of the data, or a negative length,
 * is a failure.
 */
module CsfFile {
  import opened Wrappers
  import opened CsInt

  /** A UTF-16 code unit. Wide strings are kept as code units, surrogates included. */
  type CodeUnit = x: int | 0 <= x < 0x1_0000
  type WString = seq<CodeUnit>

  datatype CsfError = EndOfData | NegativeLength

  /** "STRW" read as a little-endian int32: the file holds the bytes W, R, T, S. */
  const StrwId: int := 0x53 * 0x100_0000 + 0x54 * 0x1_0000 + 0x52 * 0x100 + 0x57

  // ---------------------------------------------------------------------------
  // Primitive reads
  // ---------------------------------------------------------------------------

  /** The little-endian two's-complement int32 at `pos`. */
  function Int32At(data: seq<byte>, pos: nat): (v: int)
    requires pos + 4 <= |data|
    ensures IsInt32(v)
  {
    var b0, b1, b2, b3: int := data[pos], data[pos + 1], data[pos + 2], data[pos + 3];
    var u := b0 + 0x100 * b1 + 0x1_0000 * b2 + 0x100_0000 * b3;
    if u >= 0x8000_0000 then u - 0x1_0000_0000 else u
  }

  /** `ReadInt32`: four bytes, or the end of the data. */
  function ReadInt32(data: seq<byte>, pos: nat): (r: Result<(int, nat), CsfError>)
    ensures r.Fail? <==> pos + 4 > |data|
    ensures r.Ok? ==> r.value.1 == pos + 4 && r.value.0 == Int32At(data, pos)
  {
    if pos + 4 > |data| then Fail(EndOfData) else Ok((Int32At(data, pos), pos + 4))
  }

  /** `Read(count)`: exactly `count` bytes; a negative count or a short read fails. */
  function ReadBytes(data: seq<byte>, pos: nat, count: int): (r: Result<(seq<byte>, nat), CsfError>)
    ensures count < 0 ==> r == Fail(NegativeLength)
    ensures count >= 0 && pos + count > |data| ==> r == Fail(EndOfData)
    ensures r.Ok? ==> r.value.1 == pos + count && r.value.0 == data[pos..pos + count]
  {
    if count < 0 then Fail(NegativeLength)
    else if pos + count > |data| then Fail(EndOfData)
    else Ok((data[pos..pos + count], pos + count))
  }

  /** `Encoding.ASCII.GetString`: bytes above 127 become '?'. */
  function AsciiDecode(bytes: seq<byte>): (s: string)
    ensures |s| == |bytes|
    ensures forall i | 0 <= i < |s| :: s[i] as int < 128
  {
    seq(|bytes|, i requires 0 <= i < |bytes| => if bytes[i] < 128 then bytes[i] as char else '?')
  }

  /** `Encoding.Unicode.GetString`: little-endian code-unit pairs. */
  function Utf16Decode(bytes: seq<byte>): (w: WString)
    ensures |w| == |bytes| / 2
  {
    seq(|bytes| / 2, i requires 0 <= i < |bytes| / 2 => bytes[2 * i] as int + 0x100 * bytes[2 * i + 1] as int)
  }

  /** `ConvertToString`: every code unit complemented, `(char)~c`. */
  function ConvertToString(s: WString): (r: WString)
    ensures |r| == |s|
    ensures forall i | 0 <= i < |s| :: r[i] as int + s[i] as int == 0xFFFF
  {
    seq(|s|, i requires 0 <= i < |s| => 0xFFFF - s[i])
  }

  lemma ConvertToStringIsInvolution(s: WString)
    ensures ConvertToString(ConvertToString(s)) == s
  {
  }

  /** `ReadString`: an int32 length, then that many ASCII bytes. */
  function ReadString(data: seq<byte>, pos: nat): (r: Result<(string, nat), CsfError>)
  {
    var (n, p) :- ReadInt32(data, pos);
    var (bytes, q) :- ReadBytes(data, p, n);
    Ok((AsciiDecode(bytes), q))
  }

  /**
   * `ReadWstring`: an int32 count of code units, then twice that many bytes
   * (the doubling wraps at 32 bits), decoded and complemented.
   */
  function ReadWstring(data: seq<byte>, pos: nat): (r: Result<(WString, nat), CsfError>)
  {
    var (n, p) :- ReadInt32(data, pos);
    var (bytes, q) :- ReadBytes(data, p, Wrap32(n * 2));
    Ok((ConvertToString(Utf16Decode(bytes)), q))
  }

  /** A string read is its length field followed by exactly that many bytes; a negative length fails. */
  lemma ReadStringSpec(data: seq<byte>, pos: nat)
    ensures var r := ReadString(data, pos);
      r.Ok? ==> ReadInt32(data, pos).Ok? && var n := ReadInt32(data, pos).value.0;
        && n >= 0 && pos + 4 + n <= |data| && |r.value.0| == n && r.value.1 == pos + 4 + n
        && r.value.0 == AsciiDecode(data[pos + 4..pos + 4 + n])
    ensures ReadInt32(data, pos).Ok? && ReadInt32(data, pos).value.0 < 0 ==> ReadString(data, pos) == Fail(NegativeLength)
  {
  }

  /**
   * A wide-string read takes the wrapped doubled count in bytes; a count that
   * doubles within range yields exactly that many code units.
   */
  lemma ReadWstringSpec(data: seq<byte>, pos: nat)
    ensures var r := ReadWstring(data, pos);
      r.Ok? ==> ReadInt32(data, pos).Ok? && var n := ReadInt32(data, pos).value.0;
        && var count := Wrap32(n * 2);
        && count >= 0 && pos + 4 + count <= |data| && r.value.1 == pos + 4 + count
        && r.value.0 == ConvertToString(Utf16Decode(data[pos + 4..pos + 4 + count]))
    ensures var r := ReadWstring(data, pos);
      r.Ok? && 0 <= ReadInt32(data, pos).value.0 < 0x4000_0000 ==>
        var n := ReadInt32(data, pos).value.0;
        r.value.1 == pos + 4 + 2 * n && |r.value.0| == n
  {
  }

  // ---------------------------------------------------------------------------
  // The label map
  // ---------------------------------------------------------------------------

  datatype CsfEntry = CsfEntry(value: WString, extraValue: string)

  /** `ToLower` on the ASCII letters. */
  function AsciiLower(s: string): (r: string)
    ensures |r| == |s|
    ensures forall i | 0 <= i < |r| :: !('A' <= r[i] <= 'Z')
  {
    seq(|s|, i requires 0 <= i < |s| => if 'A' <= s[i] <= 'Z' then (s[i] as int + 32) as char else s[i])
  }

  predicate LowerCaseKeys(m: map<string, CsfEntry>) {
    forall k | k in m :: forall i | 0 <= i < |k| :: !('A' <= k[i] <= 'Z')
  }

  /** `SetValue`: store under the lower-cased name, replacing an earlier entry. */
  function SetValue(m: map<string, CsfEntry>, name: string, value: WString, extraValue: string)
    : (r: map<string, CsfEntry>)
  {
    m[AsciiLower(name) := CsfEntry(value, extraValue)]
  }

  /** SetValue stores the entry under the lower-cased name and leaves every other key as it was. */
  lemma SetValueSpec(m: map<string, CsfEntry>, name: string, value: WString, extraValue: string)
    ensures var r := SetValue(m, name, value, extraValue);
      && AsciiLower(name) in r && r[AsciiLower(name)] == CsfEntry(value, extraValue)
      && (forall k | k in m && k != AsciiLower(name) :: k in r && r[k] == m[k])
      && r.Keys == m.Keys + {AsciiLower(name)}
  {
  }

  /** Storing keeps every key lower-case. */
  lemma SetValueKeepsLowerCase(m: map<string, CsfEntry>, name: string, value: WString, extraValue: string)
    requires LowerCaseKeys(m)
    ensures LowerCaseKeys(SetValue(m, name, value, extraValue))
  {
  }

  /** `GetValue`: the name is looked up as given, not lower-cased; a missing name reads as "". */
  function GetValue(m: map<string, CsfEntry>, name: string): (r: WString)
    ensures name !in m ==> r == []
    ensures name in m ==> r == m[name].value
  {
    if name in m then m[name].value else []
  }

  /** Because keys are stored lower-cased and looked up as given, a name with a capital letter is never found. */
  lemma CapitalisedNameIsNotFound(m: map<string, CsfEntry>, name: string, i: nat)
    requires LowerCaseKeys(m)
    requires i < |name| && 'A' <= name[i] <= 'Z'
    ensures name !in m && GetValue(m, name) == []
  {
  }

  // ---------------------------------------------------------------------------
  // Records and the file
  // ---------------------------------------------------------------------------

  /** The head of a label record: the label tag (read, not checked), the flags and the name. */
  function ReadLabelHead(data: seq<byte>, pos: nat): (r: Result<(int, string, nat), CsfError>)
  {
    var (_, p1) :- ReadInt32(data, pos);
    var (flags, p2) :- ReadInt32(data, p1);
    var (name, p3) :- ReadString(data, p2);
    Ok((flags, name, p3))
  }

  /** The head spans the two tags, the name's length field and the name. */
  lemma ReadLabelHeadSpec(data: seq<byte>, pos: nat)
    ensures var r := ReadLabelHead(data, pos);
      r.Ok? ==> r.value.2 == pos + 12 + |r.value.1| && ReadInt32(data, pos + 4) == Ok((r.value.0, pos + 8))
  {
    if ReadLabelHead(data, pos).Ok? {
      ReadStringSpec(data, pos + 8);
    }
  }

  /**
   * The value part of a label record, present only when bit 0 of the flags is
   * set: the value tag, the value, and the extra value read only when the tag
   * is "STRW".
   */
  function ReadLabelValue(data: seq<byte>, pos: nat, flags: int): (r: Result<(CsfEntry, nat), CsfError>)
  {
    if flags % 2 == 0 then Ok((CsfEntry([], ""), pos))
    else
      var (tag, p4) :- ReadInt32(data, pos);
      var (value, p5) :- ReadWstring(data, p4);
      var (extra, p6) :- if tag == StrwId then ReadString(data, p5) else Ok(("", p5));
      Ok((CsfEntry(value, extra), p6))
  }

  /**
   * Even flags read nothing; odd flags read at least the value tag and the
   * value, and an extra value only behind a "STRW" tag.
   */
  lemma ReadLabelValueSpec(data: seq<byte>, pos: nat, flags: int)
    ensures flags % 2 == 0 ==> ReadLabelValue(data, pos, flags) == Ok((CsfEntry([], ""), pos))
    ensures var r := ReadLabelValue(data, pos, flags);
      r.Ok? && flags % 2 != 0 ==> r.value.1 >= pos + 8 + 2 * |r.value.0.value|
    ensures var r := ReadLabelValue(data, pos, flags);
      r.Ok? && flags % 2 != 0 ==> pos + 4 <= |data| && (Int32At(data, pos) != StrwId ==> r.value.0.extraValue == "")
  {
    var r := ReadLabelValue(data, pos, flags);
    if r.Ok? && flags % 2 != 0 {
      ReadWstringSpec(data, pos + 4);
      if Int32At(data, pos) == StrwId {
        ReadStringSpec(data, pos + 4 + 4 + 2 * |r.value.0.value|);
      }
    }
  }

  /** One label record of the loop, stored under its lower-cased name. */
  function ParseLabel(data: seq<byte>, pos: nat, m: map<string, CsfEntry>)
    : (r: Result<(map<string, CsfEntry>, nat), CsfError>)
  {
    var (flags, name, p3) :- ReadLabelHead(data, pos);
    var (entry, p6) :- ReadLabelValue(data, p3, flags);
    Ok((SetValue(m, name, entry.value, entry.extraValue), p6))
  }

  /** A record always consumes bytes, adds its key and keeps the keys lower-case. */
  lemma ParseLabelSpec(data: seq<byte>, pos: nat, m: map<string, CsfEntry>)
    ensures var r := ParseLabel(data, pos, m);
      r.Ok? ==> r.value.1 > pos && m.Keys <= r.value.0.Keys
    ensures var r := ParseLabel(data, pos, m);
      r.Ok? && LowerCaseKeys(m) ==> LowerCaseKeys(r.value.0)
  {
    var r := ParseLabel(data, pos, m);
    if r.Ok? {
      var (flags, name, p3) := ReadLabelHead(data, pos).value;
      ReadLabelHeadSpec(data, pos);
      ReadLabelValueSpec(data, p3, flags);
      var entry := ReadLabelValue(data, p3, flags).value.0;
      SetValueSpec(m, name, entry.value, entry.extraValue);
      if LowerCaseKeys(m) {
        SetValueKeepsLowerCase(m, name, entry.value, entry.extraValue);
      }
    }
  }

  /** A record whose flags have bit 0 clear stores an empty entry and ends right after its name. */
  lemma UnflaggedLabelReadsNoValue(data: seq<byte>, pos: nat, m: map<string, CsfEntry>)
    requires ReadLabelHead(data, pos).Ok? && ReadLabelHead(data, pos).value.0 % 2 == 0
    ensures var (_, name, end) := ReadLabelHead(data, pos).value;
      ParseLabel(data, pos, m) == Ok((SetValue(m, name, [], ""), end))
  {
  }

  /** `for (int i = 0; i < NumLabels; i++)`: exactly `count` records, none for a count of zero or less. */
  function ParseLabels(data: seq<byte>, pos: nat, m: map<string, CsfEntry>, count: int)
    : (r: Result<(map<string, CsfEntry>, nat), CsfError>)
    ensures count <= 0 ==> r == Ok((m, pos))
    decreases count
  {
    if count <= 0 then Ok((m, pos))
    else
      var (m1, p1) :- ParseLabel(data, pos, m);
      ParseLabels(data, p1, m1, count - 1)
  }

  /** Each of the `count` records consumes at least one byte, and the keys stay lower-case. */
  lemma {:induction false} ParseLabelsSpec(data: seq<byte>, pos: nat, m: map<string, CsfEntry>, count: int)
    ensures var r := ParseLabels(data, pos, m, count);
      r.Ok? ==> r.value.1 >= pos + (if count > 0 then count else 0)
    ensures var r := ParseLabels(data, pos, m, count);
      r.Ok? && LowerCaseKeys(m) ==> LowerCaseKeys(r.value.0)
    decreases count
  {
    if count > 0 {
      ParseLabelSpec(data, pos, m);
      var first := ParseLabel(data, pos, m);
      if first.Ok? {
        ParseLabelsSpec(data, first.value.1, first.value.0, count - 1);
      }
    }
  }

  datatype Header = Header(id: int, flags1: int, numLabels: int, numExtraValues: int, zero: int, language: int)

  datatype Csf = Csf(header: Header, labels: map<string, CsfEntry>)

  /**
   * `Parse`: the six header fields, then `NumLabels` records into an empty map.
   * The id is read but not checked.
   */
  function Parse(data: seq<byte>): (r: Result<Csf, CsfError>)
  {
    var (id, p0) :- ReadInt32(data, 0);
    var (flags1, p1) :- ReadInt32(data, p0);
    var (numLabels, p2) :- ReadInt32(data, p1);
    var (numExtra, p3) :- ReadInt32(data, p2);
    var (zero, p4) :- ReadInt32(data, p3);
    var (language, p5) :- ReadInt32(data, p4);
    var (labels, _) :- ParseLabels(data, p5, map[], numLabels);
    Ok(Csf(Header(id, flags1, numLabels, numExtra, zero, language), labels))
  }

  /**
   * A parse fails on data shorter than the header, takes the header fields
   * from the first 24 bytes, keeps every key lower-case, and reads no records
   * for a label count of zero or less.
   */
  lemma ParseSpec(data: seq<byte>)
    ensures |data| < 24 ==> Parse(data) == Fail(EndOfData)
    ensures var r := Parse(data);
      r.Ok? ==> && r.value.header.id == Int32At(data, 0) && r.value.header.flags1 == Int32At(data, 4)
                && r.value.header.numLabels == Int32At(data, 8)
                && r.value.header.numExtraValues == Int32At(data, 12)
                && r.value.header.zero == Int32At(data, 16) && r.value.header.language == Int32At(data, 20)
    ensures var r := Parse(data);
      r.Ok? ==> LowerCaseKeys(r.value.labels)
    ensures |data| >= 24 && Int32At(data, 8) <= 0 ==> Parse(data).Ok? && Parse(data).value.labels == map[]
  {
    if |data| >= 24 {
      ParseLabelsSpec(data, 24, map[], Int32At(data, 8));
    }
  }
}

=== FILE: drawable_rules.dfy ===
/**
 * Configuration resolution of CNCMaps.Engine/Drawables/Drawable.cs:
 * LoadFromArtEssential and LoadFromRulesFull, a pure function from the rules
 * and art sections (plus engine and collection) to the drawable's flags and
 * DrawProperties. The body follows the source's sequence of assignments; the
 * contract states the outcome as precedence lists, highest priority first.
 */
module DrawableRules {
  import opened Wrappers
  import opened Geometry
  import opened GameTypes
  import opened Ini

  /**
   * What resolution reads besides the two sections: the engine, the owning
   * collection's type and art file, the category defaults, the file-exists test
   * and the INI conversions.
   */
  datatype LoadContext = LoadContext(
    engine: EngineType,
    collection: CollectionType,
    parsers: IniParsers,
    shadowAssumption: CollectionType -> bool,
    flatnessAssumption: CollectionType -> bool,
    fileExists: string -> bool,
    artFile: map<string, IniSection>)

  /** `LoadFromArtEssential`: image name, voxel flag and the two theater switches. */
  function LoadFromArtEssential(ctx: LoadContext, art: IniSection, d: Drawable): (r: Drawable)
    ensures r.art.image == (if "Image" in art.entries then art.entries["Image"] else art.name)
    ensures r.art.newTheater <==> ctx.engine.AtLeastRedAlert2() || ReadBool(ctx.parsers, art, "NewTheater", false)
    ensures r.(art := d.art) == d
  {
    d.(art := ArtInfo(
         ReadString(art, "Image", art.name),
         ReadBool(ctx.parsers, art, "Voxel", false),
         ctx.engine.AtLeastRedAlert2() || ReadBool(ctx.parsers, art, "NewTheater", false),
         ReadBool(ctx.parsers, art, "Theater", false)))
  }

  // ---------------------------------------------------------------------------
  // Helpers
  // ---------------------------------------------------------------------------

  function ToUpperAscii(s: string): (u: string)
    ensures |u| == |s|
  {
    seq(|s|, i requires 0 <= i < |s| => if 'a' <= s[i] <= 'z' then (s[i] as int - 32) as char else s[i])
  }

  predicate Contains(s: string, t: string) {
    exists i | 0 <= i <= |s| :: t <= s[i..]
  }

  /** The low-bridge naming pattern of the road z-adjust. */
  predicate IsLowBridgeName(name: string) {
    Contains(ToUpperAscii(name), "LOBRDG") || Contains(ToUpperAscii(name), "LOBRDB")
  }

  /**
   * The "Ready" triple of a sequence: exactly three comma-separated parts that
   * all parse as integers, or nothing.
   */
  function ParseReady(s: string): (r: Option<(int, int, int)>)
    ensures r.Some? <==> |Split(s, ',')| == 3 && forall k | 0 <= k < 3 :: TryParseInt(Split(s, ',')[k]).Some?
    ensures r.Some? ==> r.value == (TryParseInt(Split(s, ',')[0]).value, TryParseInt(Split(s, ',')[1]).value,
                                    TryParseInt(Split(s, ',')[2]).value)
  {
    var parts := Split(s, ',');
    if |parts| == 3 then
      var a, b, c := TryParseInt(parts[0]), TryParseInt(parts[1]), TryParseInt(parts[2]);
      if a.Some? && b.Some? && c.Some? then
        Some((a.value, b.value, c.value))
      else Option.None
    else Option.None
  }

  lemma ParseSmallNumbers()
    ensures TryParseInt("2") == Some(2) && TryParseInt("4") == Some(4) && TryParseInt("8") == Some(8)
  {
    TryParseIntToString(2);
    TryParseIntToString(4);
    TryParseIntToString(8);
    assert IntToString(2) == "2" && IntToString(4) == "4" && IntToString(8) == "8";
  }

  /** A sequence's "Ready" value "2,4,8" is read; "2,4" leaves the defaults. */
  lemma ReadyExamples()
    ensures ParseReady("2,4,8") == Some((2, 4, 8))
    ensures ParseReady("2,4") == Option.None
  {
    SplitJoin(["2", "4", "8"], ',');
    assert Join(["2", "4", "8"], ',') == "2,4,8";
    SplitJoin(["2", "4"], ',');
    assert Join(["2", "4"], ',') == "2,4";
    ParseSmallNumbers();
  }

  // ---------------------------------------------------------------------------
  // Precedence references for the outcome of LoadFromRulesFull
  // ---------------------------------------------------------------------------

  /** The rule and art flags resolution branches on, read once. */
  datatype Flags = Flags(
    remapableSet: bool, remapable: bool, noUseTileLandType: bool,
    terrainPalette: bool, animPalette: bool, palette: string,
    gate: bool, wall: bool, rubble: bool, veins: bool, veinholeMonster: bool,
    land: string, spawnsTiberium: bool, xDrawOffset: int, yDrawOffset: int,
    lowBridgeName: bool)

  function ReadFlags(ctx: LoadContext, rules: IniSection, art: IniSection, name: string): Flags {
    var p := ctx.parsers;
    Flags(
      ReadString(art, "Remapable", "") != "", ReadBool(p, art, "Remapable", false),
      ReadString(rules, "NoUseTileLandType", "") != "",
      ReadBool(p, art, "TerrainPalette", false), ReadBool(p, art, "AnimPalette", false),
      ReadString(art, "Palette", ""),
      ReadBool(p, rules, "Gate", false), ReadBool(p, rules, "Wall", false),
      ReadBool(p, rules, "IsRubble", false), ReadBool(p, rules, "IsVeins", false),
      ReadBool(p, rules, "IsVeinholeMonster", false), ReadString(rules, "Land", ""),
      ReadBool(p, rules, "SpawnsTiberium", false),
      ReadInt(p, art, "XDrawOffset", 0), ReadInt(p, art, "YDrawOffset", 0),
      IsLowBridgeName(name))
  }

  /** Palette mode, highest priority first. */
  function PalettePrecedence(f: Flags, initial: PaletteType): PaletteType {
    if f.spawnsTiberium then Unit
    else if f.land == "Railroad" then Iso
    else if f.veinholeMonster || f.veins || f.wall || f.gate then Unit
    else if f.terrainPalette then Iso
    else if f.animPalette then Anim
    else if f.palette != "" then Custom
    else if f.noUseTileLandType then Iso
    else initial
  }

  /** Lighting mode, highest priority first. */
  function LightingPrecedence(f: Flags, initial: LightingType): LightingType {
    if f.spawnsTiberium then LightingType.None
    else if f.land == "Railroad" then Full
    else if f.veinholeMonster || f.veins then LightingType.None
    else if f.wall then Ambient
    else if !f.terrainPalette && f.animPalette then LightingType.None
    else if f.noUseTileLandType then Full
    else initial
  }

  /** The vertical offset before the art's draw offset is added, highest priority first. */
  function OffsetYPrecedence(f: Flags, engine: EngineType, initial: int): int {
    if f.spawnsTiberium then -1
    else if f.land == "Railroad" then (if engine.AtMostFirestorm() then 11 else 14)
    else
      var landShift := if f.land == "Rock" || f.land == "Road" then TileHeight / 2 else 0;
      landShift + (if f.veinholeMonster then -49
                   else if f.veins then -1
                   else initial + (if f.wall && engine.AtLeastRedAlert2() then 3 else 0))
  }

  // ---------------------------------------------------------------------------
  // LoadFromRulesFull
  // ---------------------------------------------------------------------------

  /**
   * `LoadFromRulesFull`, applied to the drawable as the loader prepared it
   * (category defaults, then LoadFromArtEssential). The lemmas after the stages
   * state the outcome of the other fields.
   */
  function LoadFromRulesFull(ctx: LoadContext, rules: IniSection, art: IniSection, d: Drawable): (r: Drawable)
    // shadow: the art's Shadow (category default) and not the rules' NoShadow
    ensures r.props.hasShadow <==>
      ReadBool(ctx.parsers, art, "Shadow", ctx.shadowAssumption(ctx.collection))
      && !ReadBool(ctx.parsers, rules, "NoShadow", false)
    ensures r.props.cloakable == ReadBool(ctx.parsers, rules, "Cloakable", false)
    // gates and walls are upright; veins are flat regardless of the flatness keys
    ensures var f := ReadFlags(ctx, rules, art, d.name);
      r.traits.flat == (f.veins || (!f.gate && !f.wall
        && (ReadBool(ctx.parsers, rules, "DrawFlat", ctx.flatnessAssumption(ctx.collection))
            || ReadBool(ctx.parsers, rules, "Flat", false))))
  {
    var f := ReadFlags(ctx, rules, art, d.name);
    var d1 := RemapableStage(ctx, f, d);
    var d2 := NoUseTileLandTypeStage(f, d1);
    var d3 := PaletteStage(f, d2);
    var d4 := AlphaStage(ctx, rules, d3);
    var d5 := ShadowFlatStage(ctx, rules, art, d4);
    var d6 := GateStage(f, d5);
    var d7 := WallStage(ctx, f, d6);
    var d8 := RubbleStage(f, d7);
    var d9 := VeinsStage(f, d8);
    var d10 := VeinholeStage(f, d9);
    var d11 := LandStage(ctx, f, d10);
    var d12 := TiberiumStage(f, d11);
    var d13 := AnimationStage(ctx, art, f, d12);
    ReadyStage(ctx, art, d13)
  }

  // The stages of LoadFromRulesFull, in source order. Each one is the block of
  // assignments guarded by one rules or art key, written as a single update
  // whose fields keep their old value when the key is absent.

  function RemapableStage(ctx: LoadContext, f: Flags, d: Drawable): Drawable {
    // Remapable does not work in RA2
    var apply := f.remapableSet && ctx.engine.AtMostFirestorm();
    d.(traits := d.traits.(isRemapable := if apply then f.remapable else d.traits.isRemapable))
  }

  function NoUseTileLandTypeStage(f: Flags, d: Drawable): Drawable {
    var on := f.noUseTileLandType;
    d.(props := d.props.(paletteType := if on then Iso else d.props.paletteType,
                         lightingType := if on then Full else d.props.lightingType))
  }

  function PaletteStage(f: Flags, d: Drawable): Drawable {
    var custom := !f.terrainPalette && !f.animPalette && f.palette != "";
    d.(props := d.props.(
         paletteType := if f.terrainPalette then Iso else if f.animPalette then Anim
                        else if custom then Custom else d.props.paletteType,
         lightingType := if !f.terrainPalette && f.animPalette then LightingType.None else d.props.lightingType,
         customPaletteName := if custom then f.palette else d.props.customPaletteName),
       traits := d.traits.(isRemapable := if f.terrainPalette || f.animPalette then false else d.traits.isRemapable))
  }

  function AlphaStage(ctx: LoadContext, rules: IniSection, d: Drawable): Drawable {
    var alpha := ReadString(rules, "AlphaImage", "");
    d.(alphaImages := d.alphaImages + if alpha != "" && ctx.fileExists(alpha + ".shp") then [alpha + ".shp"] else [])
  }

  function ShadowFlatStage(ctx: LoadContext, rules: IniSection, art: IniSection, d: Drawable): Drawable {
    var p := ctx.parsers;
    d.(props := d.props.(
         hasShadow := ReadBool(p, art, "Shadow", ctx.shadowAssumption(ctx.collection))
                      && !ReadBool(p, rules, "NoShadow", false),
         cloakable := ReadBool(p, rules, "Cloakable", false)),
       traits := d.traits.(flat := ReadBool(p, rules, "DrawFlat", ctx.flatnessAssumption(ctx.collection))
                                   || ReadBool(p, rules, "Flat", false)))
  }

  function GateStage(f: Flags, d: Drawable): Drawable {
    var g := f.gate;
    d.(traits := d.traits.(isGate := g || d.traits.isGate, flat := !g && d.traits.flat,
                         isBuildingPart := g || d.traits.isBuildingPart),
       props := d.props.(paletteType := if g then Unit else d.props.paletteType,
                         frameDecider := if g then NullDecider else d.props.frameDecider))
  }

  function WallStage(ctx: LoadContext, f: Flags, d: Drawable): Drawable {
    var w := f.wall;
    // RA2 walls sit three pixels lower
    var shift := if w && ctx.engine.AtLeastRedAlert2() then 3 else 0;
    d.(traits := d.traits.(isWall := w || d.traits.isWall, flat := !w && d.traits.flat,
                         isBuildingPart := w || d.traits.isBuildingPart),
       props := d.props.(offset := d.props.offset.Offset(0, shift),
                         paletteType := if w then Unit else d.props.paletteType,
                         lightingType := if w then Ambient else d.props.lightingType,
                         frameDecider := if w then OverlayValueDecider else d.props.frameDecider))
  }

  function RubbleStage(f: Flags, d: Drawable): Drawable {
    // rubble overlays are not drawn
    d.(traits := d.traits.(invisibleInGame := f.rubble || d.traits.invisibleInGame))
  }

  function VeinsStage(f: Flags, d: Drawable): Drawable {
    var v := f.veins;
    d.(traits := d.traits.(isVeins := v || d.traits.isVeins, flat := v || d.traits.flat),
       props := d.props.(lightingType := if v then LightingType.None else d.props.lightingType,
                         paletteType := if v then Unit else d.props.paletteType,
                         offset := d.props.offset.(y := if v then -1 else d.props.offset.y)))
  }

  function VeinholeStage(f: Flags, d: Drawable): Drawable {
    var v := f.veinholeMonster;
    d.(traits := d.traits.(isVeinHoleMonster := v || d.traits.isVeinHoleMonster),
       props := d.props.(offset := d.props.offset.(y := if v then -49 else d.props.offset.y),
                         lightingType := if v then LightingType.None else d.props.lightingType,
                         paletteType := if v then Unit else d.props.paletteType))
  }

  function LandStage(ctx: LoadContext, f: Flags, d: Drawable): Drawable {
    var rail := f.land == "Railroad";
    var shift := if f.land == "Rock" || f.land == "Road" then TileHeight / 2 else 0;
    var bridge := f.land == "Road" && f.lowBridgeName;
    d.(props := d.props.(
         offset := d.props.offset.(y := if rail then (if ctx.engine.AtMostFirestorm() then 11 else 14)
                                        else d.props.offset.y + shift),
         zAdjust := d.props.zAdjust + (if bridge then TileHeight else 0),
         lightingType := if rail then Full else d.props.lightingType,
         paletteType := if rail then Iso else d.props.paletteType))
  }

  function TiberiumStage(f: Flags, d: Drawable): Drawable {
    // tiberium-spawning terrain such as ore poles
    var t := f.spawnsTiberium;
    d.(props := d.props.(offset := d.props.offset.(y := if t then -1 else d.props.offset.y),
                         lightingType := if t then LightingType.None else d.props.lightingType,
                         paletteType := if t then Unit else d.props.paletteType))
  }

  function AnimationStage(ctx: LoadContext, art: IniSection, f: Flags, d: Drawable): Drawable {
    var p := ctx.parsers;
    d.(frames := d.frames.(
         facings := ReadInt(p, art, "Facings", 8),
         startStandFrame := ReadInt(p, art, "StartStandFrame", 0),
         standingFrames := ReadInt(p, art, "StandingFrames", 0),
         startWalkFrame := ReadInt(p, art, "StartWalkFrame", 0),
         walkFrames := ReadInt(p, art, "WalkFrames", 0)),
       props := d.props.(offset := d.props.offset.Offset(f.xDrawOffset, f.yDrawOffset)))
  }

  /** The sequence's "Ready" triple, when the art names a sequence that has a well-formed one. */
  function ReadyOf(ctx: LoadContext, art: IniSection): Option<(int, int, int)> {
    var sequence := ReadString(art, "Sequence", "");
    if sequence == "" then Option.None
    else ParseReady(ReadString(GetOrCreateSection(ctx.artFile, sequence), "Ready", ""))
  }

  function ReadyStage(ctx: LoadContext, art: IniSection, d: Drawable): Drawable {
    var ready := ReadyOf(ctx, art);
    d.(frames := d.frames.(
         readyStart := if ready.Some? then ready.value.0 else d.frames.readyStart,
         readyCount := if ready.Some? then ready.value.1 else d.frames.readyCount,
         readyCountNext := if ready.Some? then ready.value.2 else d.frames.readyCountNext))
  }


  // ---------------------------------------------------------------------------
  // The outcome of LoadFromRulesFull, field group by field group
  // ---------------------------------------------------------------------------

  /** The kind flags only switch on, and gates and walls become building parts. */
  lemma RulesKindFlags(ctx: LoadContext, rules: IniSection, art: IniSection, d: Drawable)
    ensures var r, f := LoadFromRulesFull(ctx, rules, art, d), ReadFlags(ctx, rules, art, d.name);
      && (r.traits.isBuildingPart <==> d.traits.isBuildingPart || f.gate || f.wall)
      && (r.traits.isGate <==> d.traits.isGate || f.gate) && (r.traits.isWall <==> d.traits.isWall || f.wall)
      && (r.traits.isVeins <==> d.traits.isVeins || f.veins)
      && (r.traits.isVeinHoleMonster <==> d.traits.isVeinHoleMonster || f.veinholeMonster)
      && (r.traits.invisibleInGame <==> d.traits.invisibleInGame || f.rubble)
      && r.props.frameDecider
         == (if f.wall then OverlayValueDecider else if f.gate then NullDecider else d.props.frameDecider)
  {
  }

  /** Palette mode and remapability by precedence; a custom name only with a Custom palette. */
  lemma RulesPalette(ctx: LoadContext, rules: IniSection, art: IniSection, d: Drawable)
    ensures var r, f := LoadFromRulesFull(ctx, rules, art, d), ReadFlags(ctx, rules, art, d.name);
      && r.props.paletteType == PalettePrecedence(f, d.props.paletteType)
      && r.props.customPaletteName
         == (if !f.terrainPalette && !f.animPalette && f.palette != "" then f.palette else d.props.customPaletteName)
      // terrain and anim palettes clear remapability; the art's Remapable counts only up to Firestorm
      && r.traits.isRemapable
         == (if f.terrainPalette || f.animPalette then false
             else if f.remapableSet && ctx.engine.AtMostFirestorm() then f.remapable
             else d.traits.isRemapable)
  {
  }

  lemma RulesLighting(ctx: LoadContext, rules: IniSection, art: IniSection, d: Drawable)
    ensures LoadFromRulesFull(ctx, rules, art, d).props.lightingType
      == LightingPrecedence(ReadFlags(ctx, rules, art, d.name), d.props.lightingType)
  {
  }

  /** The art's draw offset is added after every absolute assignment; low road bridges rise one tile. */
  lemma RulesOffsets(ctx: LoadContext, rules: IniSection, art: IniSection, d: Drawable)
    ensures var r, f := LoadFromRulesFull(ctx, rules, art, d), ReadFlags(ctx, rules, art, d.name);
      && r.props.offset.x == d.props.offset.x + f.xDrawOffset
      && r.props.offset.y == OffsetYPrecedence(f, ctx.engine, d.props.offset.y) + f.yDrawOffset
      && r.props.zAdjust == d.props.zAdjust + (if f.land == "Road" && IsLowBridgeName(d.name) then TileHeight else 0)
  {
  }

  /** The alpha overlay is added only when its file exists; a Ready triple replaces the default only whole. */
  lemma RulesAlphaAndReady(ctx: LoadContext, rules: IniSection, art: IniSection, d: Drawable)
    ensures var r, a := LoadFromRulesFull(ctx, rules, art, d), ReadString(rules, "AlphaImage", "");
      && r.alphaImages == d.alphaImages + (if a != "" && ctx.fileExists(a + ".shp") then [a + ".shp"] else [])
      && var ready := ReadyOf(ctx, art);
         (r.frames.readyStart, r.frames.readyCount, r.frames.readyCountNext)
           == (if ready.Some? then ready.value else (d.frames.readyStart, d.frames.readyCount, d.frames.readyCountNext))
  {
  }

  /** What resolution never touches. */
  lemma RulesKeepIdentity(ctx: LoadContext, rules: IniSection, art: IniSection, d: Drawable)
    ensures var r := LoadFromRulesFull(ctx, rules, art, d);
      && r.name == d.name && r.art.image == d.art.image && r.foundation == d.foundation && r.shp == d.shp
      && r.tileElevation == d.tileElevation && r.art.newTheater == d.art.newTheater
      && r.art.theaterExtension == d.art.theaterExtension && r.owner == d.owner && r.art.isVoxel == d.art.isVoxel
  {
  }

  /** `LoadFromRules`: the essential art fields, then the full resolution. */
  function LoadFromRules(ctx: LoadContext, rules: IniSection, art: IniSection, d: Drawable): (r: Drawable)
    ensures r.art.image == ReadString(art, "Image", art.name)
    ensures r.props.hasShadow ==> !ReadBool(ctx.parsers, rules, "NoShadow", false)
  {
    LoadFromRulesFull(ctx, rules, art, LoadFromArtEssential(ctx, art, d))
  }
}

=== FILE: game_types.dfy ===
/**
 * The enumerations and records shared by the drawables, the collection loader
 * and the rasterizer: engine and category tags, lighting and palette modes,
 * DrawProperties, the Drawable record and the game object being drawn.
 */
module GameTypes {
  import opened Wrappers
  import opened Geometry
  import opened ShpAssets

  /** Engine versions in the order the source compares them with `<=` and `>=`. */
  datatype EngineType = TiberianSun | Firestorm | RedAlert2 | YurisRevenge {
    function Rank(): nat {
      match this
      case TiberianSun => 0
      case Firestorm => 1
      case RedAlert2 => 2
      case YurisRevenge => 3
    }

    /** `Engine <= EngineType.Firestorm`. */
    predicate AtMostFirestorm() {
      Rank() <= 1
    }

    /** `Engine >= EngineType.RedAlert2`. */
    predicate AtLeastRedAlert2() {
      Rank() >= 2
    }
  }

  datatype CollectionType = Aircraft | Building | Infantry | Overlay | Smudge | Terrain | Vehicle | Animation

  datatype TheaterType = Temperate | Snow | Urban | Desert | Lunar | NewUrban

  /**
   * The exceptions the modelled code can raise: indexing a string or list past
   * its end, and dereferencing a null reference.
   */
  datatype Fault = IndexOutOfRange | NullReference

  /** The lighting modes of CNCMaps.Shared/LightingType.cs, in declaration order. */
  datatype LightingType = None | Global | Level | Ambient | Full

  /** A mod-configuration override's lighting choice; `DefaultLighting` leaves the prop alone. */
  datatype LightingChoice = DefaultLighting | SetLighting(lighting: LightingType)

  datatype PaletteType = Default | Iso | Unit | Overlay | Anim | Custom

  /**
   * The frame-decider strategies the modelled code assigns. Evaluating a decider
   * against a game object is external and happens through a caller-supplied function.
   */
  datatype FrameDecider =
    | CategoryDefault(category: CollectionType)
    | NullDecider
    | OverlayValueDecider
    | InfantryDecider(readyStart: int, readyCount: int, readyCountNext: int, randomDir: int)

  /** Offset hacks attached to bridge overlays. */
  datatype OffsetHack = NoHack | RA2BridgeOffsets | RA2BridgeShadowOffsets | TSBridgeOffsets | TSBridgeShadowOffsets

  /** The resolved rendering parameters of a drawable. */
  datatype DrawProperties = DrawProperties(
    paletteType: PaletteType,
    lightingType: LightingType,
    customPaletteName: string,
    hasShadow: bool,
    cloakable: bool,
    frameDecider: FrameDecider,
    offset: Point,
    zAdjust: int,
    offsetHack: OffsetHack,
    shadowOffsetHack: OffsetHack,
    paletteOverride: Option<Palette>)

  /** `new DrawProperties()`: nothing resolved yet. */
  const InitialProps := DrawProperties(
    Default, LightingType.None, "", false, false, NullDecider, Point(0, 0), 0,
    NoHack, NoHack, Option.None)

  /** The inner sprite a TerrainDrawable creates on its first draw. */
  datatype InnerSprite = InnerSprite(shp: Option<ShpFile>)

  /** The boolean traits of a Drawable that resolution switches. */
  datatype Traits = Traits(
    isRemapable: bool,
    invisibleInGame: bool,
    isWall: bool,
    isGate: bool,
    isVeins: bool,
    isVeinHoleMonster: bool,
    flat: bool,
    isBuildingPart: bool)

  /** The animation frame counts of infantry and animations, with the "Ready" triple of a sequence. */
  datatype FrameCounts = FrameCounts(
    startWalkFrame: int,
    startStandFrame: int,
    standingFrames: int,
    walkFrames: int,
    facings: int,
    readyStart: int,
    readyCount: int,
    readyCountNext: int)

  /** What LoadFromArtEssential reads: the image name, the voxel flag and the theater switches. */
  datatype ArtInfo = ArtInfo(image: string, isVoxel: bool, newTheater: bool, theaterExtension: bool)

  /**
   * A Drawable: one resolved rule section. The class's flat field list is grouped
   * into traits, frame counts and art information. `alphaImages` lists the files
   * of the AlphaDrawable sub-drawables in the order they were added; `shp` is the
   * sprite a ShpDrawable draws; `terrainShp` is the inner sprite of a
   * TerrainDrawable.
   */
  datatype Drawable = Drawable(
    name: string,
    index: int,
    owner: Option<CollectionType>,
    props: DrawProperties,
    alphaImages: seq<string>,
    traits: Traits,
    frames: FrameCounts,
    art: ArtInfo,
    foundation: Size,
    tileElevation: int,
    shp: Option<ShpFile>,
    terrainShp: Option<InnerSprite>)

  /** A freshly constructed drawable, with the field initialisers of Drawable.cs. */
  function NewDrawable(name: string, index: int): (d: Drawable)
    ensures d.name == name && d.index == index
    ensures d.foundation == Size(1, 1)
    ensures d.frames.readyStart == 0 && d.frames.readyCount == 1 && d.frames.readyCountNext == 1
    ensures d.traits.isBuildingPart && !d.traits.flat && !d.traits.invisibleInGame
    ensures d.props == InitialProps && d.alphaImages == []
  {
    Drawable(name, index, Option.None, InitialProps, [],
      Traits(false, false, false, false, false, false, false, true),
      FrameCounts(0, 0, 0, 0, 0, 0, 1, 1),
      ArtInfo("", false, false, false),
      Size(1, 1), 0, Option.None, Option.None)
  }

  /**
   * `Clone`: a member-wise copy whose props are a copy of their own. With value
   * semantics the copy shares nothing mutable with the original.
   */
  function Clone(d: Drawable): (c: Drawable)
    ensures c == d
  {
    d
  }

  /** Replacing the clone's props, the one mutation Clone guards, leaves the original as it was. */
  lemma CloneIsolatesProps(d: Drawable, p: DrawProperties)
    ensures Clone(d).(props := p).props == p
    ensures d.props == Clone(d).props
  {
  }

  /** A map tile: screen deltas, elevation and map coordinates. */
  datatype MapTile = MapTile(dx: int, dy: int, z: int, rx: int, ry: int)

  /** The fields of `obj.Drawable` that the rasterizer reads. */
  datatype OwnerDrawable = OwnerDrawable(flat: bool, tileElevation: int, foundationWidth: int)

  /**
   * A placed game object: its tile, the bottom tile of its footprint, its
   * drawable, whether it is an ownable object standing on a bridge, and its palette.
   */
  datatype GameObject = GameObject(
    tile: MapTile,
    bottomTile: MapTile,
    owner: OwnerDrawable,
    onBridge: bool,
    palette: Palette)
}

=== FILE: geometry.dfy ===
/** System.Drawing value types and the isometric tile size. */
module Geometry {
  import opened CsInt

  /**
   * Tile dimensions in pixels. The source reads them both from a static field of
   * Drawable and from its mod configuration; the model fixes one value, the
   * Red Alert 2 tile.
   */
  const TileWidth: int := 60
  const TileHeight: int := 30

  datatype Point = Point(x: int, y: int) {
    function Offset(dx: int, dy: int): (p: Point)
      ensures p.x - x == dx && p.y - y == dy
    {
      Point(x + dx, y + dy)
    }

    function Plus(s: Size): Point {
      Point(x + s.width, y + s.height)
    }

    function Minus(s: Size): Point {
      Point(x - s.width, y - s.height)
    }
  }

  datatype Size = Size(width: int, height: int)

  const EmptySize := Size(0, 0)

  datatype Rectangle = Rectangle(x: int, y: int, width: int, height: int) {
    function Offset(dx: int, dy: int): Rectangle {
      Rectangle(x + dx, y + dy, width, height)
    }
  }

  /** `Rectangle.Empty`. */
  const EmptyRectangle := Rectangle(0, 0, 0, 0)

  /** The isometric projection term `v * TileWidth / 2` with C# division. */
  function HalfTileX(v: int): int {
    CsDiv(v * TileWidth, 2)
  }

  /** The isometric projection term `v * TileHeight / 2` with C# division. */
  function HalfTileY(v: int): int {
    CsDiv(v * TileHeight, 2)
  }

  lemma {:induction false} HalfTileExact(v: int)
    ensures HalfTileX(v) == v * (TileWidth / 2)
    ensures HalfTileY(v) == v * (TileHeight / 2)
  {
    if v < 0 {
      assert -(v * TileWidth) == (-v) * TileWidth;
      assert -(v * TileHeight) == (-v) * TileHeight;
    }
  }
}

=== FILE: ini.dfy ===
/**
 * The slice of the rules/art configuration that drawables read: a named section
 * of key/value strings, typed reads with defaults, `String.Split` on one
 * separator and `int.TryParse`. The string-to-bool and string-to-int conversions
 * of IniFile are not part of this model; they are supplied as `IniParsers`.
 */
module Ini {
  import opened Wrappers
  import opened CsInt

  datatype IniSection = IniSection(name: string, entries: map<string, string>)

  /** IniFile's conversions of a present value; `None` means "unreadable, use the default". */
  datatype IniParsers = IniParsers(boolOf: string -> Option<bool>, intOf: string -> Option<int>)

  function ReadString(s: IniSection, key: string, default: string): string {
    if key in s.entries then s.entries[key] else default
  }

  function ReadBool(p: IniParsers, s: IniSection, key: string, default: bool): bool {
    if key in s.entries && p.boolOf(s.entries[key]).Some? then p.boolOf(s.entries[key]).value else default
  }

  function ReadInt(p: IniParsers, s: IniSection, key: string, default: int): int {
    if key in s.entries && p.intOf(s.entries[key]).Some? then p.intOf(s.entries[key]).value else default
  }

  /** `IniFile.GetOrCreateSection`: a missing section reads as empty. */
  function GetOrCreateSection(file: map<string, IniSection>, name: string): IniSection {
    if name in file then file[name] else IniSection(name, map[])
  }

  // ---------------------------------------------------------------------------
  // String.Split(char)
  // ---------------------------------------------------------------------------

  /** `s.Split(sep)`: every separator ends a part; empty parts are kept. */
  function Split(s: string, sep: char): (parts: seq<string>)
    ensures |parts| >= 1
    ensures forall i, k | 0 <= i < |parts| && 0 <= k < |parts[i]| :: parts[i][k] != sep
    decreases |s|
  {
    if |s| == 0 then [""]
    else
      var rest := Split(s[1..], sep);
      if s[0] == sep then [""] + rest
      else [[s[0]] + rest[0]] + rest[1..]
  }

  /** `String.Join(sep, parts)`. */
  function Join(parts: seq<string>, sep: char): string
    requires |parts| >= 1
    decreases |parts|
  {
    if |parts| == 1 then parts[0] else parts[0] + [sep] + Join(parts[1..], sep)
  }

  /** Splitting loses nothing: joining the parts back gives the original string. */
  lemma {:induction false} JoinSplit(s: string, sep: char)
    ensures Join(Split(s, sep), sep) == s
    decreases |s|
  {
    if |s| > 0 {
      var rest := Split(s[1..], sep);
      JoinSplit(s[1..], sep);
      if s[0] == sep {
        assert Split(s, sep) == [""] + rest;
        assert Join([""] + rest, sep) == [sep] + Join(rest, sep) by {
          assert ([""] + rest)[1..] == rest;
        }
        assert s == [s[0]] + s[1..];
      } else {
        var parts := Split(s, sep);
        assert parts == [[s[0]] + rest[0]] + rest[1..];
        if |rest| == 1 {
          assert parts == [[s[0]] + rest[0]];
        } else {
          assert parts[1..] == rest[1..];
          assert Join(rest, sep) == rest[0] + [sep] + Join(rest[1..], sep);
        }
        assert s == [s[0]] + s[1..];
      }
    }
  }

  /** No part contains the separator. */
  predicate SeparatorFree(parts: seq<string>, sep: char) {
    forall i, k | 0 <= i < |parts| && 0 <= k < |parts[i]| :: parts[i][k] != sep
  }

  /** Joining separator-free parts and splitting again gives the same parts back. */
  lemma {:induction false} SplitJoin(parts: seq<string>, sep: char)
    requires |parts| >= 1
    requires SeparatorFree(parts, sep)
    ensures Split(Join(parts, sep), sep) == parts
    decreases |parts|, |parts[0]|
  {
    if |parts| == 1 {
      SplitNoSeparator(parts[0], sep);
    } else if |parts[0]| == 0 {
      SplitJoin(parts[1..], sep);
      SplitJoinEmptyHead(parts, sep);
    } else {
      var shorter := [parts[0][1..]] + parts[1..];
      assert SeparatorFree(shorter, sep) by {
        forall i, k | 0 <= i < |shorter| && 0 <= k < |shorter[i]|
          ensures shorter[i][k] != sep
        {
          if i == 0 { assert shorter[0][k] == parts[0][k + 1]; } else { assert shorter[i] == parts[i]; }
        }
      }
      SplitJoin(shorter, sep);
      SplitJoinConsHead(parts, sep);
    }
  }

  lemma SplitJoinEmptyHead(parts: seq<string>, sep: char)
    requires |parts| >= 2 && parts[0] == ""
    requires Split(Join(parts[1..], sep), sep) == parts[1..]
    ensures Split(Join(parts, sep), sep) == parts
  {
    var tail := Join(parts[1..], sep);
    assert Join(parts, sep) == [sep] + tail;
    assert ([sep] + tail)[1..] == tail;
    assert parts == [""] + parts[1..];
  }

  lemma SplitJoinConsHead(parts: seq<string>, sep: char)
    requires |parts| >= 2 && |parts[0]| > 0 && parts[0][0] != sep
    requires Split(Join([parts[0][1..]] + parts[1..], sep), sep) == [parts[0][1..]] + parts[1..]
    ensures Split(Join(parts, sep), sep) == parts
  {
    var p0 := parts[0];
    var shorter := [p0[1..]] + parts[1..];
    assert shorter[1..] == parts[1..];
    var j := Join(parts, sep);
    assert j == [p0[0]] + Join(shorter, sep);
    assert j[1..] == Join(shorter, sep);
    assert [p0[0]] + p0[1..] == p0;
    assert parts == [p0] + parts[1..];
  }

  lemma {:induction false} SplitNoSeparator(s: string, sep: char)
    requires forall k | 0 <= k < |s| :: s[k] != sep
    ensures Split(s, sep) == [s]
    decreases |s|
  {
    if |s| > 0 {
      SplitNoSeparator(s[1..], sep);
      assert [s[0]] + s[1..] == s;
    }
  }

  // ---------------------------------------------------------------------------
  // int.TryParse
  // ---------------------------------------------------------------------------

  /** The white space that `NumberStyles.Integer` allows around a number. */
  predicate IsWhite(c: char) {
    c == ' ' || ('\t' <= c <= '\r')
  }

  predicate IsDigit(c: char) {
    '0' <= c <= '9'
  }

  function TrimWhite(s: string): (t: string)
    ensures |t| <= |s|
    ensures |t| > 0 ==> !IsWhite(t[0]) && !IsWhite(t[|t| - 1])
    decreases |s|
  {
    if |s| > 0 && IsWhite(s[0]) then TrimWhite(s[1..])
    else if |s| > 0 && IsWhite(s[|s| - 1]) then TrimWhite(s[..|s| - 1])
    else s
  }

  /** The value of a string of decimal digits. */
  function DigitsValue(s: string): nat
    requires forall k | 0 <= k < |s| :: IsDigit(s[k])
    decreases |s|
  {
    if |s| == 0 then 0
    else
      assert IsDigit(s[|s| - 1]);
      DigitsValue(s[..|s| - 1]) * 10 + (s[|s| - 1] as int - '0' as int)
  }

  /**
   * `int.TryParse(s, out v)` as the invariant culture parses: optional white
   * space, an optional sign, one or more ASCII digits, optional white space, and
   * a value inside the 32-bit range.
   */
  function TryParseInt(s: string): (r: Option<int>)
    ensures r.Some? ==> IsInt32(r.value)
  {
    var t := TrimWhite(s);
    if |t| == 0 then Option.None
    else
      var negative := t[0] == '-';
      var digits := if t[0] == '-' || t[0] == '+' then t[1..] else t;
      if |digits| == 0 || exists k | 0 <= k < |digits| :: !IsDigit(digits[k]) then Option.None
      else
        var mag: int := DigitsValue(digits);
        var v := if negative then -mag else mag;
        if IsInt32(v) then Some(v) else Option.None
  }

  /** `n.ToString()` for a non-negative number. */
  function NatToString(n: nat): (s: string)
    ensures |s| >= 1 && forall k | 0 <= k < |s| :: IsDigit(s[k])
    decreases n
  {
    var last := ['0' + ((n % 10) as char)];
    if n < 10 then last else NatToString(n / 10) + last
  }

  function IntToString(n: int): string {
    if n < 0 then ['-'] + NatToString(-n) else NatToString(n)
  }

  lemma {:induction false} NatToStringValue(n: nat)
    ensures DigitsValue(NatToString(n)) == n
    decreases n
  {
    var s := NatToString(n);
    if n >= 10 {
      NatToStringValue(n / 10);
      assert s[..|s| - 1] == NatToString(n / 10);
    }
  }

  /** TryParse reads back every 32-bit value that ToString writes. */
  lemma TryParseIntToString(n: int)
    requires IsInt32(n)
    ensures TryParseInt(IntToString(n)) == Some(n)
  {
    var s := IntToString(n);
    NatToStringValue(if n < 0 then -n else n);
    assert TrimWhite(s) == s;
    if n < 0 {
      assert s[1..] == NatToString(-n);
    }
  }
}

=== FILE: object_collection.dfy ===
/**
 * CNCMaps.Engine/Game/ObjectCollection.cs: category defaults, loading of the
 * simple (infantry, overlay, smudge) drawables, overlay special cases, and the
 * mod-configuration overrides applied after every load.
 */
module ObjectCollection {
  import opened Wrappers
  import opened CsInt
  import opened Geometry
  import opened ShpAssets
  import opened GameTypes
  import opened Ini
  import opened DrawableRules
  import opened Theater
  import SD = ShpDrawable

  // ---------------------------------------------------------------------------
  // Category defaults
  // ---------------------------------------------------------------------------

  /** The category default tables of `Defaults`, which are not part of this model. */
  datatype CategoryDefaults = CategoryDefaults(
    palette: (CollectionType, EngineType) -> PaletteType,
    lighting: CollectionType -> LightingType,
    remappable: (CollectionType, EngineType) -> bool)

  /** Buildings, overlays and smudges are anchored at the tile's top row; the rest half a tile lower. */
  function CategoryOffset(collection: CollectionType): (p: Point)
    ensures p.x == TileWidth / 2
    ensures p.y == 0 <==> collection in {Building, CollectionType.Overlay, Smudge}
  {
    match collection
    case Building | Overlay | Smudge => Point(TileWidth / 2, 0)
    case Terrain | Vehicle | Infantry | Aircraft | Animation => Point(TileWidth / 2, TileHeight / 2)
  }

  /**
   * `InitDrawableDefaults`: the owner, the category's palette, lighting,
   * remappability and frame decider, and the category offset added to the
   * current offset.
   */
  function InitDrawableDefaults(collection: CollectionType, engine: EngineType, defaults: CategoryDefaults,
                                d: Drawable): (r: Drawable)
    ensures r.owner == Some(collection)
    ensures r.props.offset.x == d.props.offset.x + TileWidth / 2
    ensures r.props.offset.y == d.props.offset.y
      + (if collection in {Building, CollectionType.Overlay, Smudge} then 0 else TileHeight / 2)
    ensures r.props.paletteType == defaults.palette(collection, engine)
    ensures r.props.lightingType == defaults.lighting(collection)
    ensures r.props.frameDecider == CategoryDefault(collection)
    ensures r.traits.isRemapable == defaults.remappable(collection, engine)
    ensures r.name == d.name && r.art == d.art && r.frames == d.frames && r.alphaImages == d.alphaImages
    ensures r.props.hasShadow == d.props.hasShadow && r.props.zAdjust == d.props.zAdjust
  {
    var off := CategoryOffset(collection);
    d.(owner := Some(collection),
       traits := d.traits.(isRemapable := defaults.remappable(collection, engine)),
       props := d.props.(paletteType := defaults.palette(collection, engine),
                         lightingType := defaults.lighting(collection),
                         frameDecider := CategoryDefault(collection),
                         offset := d.props.offset.Offset(off.x, off.y)))
  }

  // ---------------------------------------------------------------------------
  // Mod-configuration overrides
  // ---------------------------------------------------------------------------

  /**
   * One object override of the mod configuration. The collection and theater
   * bit masks are sets; `Default` lighting or palette leaves that prop alone.
   */
  datatype ObjectOverride = ObjectOverride(
    collectionTypes: set<CollectionType>,
    theaterTypes: set<TheaterType>,
    objRegex: string,
    priority: int,
    lighting: LightingChoice,
    palette: PaletteType,
    customPaletteFile: string)

  /** The collection an object is loaded into, and the configuration around it. */
  datatype CollectionEnv = CollectionEnv(
    collection: CollectionType,
    theater: TheaterType,
    engine: EngineType,
    defaults: CategoryDefaults,
    overrides: seq<ObjectOverride>,
    regexMatches: (string, string) -> bool)

  /** An override applies to the collection's type, the theater and (case-insensitively) the name. */
  predicate Matches(env: CollectionEnv, name: string, o: ObjectOverride) {
    env.collection in o.collectionTypes && env.theater in o.theaterTypes && env.regexMatches(name, o.objRegex)
  }

  function MatchingOverrides(env: CollectionEnv, name: string, os: seq<ObjectOverride>): (r: seq<ObjectOverride>)
    ensures forall o :: o in r <==> o in os && Matches(env, name, o)
    ensures |r| <= |os|
  {
    if |os| == 0 then []
    else
      var rest := MatchingOverrides(env, name, os[1..]);
      assert forall o :: o in os <==> o == os[0] || o in os[1..];
      if Matches(env, name, os[0]) then [os[0]] + rest else rest
  }

  predicate SortedByDescendingPriority(s: seq<ObjectOverride>) {
    forall i, j | 0 <= i < j < |s| :: s[i].priority >= s[j].priority
  }

  /** Insert in front of the first element of no higher priority, keeping equal priorities in order. */
  function InsertByPriority(o: ObjectOverride, s: seq<ObjectOverride>): (r: seq<ObjectOverride>)
    ensures multiset(r) == multiset(s) + multiset{o}
    ensures |r| == |s| + 1
  {
    if |s| == 0 || s[0].priority <= o.priority then [o] + s
    else
      assert s == [s[0]] + s[1..];
      [s[0]] + InsertByPriority(o, s[1..])
  }

  /** Inserting an override of no more than a bound into overrides of no more than it stays within it. */
  lemma {:induction false} InsertByPriorityBounded(o: ObjectOverride, s: seq<ObjectOverride>, bound: int)
    requires o.priority <= bound
    requires forall k | 0 <= k < |s| :: s[k].priority <= bound
    ensures forall k | 0 <= k < |s| + 1 :: InsertByPriority(o, s)[k].priority <= bound
    decreases |s|
  {
    if |s| > 0 && s[0].priority > o.priority {
      InsertByPriorityBounded(o, s[1..], bound);
    }
  }

  /** A head of at least every later priority extends a sorted sequence. */
  lemma ConsSorted(x: ObjectOverride, rest: seq<ObjectOverride>)
    requires SortedByDescendingPriority(rest)
    requires forall k | 0 <= k < |rest| :: rest[k].priority <= x.priority
    ensures SortedByDescendingPriority([x] + rest)
  {
    var r := [x] + rest;
    forall i, j | 0 <= i < j < |r| ensures r[i].priority >= r[j].priority {
      assert r[j] == rest[j - 1];
      if i > 0 {
        assert r[i] == rest[i - 1];
      }
    }
  }

  /** Inserting into a sorted sequence keeps it sorted. */
  lemma {:induction false} InsertByPriorityKeepsSorted(o: ObjectOverride, s: seq<ObjectOverride>)
    requires SortedByDescendingPriority(s)
    ensures SortedByDescendingPriority(InsertByPriority(o, s))
    decreases |s|
  {
    if |s| == 0 || s[0].priority <= o.priority {
      ConsSorted(o, s);
    } else {
      InsertByPriorityKeepsSorted(o, s[1..]);
      InsertByPriorityBounded(o, s[1..], s[0].priority);
      ConsSorted(s[0], InsertByPriority(o, s[1..]));
    }
  }

  /** `OrderByDescending(o => o.Priority)`: a stable sort, highest priority first. */
  function SortByDescendingPriority(s: seq<ObjectOverride>): (r: seq<ObjectOverride>)
    ensures SortedByDescendingPriority(r)
    ensures multiset(r) == multiset(s)
  {
    if |s| == 0 then []
    else
      assert s == [s[0]] + s[1..];
      var sorted := SortByDescendingPriority(s[1..]);
      InsertByPriorityKeepsSorted(s[0], sorted);
      InsertByPriority(s[0], sorted)
  }

  /** One override: lighting unless Default; palette and its file name unless Default. */
  function ApplyOverride(p: DrawProperties, o: ObjectOverride): DrawProperties {
    var lit := if o.lighting.SetLighting? then p.(lightingType := o.lighting.lighting) else p;
    if o.palette != Default then lit.(paletteType := o.palette, customPaletteName := o.customPaletteFile) else lit
  }

  /** The foreach over the ordered overrides. */
  function ApplyOverrides(p: DrawProperties, os: seq<ObjectOverride>): DrawProperties
    decreases |os|
  {
    if |os| == 0 then p else ApplyOverrides(ApplyOverride(p, os[0]), os[1..])
  }

  predicate SetsLighting(o: ObjectOverride) {
    o.lighting.SetLighting?
  }

  predicate SetsPalette(o: ObjectOverride) {
    o.palette != Default
  }

  /** The last element satisfying `P`, read from the back. */
  function LastWhere(os: seq<ObjectOverride>, P: ObjectOverride -> bool): (r: Option<ObjectOverride>)
    ensures r.Some? ==> r.value in os && P(r.value)
    ensures r.None? <==> forall o | o in os :: !P(o)
  {
    if |os| == 0 then Option.None
    else if P(os[|os| - 1]) then Some(os[|os| - 1])
    else
      var r := LastWhere(os[..|os| - 1], P);
      assert forall o :: o in os <==> o in os[..|os| - 1] || o == os[|os| - 1] by {
        assert os == os[..|os| - 1] + [os[|os| - 1]];
      }
      r
  }

  lemma {:induction false} ApplyOverridesSnoc(p: DrawProperties, os: seq<ObjectOverride>, o: ObjectOverride)
    ensures ApplyOverrides(p, os + [o]) == ApplyOverride(ApplyOverrides(p, os), o)
    decreases |os|
  {
    if |os| == 0 {
      assert os + [o] == [o];
    } else {
      assert (os + [o])[1..] == os[1..] + [o];
      ApplyOverridesSnoc(ApplyOverride(p, os[0]), os[1..], o);
    }
  }

  /** The lighting after the loop is that of the last override setting it, else the initial one. */
  lemma {:induction false} LightingLastWins(p: DrawProperties, os: seq<ObjectOverride>)
    ensures ApplyOverrides(p, os).lightingType ==
      (match LastWhere(os, SetsLighting) case Some(o) => o.lighting.lighting case None => p.lightingType)
    decreases |os|
  {
    if |os| > 0 {
      var init, last := os[..|os| - 1], os[|os| - 1];
      assert os == init + [last];
      LightingLastWins(p, init);
      ApplyOverridesSnoc(p, init, last);
    }
  }

  /** The palette and its file after the loop are those of the last override setting a palette, else the initial ones. */
  lemma {:induction false} PaletteLastWins(p: DrawProperties, os: seq<ObjectOverride>)
    ensures var r := ApplyOverrides(p, os);
      && (LastWhere(os, SetsPalette).Some? ==>
            r.paletteType == LastWhere(os, SetsPalette).value.palette
            && r.customPaletteName == LastWhere(os, SetsPalette).value.customPaletteFile)
      && (LastWhere(os, SetsPalette).None? ==>
            r.paletteType == p.paletteType && r.customPaletteName == p.customPaletteName)
    decreases |os|
  {
    if |os| > 0 {
      var init, last := os[..|os| - 1], os[|os| - 1];
      assert os == init + [last];
      PaletteLastWins(p, init);
      ApplyOverridesSnoc(p, init, last);
    }
  }

  /** The loop touches no prop other than the lighting, the palette and the palette file. */
  lemma {:induction false} OverridesTouchNothingElse(p: DrawProperties, os: seq<ObjectOverride>)
    ensures ApplyOverrides(p, os).(lightingType := p.lightingType, paletteType := p.paletteType,
                                   customPaletteName := p.customPaletteName) == p
    decreases |os|
  {
    if |os| > 0 {
      OverridesTouchNothingElse(ApplyOverride(p, os[0]), os[1..]);
    }
  }

  /**
   * Last assignment wins: after the loop each prop holds the value of the last
   * override that sets it, and its initial value when none does.
   */
  lemma ApplyOverridesLastWins(p: DrawProperties, os: seq<ObjectOverride>)
    ensures var r := ApplyOverrides(p, os);
      && r.lightingType == (match LastWhere(os, SetsLighting)
                            case Some(o) => o.lighting.lighting case None => p.lightingType)
      && (LastWhere(os, SetsPalette).Some? ==>
            r.paletteType == LastWhere(os, SetsPalette).value.palette
            && r.customPaletteName == LastWhere(os, SetsPalette).value.customPaletteFile)
      && (LastWhere(os, SetsPalette).None? ==>
            r.paletteType == p.paletteType && r.customPaletteName == p.customPaletteName)
      && r.(lightingType := p.lightingType, paletteType := p.paletteType, customPaletteName := p.customPaletteName) == p
  {
    LightingLastWins(p, os);
    PaletteLastWins(p, os);
    OverridesTouchNothingElse(p, os);
  }

  /** In a list sorted by descending priority, the last element satisfying `P` has the lowest priority among them. */
  lemma {:induction false} LastWhereHasLowestPriority(os: seq<ObjectOverride>, P: ObjectOverride -> bool)
    requires SortedByDescendingPriority(os)
    ensures LastWhere(os, P).Some? ==>
      forall o | o in os && P(o) :: LastWhere(os, P).value.priority <= o.priority
    decreases |os|
  {
    if |os| > 0 {
      var init, last := os[..|os| - 1], os[|os| - 1];
      assert os == init + [last];
      if P(last) {
        forall o | o in os && P(o) ensures last.priority <= o.priority {
          var i :| 0 <= i < |os| && os[i] == o;
          assert i == |os| - 1 || os[i].priority >= os[|os| - 1].priority;
        }
      } else {
        assert SortedByDescendingPriority(init);
        LastWhereHasLowestPriority(init, P);
      }
    }
  }

  /** The override loop of LoadDrawable: filter, order by descending priority, apply in turn. */
  function ApplyConfigOverrides(env: CollectionEnv, d: Drawable): (r: Drawable)
    ensures r.(props := d.props) == d
  {
    var ordered := SortByDescendingPriority(MatchingOverrides(env, d.name, env.overrides));
    d.(props := ApplyOverrides(d.props, ordered))
  }

  /**
   * The outcome of the override loop: the lighting (and the palette with its
   * file) of the lowest-priority matching override that sets it, or the value
   * from before the loop when no matching override sets it; nothing else changes.
   */
  lemma ConfigOverridesOutcome(env: CollectionEnv, d: Drawable)
    ensures var r := ApplyConfigOverrides(env, d);
      && ((forall o | o in env.overrides && Matches(env, d.name, o) :: !SetsLighting(o)) ==>
            r.props.lightingType == d.props.lightingType)
      && ((exists o | o in env.overrides :: Matches(env, d.name, o) && SetsLighting(o)) ==>
            exists o | o in env.overrides && Matches(env, d.name, o) && SetsLighting(o) ::
              && r.props.lightingType == o.lighting.lighting
              && forall o' | o' in env.overrides && Matches(env, d.name, o') && SetsLighting(o') ::
                   o.priority <= o'.priority)
      && ((forall o | o in env.overrides && Matches(env, d.name, o) :: !SetsPalette(o)) ==>
            r.props.paletteType == d.props.paletteType && r.props.customPaletteName == d.props.customPaletteName)
      && ((exists o | o in env.overrides :: Matches(env, d.name, o) && SetsPalette(o)) ==>
            exists o | o in env.overrides && Matches(env, d.name, o) && SetsPalette(o) ::
              && r.props.paletteType == o.palette && r.props.customPaletteName == o.customPaletteFile
              && forall o' | o' in env.overrides && Matches(env, d.name, o') && SetsPalette(o') ::
                   o.priority <= o'.priority)
  {
    var matching := MatchingOverrides(env, d.name, env.overrides);
    var ordered := SortByDescendingPriority(matching);
    ApplyOverridesLastWins(d.props, ordered);
    LastWhereHasLowestPriority(ordered, SetsLighting);
    LastWhereHasLowestPriority(ordered, SetsPalette);
    assert forall o :: o in ordered <==> o in matching by {
      forall o ensures o in ordered <==> o in matching {
        assert o in ordered <==> o in multiset(ordered);
        assert o in matching <==> o in multiset(matching);
      }
    }
  }

  // ---------------------------------------------------------------------------
  // Overlays
  // ---------------------------------------------------------------------------

  /**
   * The classifications of `SpecialOverlays` (not part of this model), by overlay
   * number: tiberium or ore for an engine, high bridge, Tiberian Sun rail bridge.
   */
  datatype OverlayKinds = OverlayKinds(
    isTiberium: (byte, EngineType) -> bool,
    isHighBridge: byte -> bool,
    isTSHighRailsBridge: byte -> bool)

  /**
   * `LoadOverlayDrawable`. The overlay number is the drawable's index cast to a
   * byte. Tiberium takes the value-driven frame decider and no lighting (with
   * the overlay palette from Red Alert 2 on, the unit palette and remapping
   * before); high bridges take the engine's bridge offsets and elevation 4, and
   * from Red Alert 2 on a 3x1 foundation so that they are drawn later.
   */
  function LoadOverlayDrawable(engine: EngineType, kinds: OverlayKinds, d: Drawable): (r: Drawable)
    ensures var ovl := ToByte(d.index);
      var tib := kinds.isTiberium(ovl, engine);
      && (tib ==> r.props.frameDecider == OverlayValueDecider && r.props.lightingType == LightingType.None
                  && r.tileElevation == d.tileElevation && r.foundation == d.foundation)
      && (tib && engine.AtLeastRedAlert2() ==> r.props.paletteType == PaletteType.Overlay && r.traits == d.traits)
      && (tib && engine.AtMostFirestorm() ==> r.props.paletteType == Unit && r.traits == d.traits.(isRemapable := true))
      && (!tib && engine.AtLeastRedAlert2() && kinds.isHighBridge(ovl) ==>
            && r.tileElevation == 4 && r.foundation == Size(3, 1)
            && r.props.offsetHack == RA2BridgeOffsets && r.props.shadowOffsetHack == RA2BridgeShadowOffsets)
      && (!tib && engine.AtMostFirestorm() && (kinds.isHighBridge(ovl) || kinds.isTSHighRailsBridge(ovl)) ==>
            && r.tileElevation == 4 && r.foundation == d.foundation
            && r.props.offsetHack == TSBridgeOffsets && r.props.shadowOffsetHack == TSBridgeShadowOffsets)
      && (!tib && !kinds.isHighBridge(ovl) && (engine.AtLeastRedAlert2() || !kinds.isTSHighRailsBridge(ovl)) ==>
            r == d)
    ensures r.name == d.name && r.index == d.index && r.shp == d.shp && r.art == d.art
  {
    var ovl := ToByte(d.index);
    var tib := kinds.isTiberium(ovl, engine);
    if engine.AtLeastRedAlert2() then
      if tib then
        d.(props := d.props.(frameDecider := OverlayValueDecider, paletteType := PaletteType.Overlay,
                             lightingType := LightingType.None))
      else if kinds.isHighBridge(ovl) then
        d.(props := d.props.(offsetHack := RA2BridgeOffsets, shadowOffsetHack := RA2BridgeShadowOffsets),
           tileElevation := 4, foundation := Size(3, 1))
      else d
    else
      if tib then
        d.(props := d.props.(frameDecider := OverlayValueDecider, paletteType := Unit,
                             lightingType := LightingType.None),
           traits := d.traits.(isRemapable := true))
      else if kinds.isHighBridge(ovl) || kinds.isTSHighRailsBridge(ovl) then
        d.(props := d.props.(offsetHack := TSBridgeOffsets, shadowOffsetHack := TSBridgeShadowOffsets),
           tileElevation := 4)
      else d
  }

  // ---------------------------------------------------------------------------
  // Loading
  // ---------------------------------------------------------------------------

  /** The file system as loading sees it: existence and sprite decoding (not part of this model). */
  datatype Assets = Assets(fileExists: string -> bool, openShp: string -> Option<ShpFile>)

  /**
   * A smudge covers Width x Height cells of its rules section; each is 1 when
   * the key is absent or its value does not read as an integer.
   */
  function SmudgeFoundation(p: IniParsers, rules: IniSection): (s: Size)
    ensures "Width" in rules.entries && p.intOf(rules.entries["Width"]).Some? ==>
      s.width == p.intOf(rules.entries["Width"]).value
    ensures "Height" in rules.entries && p.intOf(rules.entries["Height"]).Some? ==>
      s.height == p.intOf(rules.entries["Height"]).value
    ensures "Width" !in rules.entries || p.intOf(rules.entries["Width"]).None? ==> s.width == 1
    ensures "Height" !in rules.entries || p.intOf(rules.entries["Height"]).None? ==> s.height == 1
  {
    Size(ReadInt(p, rules, "Width", 1), ReadInt(p, rules, "Height", 1))
  }

  /**
   * `LoadSimpleDrawable` for infantry, overlays and smudges: defaults, rules,
   * the sprite, a smudge's foundation and the overlay special cases. A fault in
   * the file name (theater substitution) ends the load.
   */
  function LoadSimpleDrawable(env: CollectionEnv, ctx: LoadContext, rules: IniSection, art: IniSection,
                              theater: SD.ActiveTheater, assets: Assets, kinds: OverlayKinds,
                              d: Drawable): (r: Result<Drawable, Fault>)
    requires ctx.collection == env.collection && ctx.engine == env.engine
  {
    var init := InitDrawableDefaults(env.collection, env.engine, env.defaults, d);
    AttachSprite(env, ctx.parsers, rules, art.name, theater, assets, kinds, LoadFromRules(ctx, rules, art, init))
  }

  /**
   * The second half of `LoadSimpleDrawable`, after the rules are loaded: the
   * load fails exactly when no file name resolves; otherwise the sprite is the
   * one opened under that name, smudges take their foundation from the rules,
   * and overlays go through the overlay adjustments. Nothing else changes.
   */
  function AttachSprite(env: CollectionEnv, parsers: IniParsers, rules: IniSection, artName: string,
                        theater: SD.ActiveTheater, assets: Assets, kinds: OverlayKinds,
                        loaded: Drawable): (r: Result<Drawable, Fault>)
    ensures var fn := SD.GetFilename(loaded, artName, env.engine, theater, assets.fileExists);
      && (fn.Fail? <==> r.Fail?)
      && (fn.Fail? ==> r == Fail(fn.error))
      && (r.Ok? && env.collection != CollectionType.Overlay ==>
            r.value == loaded.(shp := assets.openShp(fn.value),
                               foundation := if env.collection == Smudge then SmudgeFoundation(parsers, rules)
                                             else loaded.foundation))
      && (r.Ok? && env.collection == CollectionType.Overlay ==>
            r.value == LoadOverlayDrawable(env.engine, kinds, loaded.(shp := assets.openShp(fn.value))))
  {
    var fn :- SD.GetFilename(loaded, artName, env.engine, theater, assets.fileExists);
    var withShp := loaded.(shp := assets.openShp(fn));
    var sized := if env.collection == Smudge then withShp.(foundation := SmudgeFoundation(parsers, rules))
                 else withShp;
    Ok(if env.collection == CollectionType.Overlay then LoadOverlayDrawable(env.engine, kinds, sized) else sized)
  }

  /** `LoadTerrainDrawable`: the category defaults, then the rules and art. */
  function LoadTerrainDrawable(env: CollectionEnv, ctx: LoadContext, rules: IniSection, art: IniSection,
                               d: Drawable): (r: Drawable)
    ensures r.owner == Some(env.collection)
    ensures r.art.image == ReadString(art, "Image", art.name)
  {
    LoadFromRules(ctx, rules, art, InitDrawableDefaults(env.collection, env.engine, env.defaults, d))
  }

  /**
   * The switch of `LoadDrawable`: infantry, overlays and smudges load as simple
   * drawables, terrain as terrain; the other categories' loaders belong to
   * drawable classes that are not part of this model and are supplied as `otherLoad`.
   */
  function CategoryLoad(env: CollectionEnv, ctx: LoadContext, rules: IniSection, art: IniSection,
                        theater: SD.ActiveTheater, assets: Assets, kinds: OverlayKinds,
                        otherLoad: Drawable -> Drawable, d: Drawable): (r: Result<Drawable, Fault>)
    requires ctx.collection == env.collection && ctx.engine == env.engine
  {
    match env.collection
    case Infantry | Overlay | Smudge => LoadSimpleDrawable(env, ctx, rules, art, theater, assets, kinds, d)
    case Terrain => Ok(LoadTerrainDrawable(env, ctx, rules, art, d))
    case _ => Ok(otherLoad(d))
  }

  /**
   * `LoadDrawable`: the per-category load, then the configuration overrides,
   * which change nothing but the props.
   */
  function LoadDrawable(env: CollectionEnv, ctx: LoadContext, rules: IniSection, art: IniSection,
                        theater: SD.ActiveTheater, assets: Assets, kinds: OverlayKinds,
                        otherLoad: Drawable -> Drawable, d: Drawable): (r: Result<Drawable, Fault>)
    requires ctx.collection == env.collection && ctx.engine == env.engine
    ensures var loaded := CategoryLoad(env, ctx, rules, art, theater, assets, kinds, otherLoad, d);
      && (r.Fail? <==> loaded.Fail?)
      && (loaded.Fail? ==> r == loaded)
      && (r.Ok? ==> r.value.(props := loaded.value.props) == loaded.value)
      && (r.Ok? ==> r.value.props == ApplyOverrides(loaded.value.props,
                      SortByDescendingPriority(MatchingOverrides(env, loaded.value.name, env.overrides))))
  {
    var loaded :- CategoryLoad(env, ctx, rules, art, theater, assets, kinds, otherLoad, d);
    Ok(ApplyConfigOverrides(env, loaded))
  }
}

=== FILE: shp_assets.dfy ===
/**
 * Decoded sprite assets as the rasterizer sees them. SHP decoding itself
 * (ShpFile) is an external collaborator; only the decoded shape is modelled.
 */
module ShpAssets {
  import opened Wrappers
  import opened CsInt

  datatype Color = Color(r: byte, g: byte, b: byte)

  /** A palette maps each 8-bit index to a colour. */
  type Palette = p: seq<Color> | |p| == 256 witness seq(256, _ => Color(0, 0, 0))

  /**
   * One frame of a SHP file: its origin inside the file's canvas, its size, and
   * its row-major palette-index data (`GetImageData()`, which may be null).
   */
  datatype ShpImage = ShpImage(x: int, y: int, width: nat, height: nat, data: Option<seq<byte>>)

  /**
   * A SHP file: the canvas size shared by all frames, the frame count from the
   * header (`NumImages`) and the frame list (`Images`).
   */
  datatype ShpFile = ShpFile(width: nat, height: nat, numImages: nat, images: seq<ShpImage>) {
    /** `GetImage(i)`: null when the index is outside the frame list. */
    function GetImage(i: int): (r: Option<ShpImage>)
      ensures r.Some? <==> 0 <= i < |images|
      ensures r.Some? ==> r.value == images[i]
    {
      if 0 <= i < |images| then Some(images[i]) else None
    }
  }

  /**
   * Frame 0 of the engine-shipped building depth asset (buildngz.shp, or
   * buildngz.sha in Yuri's Revenge): a byte image read by column and row.
   */
  datatype BuildingZAsset = BuildingZAsset(width: nat, height: nat, data: seq<byte>)
}

=== FILE: shp_drawable.dfy ===
/**
 * CNCMaps.Engine/Drawables/ShpDrawable.cs: the guards and ordering around the
 * rasterizer, the bounds translation, and the sprite file name. A Drawable's
 * props are mutated in place during Draw; here Draw returns the drawable as it
 * is afterwards together with the render state.
 */
module ShpDrawable {
  import opened Wrappers
  import opened CsInt
  import opened Geometry
  import opened ShpAssets
  import opened GameTypes
  import opened Theater
  import R = ShpRenderer

  /**
   * What drawing reads besides the drawable and the object: the rasterizer's
   * environment, DrawProperties' offset functions and the frame deciders (not
   * part of this model), the random-facing option and the random draws. The
   * shadow pass, the sprite pass and the bounds query each decide their frame on
   * their own, so each `Random` sentinel is resolved by a draw of its own.
   */
  datatype DrawEnv = DrawEnv(
    render: R.RenderEnv,
    getOffset: (DrawProperties, GameObject) -> Point,
    getShadowOffset: (DrawProperties, GameObject) -> Point,
    decide: (FrameDecider, GameObject) -> R.Decided,
    randomInfantryFacing: bool,
    facingRng: nat,
    shadowRng: nat,
    spriteRng: nat,
    boundsRng: nat)

  /** The palette a draw uses: the props' override, else the object's own. */
  function DrawPalette(props: DrawProperties, obj: GameObject): Palette {
    props.paletteOverride.GetOr(obj.palette)
  }

  /** A drawable with nothing to draw: hidden in game, or without a sprite. */
  predicate DrawsNothing(d: Drawable) {
    d.traits.invisibleInGame || d.shp.None?
  }

  /** `new Size(0, -4 * TileHeight / 2)` for infantry standing on a bridge, else `Size.Empty`. */
  function OnBridgeOffset(d: Drawable, obj: GameObject): (s: Size)
    ensures s.width == 0
    ensures s.height != 0 <==> d.owner == Some(Infantry) && obj.onBridge
  {
    if d.owner == Some(Infantry) && obj.onBridge then Size(0, CsDiv(-4 * TileHeight, 2)) else EmptySize
  }

  /** Infantry frames come from the ready sequence, with a random facing when the option is on. */
  function InfantryFrameDecider(d: Drawable, env: DrawEnv): (f: FrameDecider)
    ensures f.InfantryDecider? && f.readyStart == d.frames.readyStart && f.readyCount == d.frames.readyCount
    ensures f.readyCountNext == d.frames.readyCountNext
    ensures env.randomInfantryFacing ==> 0 <= f.randomDir < 256
    ensures !env.randomInfantryFacing ==> f.randomDir == -1
  {
    var randomDir := if env.randomInfantryFacing then env.facingRng % 256 else -1;
    InfantryDecider(d.frames.readyStart, d.frames.readyCount, d.frames.readyCountNext, randomDir)
  }

  /** The renderer's shadow pass for this drawable's current props. */
  function ShadowPass(d: Drawable, shp: ShpFile, obj: GameObject, env: DrawEnv, c: R.Canvas): (s: R.RenderState)
    requires c.Valid()
  {
    R.DrawShadow(shp, obj, env.getShadowOffset(d.props, obj), env.decide(d.props.frameDecider, obj),
                 env.shadowRng, c)
  }

  /** The renderer's sprite pass for this drawable's current props. */
  function SpritePass(d: Drawable, shp: ShpFile, obj: GameObject, env: DrawEnv, c: R.Canvas,
                      translucency: int): (s: R.RenderState)
    requires c.Valid()
  {
    R.Draw(shp, obj, d.traits.flat, d.traits.isBuildingPart, env.getOffset(d.props, obj),
           DrawPalette(d.props, obj), env.decide(d.props.frameDecider, obj), env.spriteRng, env.render, c,
           translucency)
  }

  /** The drawable after Draw and what Draw did to the surface. */
  datatype DrawOutcome = DrawOutcome(drawable: Drawable, state: R.RenderState)

  /**
   * `ShpDrawable.Draw`. The shadow pass runs before the sprite and only for a
   * shadowed, uncloaked drawable when shadows are asked for; a cloaked drawable
   * is drawn half translucent. The on-bridge shift is added to the offset for
   * the passes and removed afterwards; a pass that throws leaves it added.
   */
  function Draw(d: Drawable, obj: GameObject, env: DrawEnv, c: R.Canvas, shadow: bool): (r: DrawOutcome)
    requires c.Valid()
    ensures DrawsNothing(d) ==> r == DrawOutcome(d, R.RenderState(c, false))
    ensures !r.state.faulted ==> r.drawable.props.offset == d.props.offset
    ensures R.SameShape(c, r.state.canvas)
    ensures r.drawable.name == d.name && r.drawable.traits == d.traits && r.drawable.shp == d.shp
    ensures !DrawsNothing(d) && d.owner == Some(Infantry) ==>
      r.drawable.props.frameDecider == InfantryFrameDecider(d, env)
    ensures !DrawsNothing(d) ==>
      var shifted := d.props.(
        offset := d.props.offset.Plus(OnBridgeOffset(d, obj)),
        frameDecider := if d.owner == Some(Infantry) then InfantryFrameDecider(d, env) else d.props.frameDecider);
      var during := d.(props := shifted);
      // the shadow pass, when it runs, sees the surface first
      var first := if d.props.hasShadow && shadow && !d.props.cloakable
                   then ShadowPass(during, d.shp.value, obj, env, c) else R.RenderState(c, false);
      && (first.faulted ==> r.state == first)
      && (!first.faulted ==>
            r.state == SpritePass(during, d.shp.value, obj, env, first.canvas, if d.props.cloakable then 50 else 0))
  {
    if DrawsNothing(d) then DrawOutcome(d, R.RenderState(c, false))
    else
      var shp := d.shp.value;
      var decider := if d.owner == Some(Infantry) then InfantryFrameDecider(d, env) else d.props.frameDecider;
      var bridge := OnBridgeOffset(d, obj);
      var during := d.(props := d.props.(offset := d.props.offset.Plus(bridge), frameDecider := decider));
      var first := if during.props.hasShadow && shadow && !during.props.cloakable
                   then ShadowPass(during, shp, obj, env, c) else R.RenderState(c, false);
      if first.faulted then DrawOutcome(during, first)
      else
        var second := SpritePass(during, shp, obj, env, first.canvas, if during.props.cloakable then 50 else 0);
        if second.faulted then DrawOutcome(during, second)
        else DrawOutcome(during.(props := during.props.(offset := during.props.offset.Minus(bridge))), second)
  }

  /**
   * `ShpDrawable.DrawShadow`: the shadow pass alone, for a shadowed, uncloaked
   * drawable with something to draw.
   */
  function DrawShadow(d: Drawable, obj: GameObject, env: DrawEnv, c: R.Canvas): (s: R.RenderState)
    requires c.Valid()
    ensures DrawsNothing(d) || !d.props.hasShadow || d.props.cloakable ==> s == R.RenderState(c, false)
    ensures s.canvas.zBuffer == c.zBuffer && s.canvas.heightBuffer == c.heightBuffer
    ensures s.canvas.pixels == c.pixels || !DrawsNothing(d)
  {
    if DrawsNothing(d) then R.RenderState(c, false)
    else if d.props.hasShadow && !d.props.cloakable then ShadowPass(d, d.shp.value, obj, env, c)
    else R.RenderState(c, false)
  }

  /** A draw without shadows never sets a shadow mark; one with shadows is the only way to. */
  lemma DrawWithoutShadowKeepsMarks(d: Drawable, obj: GameObject, env: DrawEnv, c: R.Canvas)
    requires c.Valid()
    ensures Draw(d, obj, env, c, false).state.canvas.shadows == c.shadows
  {
  }

  /** The map-space translation that GetBounds applies to a renderer rectangle. */
  function PlaceBounds(b: Rectangle, obj: GameObject, offset: Point): (r: Rectangle)
    ensures r.width == b.width && r.height == b.height
    ensures r.x == b.x + HalfTileX(obj.tile.dx) + offset.x
    ensures r.y == b.y + HalfTileY(obj.tile.dy - obj.tile.z) + offset.y
  {
    b.Offset(HalfTileX(obj.tile.dx), HalfTileY(obj.tile.dy - obj.tile.z)).Offset(offset.x, offset.y)
  }

  /**
   * `ShpDrawable.GetBounds`: empty for a drawable with nothing to draw,
   * otherwise the renderer's rectangle moved to the object's tile and by the
   * props offset.
   */
  function GetBounds(d: Drawable, obj: GameObject, env: DrawEnv): (r: Rectangle)
    ensures DrawsNothing(d) ==> r == EmptyRectangle
    ensures !DrawsNothing(d) ==>
      var b := R.GetBounds(d.shp.value, env.decide(d.props.frameDecider, obj), env.boundsRng);
      && r.width == b.width && r.height == b.height
      && r.x == b.x + HalfTileX(obj.tile.dx) + env.getOffset(d.props, obj).x
      && r.y == b.y + HalfTileY(obj.tile.dy - obj.tile.z) + env.getOffset(d.props, obj).y
  {
    if DrawsNothing(d) then EmptyRectangle
    else
      var b := R.GetBounds(d.shp.value, env.decide(d.props.frameDecider, obj), env.boundsRng);
      PlaceBounds(b, obj, env.getOffset(d.props, obj))
  }

  /**
   * Bounds and draw agree: for the frame the sprite pass draws, the placed
   * renderer rectangle is exactly the surface rectangle that pass writes from,
   * its top-left corner at the pass's offsets and its size the frame's.
   */
  lemma BoundsMatchDrawPlacement(shp: ShpFile, obj: GameObject, flat: bool, buildingPart: bool, offset: Point,
                                 palette: Palette, decided: R.Decided, rng: nat, renv: R.RenderEnv,
                                 translucency: int)
    requires R.ChooseFrame(shp, R.DecideFrameIndex(decided, shp.numImages, rng)).Frame?
    ensures var fr := R.ChooseFrame(shp, R.DecideFrameIndex(decided, shp.numImages, rng));
      var j := R.MakeDrawJob(shp, fr.img, fr.data, obj, flat, buildingPart, offset, palette, renv, translucency);
      PlaceBounds(R.GetBounds(shp, decided, rng), obj, offset) == Rectangle(j.offX, j.offY, fr.img.width, fr.img.height)
  {
  }

  /** `ModConfig.ActiveTheater`: the theater's substitution letter and file extension. */
  datatype ActiveTheater = ActiveTheater(newTheaterChar: char, extension: string)

  /**
   * `ShpDrawable.GetFilename`: the image name with the theater's extension or
   * ".shp", then theater substitution when the art asks for it. Substitution goes
   * through the owning collection, so a drawable without one faults there.
   */
  function GetFilename(d: Drawable, artName: string, engine: EngineType, theater: ActiveTheater,
                       fileExists: string -> bool): (r: Result<string, Fault>)
    ensures var base := d.art.image + (if d.art.theaterExtension then theater.extension else ".shp");
      && (!d.art.newTheater ==> r == Ok(base))
      && (d.art.newTheater && d.owner.None? ==> r == Fail(NullReference))
      && (d.art.newTheater && d.owner.Some? ==>
            r == ApplyNewTheaterIfNeeded(engine, artName, base, theater.newTheaterChar, fileExists))
    ensures r.Ok? ==> |r.value| == |d.art.image| + (if d.art.theaterExtension then |theater.extension| else 4)
    // substitution only touches the image part of a name of two or more characters
    ensures r.Ok? && |d.art.image| >= 2 ==>
      r.value[|d.art.image|..] == (if d.art.theaterExtension then theater.extension else ".shp")
  {
    var fn := d.art.image + (if d.art.theaterExtension then theater.extension else ".shp");
    if !d.art.newTheater then Ok(fn)
    else if d.owner.None? then Fail(NullReference)
    else ApplyNewTheaterIfNeeded(engine, artName, fn, theater.newTheaterChar, fileExists)
  }
}

=== FILE: shp_renderer.dfy ===
/**
 * The software sprite rasterizer of CNCMaps.Engine/Rendering/ShpRenderer.cs:
 * frame selection, the depth-gated palette blit, the shadow blit, the building
 * depth lookup and the bounds query.
 *
 * The drawing surface is a linear BGR byte buffer with parallel z, height and
 * shadow planes indexed by the pixel number. The model assumes a row stride of
 * exactly three bytes per pixel. The source walks a byte address `w` and a plane
 * index `zIdx` in step; with that stride `w == Scan0 + 3 * zIdx` throughout, and
 * its range test `w_low <= w < w_high` is `0 <= zIdx < Width * Height`: a pixel
 * that runs off the right edge lands on the next row, and only the linear address
 * is checked.
 *
 * An exception thrown part-way (an out-of-range read of the building depth
 * asset, or a null frame) ends the call: the state then carries `faulted` and
 * keeps the writes made before it.
 */
module ShpRenderer {
  import opened Wrappers
  import opened CsInt
  import opened Geometry
  import opened ShpAssets
  import opened GameTypes

  // ---------------------------------------------------------------------------
  // Frame selection
  // ---------------------------------------------------------------------------

  /** What a frame decider returns: an index, or the `DrawFrame.Random` sentinel. */
  datatype Decided = Index(i: int) | RandomFrame

  /**
   * `DecideFrameIndex`. The random draw is an oracle: `rng` is the generator's raw
   * output and `Random.Next(n)` keeps it below `n` (and returns 0 for `n == 0`).
   */
  function DecideFrameIndex(decided: Decided, numImages: nat, rng: nat): (r: int)
    ensures decided.Index? ==> r == decided.i
    ensures decided.RandomFrame? && numImages > 0 ==> 0 <= r < numImages
    ensures decided.RandomFrame? && numImages == 0 ==> r == 0
  {
    match decided
    case Index(i) => i
    case RandomFrame => if numImages == 0 then 0 else rng % numImages
  }

  /** Every frame of a non-empty file is a possible outcome of the Random sentinel. */
  lemma RandomFrameReachesEveryImage(numImages: nat, k: nat)
    requires k < numImages
    ensures exists rng: nat :: DecideFrameIndex(RandomFrame, numImages, rng) == k
  {
    assert DecideFrameIndex(RandomFrame, numImages, k) == k;
  }

  // ---------------------------------------------------------------------------
  // The drawing surface
  // ---------------------------------------------------------------------------

  /** A DrawingSurface: BGR pixel bytes and the z, height and shadow planes. */
  datatype Canvas = Canvas(
    width: nat,
    height: nat,
    pixels: seq<byte>,
    zBuffer: seq<int>,
    heightBuffer: seq<int>,
    shadows: seq<bool>)
  {
    function Area(): nat {
      width * height
    }

    predicate Valid() {
      && |pixels| == 3 * Area()
      && |zBuffer| == Area()
      && |heightBuffer| == Area()
      && |shadows| == Area()
    }

    /** The three channel bytes of pixel `e`, in memory order B, G, R. */
    function Bgr(e: nat): seq<byte>
      requires Valid() && e < Area()
    {
      pixels[3 * e..3 * e + 3]
    }
  }

  /** A surface whose planes all hold the empty sentinel (z and height at the short minimum). */
  function EmptyCanvas(width: nat, height: nat): (c: Canvas)
    ensures c.Valid() && c.width == width && c.height == height
    ensures forall e :: 0 <= e < c.Area() ==> c.zBuffer[e] == ShortMin && !c.shadows[e]
  {
    Canvas(width, height, seq(3 * (width * height), _ => 0), seq(width * height, _ => ShortMin),
      seq(width * height, _ => ShortMin), seq(width * height, _ => false))
  }

  /** Pixel `e` is the same in both canvases: colour, z, height and shadow mark. */
  ghost predicate SamePixel(a: Canvas, b: Canvas, e: nat)
    requires a.Valid() && b.Valid() && e < a.Area() && e < b.Area()
  {
    && a.Bgr(e) == b.Bgr(e)
    && a.zBuffer[e] == b.zBuffer[e]
    && a.heightBuffer[e] == b.heightBuffer[e]
    && a.shadows[e] == b.shadows[e]
  }

  ghost predicate SameShape(a: Canvas, b: Canvas) {
    a.width == b.width && a.height == b.height && a.Valid() && b.Valid()
  }

  /** The state of a draw call: the surface, and whether an exception ended it. */
  datatype RenderState = RenderState(canvas: Canvas, faulted: bool)

  // ---------------------------------------------------------------------------
  // Building depth lookup
  // ---------------------------------------------------------------------------

  /** Column read by GetBuildingZ: centred on the asset, shifted by the foundation width. */
  function BuildingZColumn(bz: BuildingZAsset, x: int, foundationWidth: int): int {
    x + bz.width / 2 + CsDiv(foundationWidth * TileHeight, 2)
  }

  /** Row read by GetBuildingZ: bottom-aligned with the sprite, a negative row replaced by 1. */
  function BuildingZRow(bz: BuildingZAsset, y: int, shpHeight: int): (row: int)
    ensures row >= 0
    ensures y + bz.height - shpHeight >= 0 ==> row == y + bz.height - shpHeight
    ensures y + bz.height - shpHeight < 0 ==> row == 1
  {
    var r := y + bz.height - shpHeight;
    if r < 0 then 1 else r
  }

  /**
   * `GetBuildingZ`: the asset byte at the row and column above, addressed
   * linearly; `None` is the IndexOutOfRangeException of a linear index past the data.
   */
  function GetBuildingZ(bz: BuildingZAsset, x: int, y: int, shpHeight: int, foundationWidth: int): (r: Option<byte>)
    ensures var k := BuildingZRow(bz, y, shpHeight) * bz.width + BuildingZColumn(bz, x, foundationWidth);
      && (r.Some? <==> 0 <= k < |bz.data|)
      && (r.Some? ==> r.value == bz.data[k])
  {
    var k := BuildingZRow(bz, y, shpHeight) * bz.width + BuildingZColumn(bz, x, foundationWidth);
    if 0 <= k < |bz.data| then Some(bz.data[k]) else Option.None
  }

  /**
   * Row alignment: the sprite's bottom row reads the asset's bottom row, each
   * row further down the sprite reads the next asset row, and every row that
   * would lie above the asset's top reads asset row 1.
   */
  lemma BuildingZRowBottomAligned(bz: BuildingZAsset, y: int, shpHeight: int)
    ensures shpHeight >= 1 && bz.height >= 1 ==> BuildingZRow(bz, shpHeight - 1, shpHeight) == bz.height - 1
    ensures y + bz.height - shpHeight >= 0 ==> BuildingZRow(bz, y + 1, shpHeight) == BuildingZRow(bz, y, shpHeight) + 1
    ensures y < shpHeight - bz.height ==> BuildingZRow(bz, y, shpHeight) == 1
  {
  }

  /**
   * Inside the asset the lookup never throws: a row and column within the
   * asset's rectangle read that pixel of its row-major data.
   */
  lemma BuildingZInsideAssetReads(bz: BuildingZAsset, x: int, y: int, shpHeight: int, foundationWidth: int)
    requires |bz.data| == bz.width * bz.height
    requires 0 <= BuildingZColumn(bz, x, foundationWidth) < bz.width
    requires BuildingZRow(bz, y, shpHeight) < bz.height
    ensures 0 <= BuildingZRow(bz, y, shpHeight) * bz.width + BuildingZColumn(bz, x, foundationWidth) < |bz.data|
    ensures var row, col := BuildingZRow(bz, y, shpHeight), BuildingZColumn(bz, x, foundationWidth);
      GetBuildingZ(bz, x, y, shpHeight, foundationWidth) == Some(bz.data[row * bz.width + col])
  {
    var row, col := BuildingZRow(bz, y, shpHeight), BuildingZColumn(bz, x, foundationWidth);
    RowMajorInRange(bz.width, bz.height, col, row);
    var k := row * bz.width + col;
    assert 0 <= k < |bz.data|;
    assert GetBuildingZ(bz, x, y, shpHeight, foundationWidth) == Some(bz.data[k]);
  }

  /**
   * Only the row is clamped, and only the linear index is range-checked: one
   * asset width further right reads what the next sprite row reads, so a
   * column past the asset's right edge wraps onto the next row instead of failing.
   */
  lemma {:induction false} BuildingZColumnIsNotClamped(bz: BuildingZAsset, x: int, y: int, shpHeight: int,
                                                       foundationWidth: int)
    requires y + bz.height - shpHeight >= 0
    ensures GetBuildingZ(bz, x + bz.width, y, shpHeight, foundationWidth)
         == GetBuildingZ(bz, x, y + 1, shpHeight, foundationWidth)
  {
    var r := BuildingZRow(bz, y, shpHeight);
    assert BuildingZRow(bz, y + 1, shpHeight) == r + 1;
    assert BuildingZColumn(bz, x + bz.width, foundationWidth) == BuildingZColumn(bz, x, foundationWidth) + bz.width;
    assert (r + 1) * bz.width == r * bz.width + bz.width;
  }

  /** Every sprite row above the asset's top reads the same byte, or throws alike. */
  lemma BuildingZClampedRowsAgree(bz: BuildingZAsset, x: int, y1: int, y2: int, shpHeight: int,
                                  foundationWidth: int)
    requires y1 + bz.height - shpHeight < 0 && y2 + bz.height - shpHeight < 0
    ensures GetBuildingZ(bz, x, y1, shpHeight, foundationWidth) == GetBuildingZ(bz, x, y2, shpHeight, foundationWidth)
    ensures var k := bz.width + BuildingZColumn(bz, x, foundationWidth);
      GetBuildingZ(bz, x, y1, shpHeight, foundationWidth) == if 0 <= k < |bz.data| then Some(bz.data[k]) else Option.None
  {
  }

  /** …and a column far enough to the right reads past the data and throws. */
  lemma BuildingZColumnCanFault()
    ensures var bz := BuildingZAsset(4, 2, [10, 11, 12, 13, 20, 21, 22, 23]);
      GetBuildingZ(bz, 10, 0, 1, 0) == Option.None
  {
  }

  // ---------------------------------------------------------------------------
  // The depth-gated palette blit
  // ---------------------------------------------------------------------------

  /** `(transLucency / 25) * 25`: the translucency rounded to a multiple of 25. */
  function QuantizeTranslucency(t: int): int {
    CsDiv(t, 25) * 25
  }

  lemma {:induction false} QuantizeTranslucencySteps(t: int)
    requires t >= 0
    ensures QuantizeTranslucency(t) % 25 == 0
    ensures t - 25 < QuantizeTranslucency(t) <= t
    ensures t < 25 ==> QuantizeTranslucency(t) == 0
  {
  }

  /** Everything a Draw call fixes before its pixel loop. */
  datatype DrawJob = DrawJob(
    img: ShpImage,
    data: seq<byte>,
    offX: int,
    offY: int,
    zOffset: int,
    hBufVal: int,
    flat: bool,
    buildingPart: bool,
    translucency: int,
    palette: Palette,
    shpHeight: nat,
    foundationWidth: int,
    buildingZ: BuildingZAsset,
    blend: (int, byte, byte) -> byte)
  {
    predicate WellFormed() {
      |data| == img.width * img.height
    }
  }

  lemma {:induction false} RowMajorInRange(w: nat, h: nat, x: nat, y: nat)
    requires x < w && y < h
    ensures y * w + x < w * h
  {
    assert (y + 1) * w == y * w + w;
    assert (y + 1) * w <= h * w by {
      assert y + 1 <= h;
    }
  }

  /** The palette index of source pixel (x, y). */
  function Pal(j: DrawJob, x: nat, y: nat): byte
    requires j.WellFormed() && x < j.img.width && y < j.img.height
  {
    RowMajorInRange(j.img.width, j.img.height, x, y);
    j.data[y * j.img.width + x]
  }

  /** The surface pixel that source pixel (x, y) lands on. */
  function Dest(offX: int, offY: int, width: nat, x: int, y: int): int {
    offX + x + (offY + y) * width
  }

  /** The depth a non-transparent source pixel competes with; `None` when the lookup throws. */
  function CandidateDepth(j: DrawJob, x: nat, y: nat): (r: Option<int>)
    ensures r.Some? ==> IsShort(r.value)
    ensures r.None? <==> !j.flat && j.buildingPart && GetBuildingZ(j.buildingZ, x, y, j.shpHeight, j.foundationWidth).None?
  {
    if j.flat then Some(Wrap16(j.zOffset + Wrap16(y - j.img.height)))
    else if j.buildingPart then
      match GetBuildingZ(j.buildingZ, x, y, j.shpHeight, j.foundationWidth)
      case None => Option.None
      case Some(b) => Some(Wrap16(j.zOffset + b))
    else Some(Wrap16(j.zOffset + j.img.height))
  }

  /**
   * Depth bands, where the short arithmetic does not wrap: a flat sprite's pixel
   * lies below the object's base depth `zOffset`, rising by one per row; an
   * upright non-building sprite sits its full height above it; a building pixel
   * lies within a byte above it.
   */
  lemma CandidateDepthBands(j: DrawJob, x: nat, y: nat)
    requires y < j.img.height
    ensures j.flat && IsShort(y - j.img.height) && IsShort(j.zOffset + y - j.img.height) ==>
      && CandidateDepth(j, x, y) == Some(j.zOffset + y - j.img.height)
      && CandidateDepth(j, x, y).value < j.zOffset
    ensures !j.flat && !j.buildingPart && IsShort(j.zOffset + j.img.height) ==>
      && CandidateDepth(j, x, y) == Some(j.zOffset + j.img.height)
      && CandidateDepth(j, x, y).value >= j.zOffset
    ensures !j.flat && j.buildingPart && IsShort(j.zOffset) && IsShort(j.zOffset + 255)
            && CandidateDepth(j, x, y).Some? ==>
      j.zOffset <= CandidateDepth(j, x, y).value <= j.zOffset + 255
  {
  }

  /** The colour write: a straight palette copy, or the translucent blend. */
  function WriteColor(j: DrawJob, c: Canvas, d: nat, pal: byte): (c': Canvas)
    requires c.Valid() && d < c.Area()
    ensures SameShape(c, c') && c'.zBuffer == c.zBuffer && c'.heightBuffer == c.heightBuffer
    ensures c'.shadows == c.shadows
    ensures forall e :: 0 <= e < c.Area() && e != d ==> c'.Bgr(e) == c.Bgr(e)
    ensures j.translucency == 0 ==>
      c'.Bgr(d) == [j.palette[pal].b, j.palette[pal].g, j.palette[pal].r]
  {
    var col := j.palette[pal];
    var p := c.pixels;
    var b := if j.translucency != 0 then j.blend(j.translucency, p[3 * d], col.b) else col.b;
    var g := if j.translucency != 0 then j.blend(j.translucency, p[3 * d + 1], col.g) else col.g;
    var r := if j.translucency != 0 then j.blend(j.translucency, p[3 * d + 2], col.r) else col.r;
    var c' := c.(pixels := p[3 * d := b][3 * d + 1 := g][3 * d + 2 := r]);
    assert c'.Bgr(d) == [b, g, r];
    c'
  }

  /**
   * One source pixel with palette index `pal` aimed at surface pixel `d`: the
   * body of the inner loop of Draw.
   */
  function PixelAt(j: DrawJob, c: Canvas, pal: byte, d: int, x: nat, y: nat): (s: RenderState)
    requires c.Valid()
    ensures SameShape(c, s.canvas) && s.canvas.shadows == c.shadows
    // a transparent source pixel changes nothing
    ensures pal == 0 ==> s == RenderState(c, false)
    // only the destination pixel can change
    ensures forall e: nat | e < c.Area() && e != d :: SamePixel(c, s.canvas, e)
    // the gate: on the surface, and the candidate depth reaches the stored z
    ensures s.canvas != c ==>
      && pal != 0 && 0 <= d < c.width * c.height
      && CandidateDepth(j, x, y).Some? && CandidateDepth(j, x, y).value >= c.zBuffer[d]
    // only a failed depth lookup throws: the candidate's for a building part, or
    // the store's after the colour write; an off-surface or rejected pixel is skipped
    ensures s.faulted <==> (pal != 0 && (CandidateDepth(j, x, y).None?
              || (0 <= d < c.Area() && CandidateDepth(j, x, y).value >= c.zBuffer[d]
                  && GetBuildingZ(j.buildingZ, x, y, j.shpHeight, j.foundationWidth).None?)))
    ensures !s.faulted && !(pal != 0 && 0 <= d < c.Area() && CandidateDepth(j, x, y).value >= c.zBuffer[d]) ==>
      s.canvas == c
    // an accepted write, at any translucency: the caster's height and the
    // building depth byte in the z plane, whatever the candidate was; an opaque
    // one also copies the palette colour as B, G, R
    ensures pal != 0 && CandidateDepth(j, x, y).Some?
            && 0 <= d < c.Area() && CandidateDepth(j, x, y).value >= c.zBuffer[d]
            && GetBuildingZ(j.buildingZ, x, y, j.shpHeight, j.foundationWidth).Some? ==>
      && !s.faulted
      && s.canvas.zBuffer[d] == GetBuildingZ(j.buildingZ, x, y, j.shpHeight, j.foundationWidth).value
      && s.canvas.heightBuffer[d] == j.hBufVal
      && (j.translucency == 0 ==> s.canvas.Bgr(d) == [j.palette[pal].b, j.palette[pal].g, j.palette[pal].r])
  {
    if pal == 0 then RenderState(c, false)
    else match CandidateDepth(j, x, y)
      case None => RenderState(c, true)
      case Some(zc) =>
        if 0 <= d < c.Area() && zc >= c.zBuffer[d] then
          var c1 := WriteColor(j, c, d, pal);
          match GetBuildingZ(j.buildingZ, x, y, j.shpHeight, j.foundationWidth)
          case None => RenderState(c1, true)
          case Some(stored) =>
            RenderState(c1.(zBuffer := c1.zBuffer[d := stored], heightBuffer := c1.heightBuffer[d := j.hBufVal]), false)
        else RenderState(c, false)
  }

  /** Source pixel (x, y) of the job. */
  function DrawPixel(j: DrawJob, c: Canvas, x: nat, y: nat): (s: RenderState)
    requires j.WellFormed() && c.Valid() && x < j.img.width && y < j.img.height
    ensures SameShape(c, s.canvas) && s.canvas.shadows == c.shadows
  {
    PixelAt(j, c, Pal(j, x, y), Dest(j.offX, j.offY, c.width, x, y), x, y)
  }

  /** The first `n` pixels of row `y`, left to right; an exception stops the row. */
  function DrawRowPixels(j: DrawJob, s: RenderState, y: nat, n: nat): (r: RenderState)
    requires j.WellFormed() && s.canvas.Valid() && y < j.img.height && n <= j.img.width
    ensures SameShape(s.canvas, r.canvas) && r.canvas.shadows == s.canvas.shadows
    decreases n
  {
    if n == 0 then s
    else
      var s' := DrawRowPixels(j, s, y, n - 1);
      if s'.faulted then s' else DrawPixel(j, s'.canvas, n - 1, y)
  }

  /** The first `n` rows, top to bottom; rows above the surface are skipped. */
  function DrawRows(j: DrawJob, s: RenderState, n: nat): (r: RenderState)
    requires j.WellFormed() && s.canvas.Valid() && n <= j.img.height
    ensures SameShape(s.canvas, r.canvas) && r.canvas.shadows == s.canvas.shadows
    decreases n
  {
    if n == 0 then s
    else
      var s' := DrawRows(j, s, n - 1);
      if s'.faulted || j.offY + (n - 1) < 0 then s' else DrawRowPixels(j, s', n - 1, j.img.width)
  }

  /** The per-call values of Draw, from the object's placement and the chosen frame. */
  function MakeDrawJob(shp: ShpFile, img: ShpImage, data: seq<byte>, obj: GameObject, flat: bool,
                       buildingPart: bool, offset: Point, palette: Palette, env: RenderEnv,
                       translucency: int): DrawJob
  {
    var h0 := Wrap16(HalfTileY(obj.tile.z));
    DrawJob(
      img, data,
      offset.x + HalfTileX(obj.tile.dx) - shp.width / 2 + img.x,
      offset.y + HalfTileY(obj.tile.dy - obj.tile.z) - shp.height / 2 + img.y,
      Wrap16(HalfTileY(obj.bottomTile.rx + obj.bottomTile.ry)),
      if flat then h0 else Wrap16(h0 + shp.height),
      flat, buildingPart, QuantizeTranslucency(translucency), palette, shp.height,
      obj.owner.foundationWidth, env.buildingZ, env.blend)
  }

  /** The process-wide inputs of the rasterizer: the cached depth asset and the float blend. */
  datatype RenderEnv = RenderEnv(buildingZ: BuildingZAsset, blend: (int, byte, byte) -> byte)

  /** The frame Draw would use, or why it draws nothing. */
  datatype FrameChoice = Skip | NullFrame | Frame(img: ShpImage, data: seq<byte>)

  /**
   * The frame guards of Draw and DrawShadow: an index past the frame list, a frame
   * without data or with data of the wrong length draws nothing; a negative index
   * yields a null frame, which the source then dereferences.
   */
  function ChooseFrame(shp: ShpFile, f: int): (r: FrameChoice)
    ensures r.Skip? <==> f >= |shp.images| || (0 <= f && (shp.images[f].data.None?
                              || shp.images[f].width * shp.images[f].height != |shp.images[f].data.value|))
    ensures r.NullFrame? <==> f < 0
    ensures r.Frame? ==> 0 <= f < |shp.images| && r.img == shp.images[f]
                         && r.img.data == Some(r.data) && |r.data| == r.img.width * r.img.height
  {
    if f >= |shp.images| then Skip
    else match shp.GetImage(f)
      case None => NullFrame
      case Some(img) =>
        if img.data.None? || img.width * img.height != |img.data.value| then Skip
        else Frame(img, img.data.value)
  }

  /**
   * `ShpRenderer.Draw`. `offset` is `props.GetOffset(obj)`, `palette` is
   * `props.PaletteOverride ?? obj.Palette`, `flat` and `buildingPart` are the
   * drawing Drawable's flags.
   */
  function Draw(shp: ShpFile, obj: GameObject, flat: bool, buildingPart: bool, offset: Point,
                palette: Palette, decided: Decided, rng: nat, env: RenderEnv, c: Canvas,
                translucency: int): (s: RenderState)
    requires c.Valid()
    ensures SameShape(c, s.canvas) && s.canvas.shadows == c.shadows
    ensures ChooseFrame(shp, DecideFrameIndex(decided, shp.numImages, rng)).Skip? ==> s == RenderState(c, false)
    ensures ChooseFrame(shp, DecideFrameIndex(decided, shp.numImages, rng)).NullFrame? ==> s == RenderState(c, true)
  {
    match ChooseFrame(shp, DecideFrameIndex(decided, shp.numImages, rng))
    case Skip => RenderState(c, false)
    case NullFrame => RenderState(c, true)
    case Frame(img, data) =>
      var j := MakeDrawJob(shp, img, data, obj, flat, buildingPart, offset, palette, env, translucency);
      DrawRows(j, RenderState(c, false), img.height)
  }

  // ---------------------------------------------------------------------------
  // The address-walking loop, proved equal to the fold
  // ---------------------------------------------------------------------------

  lemma {:induction false} RowPixelsStayFaulted(j: DrawJob, s: RenderState, y: nat, n: nat, m: nat)
    requires j.WellFormed() && s.canvas.Valid() && y < j.img.height && n <= m <= j.img.width
    requires DrawRowPixels(j, s, y, n).faulted
    ensures DrawRowPixels(j, s, y, m) == DrawRowPixels(j, s, y, n)
    decreases m
  {
    if m > n {
      RowPixelsStayFaulted(j, s, y, n, m - 1);
    }
  }

  lemma {:induction false} RowsStayFaulted(j: DrawJob, s: RenderState, n: nat, m: nat)
    requires j.WellFormed() && s.canvas.Valid() && n <= m <= j.img.height
    requires DrawRows(j, s, n).faulted
    ensures DrawRows(j, s, m) == DrawRows(j, s, n)
    decreases m
  {
    if m > n {
      RowsStayFaulted(j, s, n, m - 1);
    }
  }

  /** One step of the pixel loop: the palette index at `rIdx` drawn at plane index `zIdx`. */
  method BlitPixel(j: DrawJob, c: Canvas, rIdx: int, zIdx: int, x: nat, y: nat) returns (next: RenderState)
    requires j.WellFormed() && c.Valid() && x < j.img.width && y < j.img.height
    requires rIdx == y * j.img.width + x && zIdx == Dest(j.offX, j.offY, c.width, x, y)
    ensures next == DrawPixel(j, c, x, y)
  {
    RowMajorInRange(j.img.width, j.img.height, x, y);
    var pal := j.data[rIdx];
    next := PixelAt(j, c, pal, zIdx, x, y);
  }

  /**
   * One row of the pixel loop of Draw as written: the source and plane indices
   * advanced pixel by pixel, and the early exit of an exception.
   */
  method DrawRowPass(j: DrawJob, c: Canvas, y: nat, rIdx0: int, zIdx0: int) returns (s: RenderState)
    requires j.WellFormed() && c.Valid() && y < j.img.height
    requires rIdx0 == y * j.img.width && zIdx0 == j.offX + (j.offY + y) * c.width
    ensures s == DrawRowPixels(j, RenderState(c, false), y, j.img.width)
  {
    var w := j.img.width;
    s := RenderState(c, false);
    var rIdx, zIdx := rIdx0, zIdx0;
    var x := 0;
    while x < w
      invariant 0 <= x <= w
      invariant rIdx == y * w + x
      invariant zIdx == j.offX + x + (j.offY + y) * c.width
      invariant !s.faulted && s.canvas.Valid()
      invariant s == DrawRowPixels(j, RenderState(c, false), y, x)
    {
      var next := BlitPixel(j, s.canvas, rIdx, zIdx, x, y);
      if next.faulted {
        RowPixelsStayFaulted(j, RenderState(c, false), y, x + 1, w);
        return next;
      }
      s := next;
      rIdx := rIdx + 1;
      zIdx := zIdx + 1;
      x := x + 1;
    }
  }

  /**
   * The pixel loop of Draw as written: a source index and a plane index advanced
   * row by row, the skip of rows above the surface, and the early exit of an exception.
   */
  method DrawPass(j: DrawJob, c: Canvas) returns (s: RenderState)
    requires j.WellFormed() && c.Valid()
    ensures s == DrawRows(j, RenderState(c, false), j.img.height)
  {
    var w, h := j.img.width, j.img.height;
    s := RenderState(c, false);
    var rIdx := 0;
    var zIdx := j.offX + j.offY * c.width;
    var y := 0;
    while y < h
      invariant 0 <= y <= h
      invariant rIdx == y * w
      invariant zIdx == j.offX + (j.offY + y) * c.width
      invariant !s.faulted && s.canvas.Valid()
      invariant s == DrawRows(j, RenderState(c, false), y)
    {
      if j.offY + y >= 0 {
        var row := DrawRowPass(j, s.canvas, y, rIdx, zIdx);
        if row.faulted {
          RowsStayFaulted(j, RenderState(c, false), y + 1, h);
          return row;
        }
        s := row;
      }
      rIdx := rIdx + w;
      zIdx := zIdx + c.width;
      assert (y + 1) * w == y * w + w;
      assert (j.offY + y + 1) * c.width == (j.offY + y) * c.width + c.width;
      y := y + 1;
    }
  }

  /** `ShpRenderer.Draw` as a method: the frame guards, then the pixel loop. */
  method DrawMethod(shp: ShpFile, obj: GameObject, flat: bool, buildingPart: bool, offset: Point,
                    palette: Palette, decided: Decided, rng: nat, env: RenderEnv, c: Canvas,
                    translucency: int) returns (s: RenderState)
    requires c.Valid()
    ensures s == Draw(shp, obj, flat, buildingPart, offset, palette, decided, rng, env, c, translucency)
  {
    var frame := ChooseFrame(shp, DecideFrameIndex(decided, shp.numImages, rng));
    match frame {
      case Skip => s := RenderState(c, false);
      case NullFrame => s := RenderState(c, true);
      case Frame(img, data) =>
        var j := MakeDrawJob(shp, img, data, obj, flat, buildingPart, offset, palette, env, translucency);
        s := DrawPass(j, c);
    }
  }

  // ---------------------------------------------------------------------------
  // The shadow blit
  // ---------------------------------------------------------------------------

  /** Everything a DrawShadow call fixes before its pixel loop. */
  datatype ShadowJob = ShadowJob(
    img: ShpImage,
    data: seq<byte>,
    offX: int,
    offY: int,
    zOffset: int,
    castHeight: int,
    flat: bool)
  {
    predicate WellFormed() {
      |data| == img.width * img.height
    }
  }

  /** The depth of shadow row `y`: row-based when the owner is flat, the frame height otherwise. */
  function ShadowDepth(j: ShadowJob, y: nat): int {
    if j.flat then Wrap16(j.zOffset + Wrap16(y)) else Wrap16(j.zOffset + j.img.height)
  }

  /** Whether shadow pixel `pal` darkens surface pixel `d`. */
  predicate ShadowAccepts(j: ShadowJob, c: Canvas, pal: byte, d: int, y: nat)
    requires c.Valid()
  {
    && 0 <= d < c.Area()
    && pal != 0
    && !c.shadows[d]
    && ShadowDepth(j, y) >= c.zBuffer[d]
    && j.castHeight >= c.heightBuffer[d]
  }

  /** Halve the three channels of pixel `d` (integer division) and mark it shadowed. */
  function Darken(c: Canvas, d: nat): (c': Canvas)
    requires c.Valid() && d < c.Area()
    ensures SameShape(c, c') && c'.zBuffer == c.zBuffer && c'.heightBuffer == c.heightBuffer
  {
    var p := c.pixels;
    c.(pixels := p[3 * d := p[3 * d] / 2][3 * d + 1 := p[3 * d + 1] / 2][3 * d + 2 := p[3 * d + 2] / 2],
       shadows := c.shadows[d := true])
  }

  /** One shadow pixel: the body of the inner loop of DrawShadow. */
  function ShadowPixelAt(j: ShadowJob, c: Canvas, pal: byte, d: int, y: nat): (c': Canvas)
    requires c.Valid()
    ensures SameShape(c, c') && c'.zBuffer == c.zBuffer && c'.heightBuffer == c.heightBuffer
    ensures c' != c <==> ShadowAccepts(j, c, pal, d, y)
    ensures ShadowAccepts(j, c, pal, d, y) ==> c'.shadows[d] && !c.shadows[d]
  {
    if ShadowAccepts(j, c, pal, d, y) then Darken(c, d) else c
  }

  function ShadowPal(j: ShadowJob, x: nat, y: nat): byte
    requires j.WellFormed() && x < j.img.width && y < j.img.height
  {
    RowMajorInRange(j.img.width, j.img.height, x, y);
    j.data[y * j.img.width + x]
  }

  function ShadowRowPixels(j: ShadowJob, c: Canvas, y: nat, n: nat): (r: Canvas)
    requires j.WellFormed() && c.Valid() && y < j.img.height && n <= j.img.width
    ensures SameShape(c, r) && r.zBuffer == c.zBuffer && r.heightBuffer == c.heightBuffer
    decreases n
  {
    if n == 0 then c
    else
      var c' := ShadowRowPixels(j, c, y, n - 1);
      ShadowPixelAt(j, c', ShadowPal(j, n - 1, y), Dest(j.offX, j.offY, c'.width, n - 1, y), y)
  }

  function ShadowRows(j: ShadowJob, c: Canvas, n: nat): (r: Canvas)
    requires j.WellFormed() && c.Valid() && n <= j.img.height
    ensures SameShape(c, r) && r.zBuffer == c.zBuffer && r.heightBuffer == c.heightBuffer
    decreases n
  {
    if n == 0 then c
    else
      var c' := ShadowRows(j, c, n - 1);
      if j.offY + (n - 1) < 0 then c' else ShadowRowPixels(j, c', n - 1, j.img.width)
  }

  /** The per-call values of DrawShadow. */
  function MakeShadowJob(shp: ShpFile, img: ShpImage, data: seq<byte>, obj: GameObject, shadowOffset: Point): ShadowJob {
    var cast := HalfTileY(obj.tile.z)
                + (if obj.owner.flat then 0 else shp.height + HalfTileY(obj.owner.tileElevation));
    ShadowJob(
      img, data,
      shadowOffset.x + HalfTileX(obj.tile.dx) - shp.width / 2 + img.x,
      shadowOffset.y + HalfTileY(obj.tile.dy - obj.tile.z) - shp.height / 2 + img.y,
      Wrap16(HalfTileY(obj.tile.rx + obj.tile.ry) - shp.height / 2 + img.y),
      cast,
      obj.owner.flat)
  }

  /** The shadow frame: the decided frame moved into the second half of the frame list. */
  function ShadowFrameIndex(shp: ShpFile, decided: Decided, rng: nat): int {
    DecideFrameIndex(decided, shp.numImages, rng) + |shp.images| / 2
  }

  /**
   * `ShpRenderer.DrawShadow`. `shadowOffset` is `props.GetShadowOffset(obj)`;
   * flatness, elevation bonus and cast height come from the object's own drawable.
   */
  function DrawShadow(shp: ShpFile, obj: GameObject, shadowOffset: Point, decided: Decided, rng: nat,
                      c: Canvas): (s: RenderState)
    requires c.Valid()
    ensures SameShape(c, s.canvas) && s.canvas.zBuffer == c.zBuffer && s.canvas.heightBuffer == c.heightBuffer
    ensures ChooseFrame(shp, ShadowFrameIndex(shp, decided, rng)).Skip? ==> s == RenderState(c, false)
    ensures ChooseFrame(shp, ShadowFrameIndex(shp, decided, rng)).NullFrame? ==> s == RenderState(c, true)
  {
    match ChooseFrame(shp, ShadowFrameIndex(shp, decided, rng))
    case Skip => RenderState(c, false)
    case NullFrame => RenderState(c, true)
    case Frame(img, data) =>
      RenderState(ShadowRows(MakeShadowJob(shp, img, data, obj, shadowOffset), c, img.height), false)
  }

  /** The pixel loop of DrawShadow as written, with its running source and plane indices. */
  method DrawShadowPass(j: ShadowJob, c: Canvas) returns (r: Canvas)
    requires j.WellFormed() && c.Valid()
    ensures r == ShadowRows(j, c, j.img.height)
  {
    var w, h := j.img.width, j.img.height;
    r := c;
    var rIdx := 0;
    var zIdx := j.offX + j.offY * c.width;
    var y := 0;
    while y < h
      invariant 0 <= y <= h
      invariant rIdx == y * w
      invariant zIdx == j.offX + (j.offY + y) * c.width
      invariant SameShape(c, r)
      invariant r == ShadowRows(j, c, y)
    {
      if j.offY + y < 0 {
        rIdx := rIdx + w;
        zIdx := zIdx + c.width;
      } else {
        ghost var rowStart := r;
        var x := 0;
        while x < w
          invariant 0 <= x <= w
          invariant rIdx == y * w + x
          invariant zIdx == j.offX + x + (j.offY + y) * c.width
          invariant SameShape(c, r)
          invariant r == ShadowRowPixels(j, rowStart, y, x)
        {
          RowMajorInRange(w, h, x, y);
          r := ShadowPixelAt(j, r, j.data[rIdx], zIdx, y);
          rIdx := rIdx + 1;
          zIdx := zIdx + 1;
          x := x + 1;
        }
        assert (j.offY + y + 1) * c.width == (j.offY + y) * c.width + c.width;
        zIdx := zIdx + c.width - w;
      }
      assert (y + 1) * w == y * w + w;
      assert (j.offY + y + 1) * c.width == (j.offY + y) * c.width + c.width;
      y := y + 1;
    }
  }

  /** `ShpRenderer.DrawShadow` as a method: the frame guards, then the pixel loop. */
  method DrawShadowMethod(shp: ShpFile, obj: GameObject, shadowOffset: Point, decided: Decided, rng: nat,
                          c: Canvas) returns (s: RenderState)
    requires c.Valid()
    ensures s == DrawShadow(shp, obj, shadowOffset, decided, rng, c)
  {
    match ChooseFrame(shp, ShadowFrameIndex(shp, decided, rng)) {
      case Skip => s := RenderState(c, false);
      case NullFrame => s := RenderState(c, true);
      case Frame(img, data) =>
        var r := DrawShadowPass(MakeShadowJob(shp, img, data, obj, shadowOffset), c);
        s := RenderState(r, false);
    }
  }

  // ---------------------------------------------------------------------------
  // Bounds
  // ---------------------------------------------------------------------------

  /**
   * `ShpRenderer.GetBounds`: the chosen frame's rectangle relative to the centre
   * of the file's canvas; size zero at the corner offset when there is no frame.
   * `ShpDrawable.BoundsMatchDrawPlacement` shows that, once placed, it is the
   * rectangle the sprite pass draws.
   */
  function GetBounds(shp: ShpFile, decided: Decided, rng: nat): (r: Geometry.Rectangle)
    ensures var img := shp.GetImage(DecideFrameIndex(decided, shp.numImages, rng));
      && (img.Some? ==> r == Geometry.Rectangle(img.value.x - shp.width / 2, img.value.y - shp.height / 2,
                                                 img.value.width, img.value.height))
      && (img.None? ==> r == Geometry.Rectangle(-(shp.width / 2), -(shp.height / 2), 0, 0))
  {
    var offset := Point(CsDiv(0 - shp.width as int, 2), CsDiv(0 - shp.height as int, 2));
    match shp.GetImage(DecideFrameIndex(decided, shp.numImages, rng))
    case None => Geometry.Rectangle(offset.x, offset.y, 0, 0)
    case Some(img) => Geometry.Rectangle(offset.x + img.x, offset.y + img.y, img.width, img.height)
  }
}

=== FILE: shp_renderer_draw_facts.dfy ===
/** Properties of the depth-gated blit of ShpRenderer.Draw. */
module ShpRendererDrawFacts {
  import opened Wrappers
  import opened CsInt
  import opened ShpAssets
  import opened GameTypes
  import opened ShpRenderer

  /**
   * The z plane does not rise monotonically: the gate compares the candidate depth,
   * but the value stored is the building depth byte, which can be lower than
   * the z it replaces.
   */
  lemma ZBufferCanDecrease()
    ensures var bz := BuildingZAsset(1, 1, [0]);
      var j := DrawJob(ShpImage(0, 0, 1, 1, Some([1])), [1], 0, 0, 0, 0, false, false, 0,
                       seq(256, _ => Color(0, 0, 0)), 1, 0, bz, (t, a, b) => a);
      var c := Canvas(1, 1, [0, 0, 0], [1], [0], [false]);
      var s := PixelAt(j, c, 1, 0, 0, 0);
      && CandidateDepth(j, 0, 0) == Some(1)
      && !s.faulted && s.canvas.zBuffer[0] == 0 < c.zBuffer[0]
  {
  }

  /** Source pixel (x, y) is non-transparent, on a drawn row, and lands on `e`. */
  ghost predicate Hits(j: DrawJob, width: nat, x: nat, y: nat, e: int)
    requires j.WellFormed() && x < j.img.width && y < j.img.height
  {
    j.offY + y >= 0 && Pal(j, x, y) != 0 && Dest(j.offX, j.offY, width, x, y) == e
  }

  lemma {:induction false} RowPixelsKeepUnhit(j: DrawJob, s: RenderState, y: nat, n: nat, e: nat)
    requires j.WellFormed() && s.canvas.Valid() && y < j.img.height && n <= j.img.width
    requires e < s.canvas.Area() && j.offY + y >= 0
    requires forall x: nat | x < n :: !Hits(j, s.canvas.width, x, y, e)
    ensures SamePixel(s.canvas, DrawRowPixels(j, s, y, n).canvas, e)
    decreases n
  {
    if n > 0 {
      var s' := DrawRowPixels(j, s, y, n - 1);
      RowPixelsKeepUnhit(j, s, y, n - 1, e);
      if !s'.faulted {
        assert !Hits(j, s.canvas.width, n - 1, y, e);
        var d := Dest(j.offX, j.offY, s'.canvas.width, n - 1, y);
        var pal := Pal(j, n - 1, y);
        assert DrawRowPixels(j, s, y, n) == PixelAt(j, s'.canvas, pal, d, n - 1, y);
        if d != e {
        } else {
          assert pal == 0;
        }
      }
    }
  }

  lemma {:induction false} RowsKeepUnhit(j: DrawJob, s: RenderState, n: nat, e: nat)
    requires j.WellFormed() && s.canvas.Valid() && n <= j.img.height && e < s.canvas.Area()
    requires forall x: nat, y: nat | x < j.img.width && y < n :: !Hits(j, s.canvas.width, x, y, e)
    ensures SamePixel(s.canvas, DrawRows(j, s, n).canvas, e)
    decreases n
  {
    if n > 0 {
      var s' := DrawRows(j, s, n - 1);
      RowsKeepUnhit(j, s, n - 1, e);
      if !s'.faulted && j.offY + (n - 1) >= 0 {
        RowPixelsKeepUnhit(j, s', n - 1, j.img.width, e);
      }
    }
  }

  /**
   * Over a whole pass, a surface pixel that no non-transparent source pixel of a
   * drawn row lands on keeps its colour, z, height and shadow mark. Rows above
   * the surface, transparent pixels and off-surface addresses write nothing.
   */
  lemma DrawChangesOnlyHitPixels(j: DrawJob, c: Canvas, e: nat)
    requires j.WellFormed() && c.Valid() && e < c.Area()
    requires forall x: nat, y: nat | x < j.img.width && y < j.img.height :: !Hits(j, c.width, x, y, e)
    ensures SamePixel(c, DrawRows(j, RenderState(c, false), j.img.height).canvas, e)
  {
    RowsKeepUnhit(j, RenderState(c, false), j.img.height, e);
  }

  /** Requested translucencies 0 to 24 draw exactly as the opaque replace. */
  lemma LowTranslucencyIsOpaque(shp: ShpFile, obj: GameObject, flat: bool, buildingPart: bool,
                                offset: Geometry.Point, palette: Palette, decided: Decided, rng: nat,
                                env: RenderEnv, c: Canvas, t: int)
    requires c.Valid() && 0 <= t < 25
    ensures Draw(shp, obj, flat, buildingPart, offset, palette, decided, rng, env, c, t)
         == Draw(shp, obj, flat, buildingPart, offset, palette, decided, rng, env, c, 0)
  {
    QuantizeTranslucencySteps(t);
  }
}

=== FILE: shp_renderer_shadow_facts.dfy ===
/** Properties of the shadow blit of ShpRenderer.DrawShadow. */
module ShpRendererShadowFacts {
  import opened CsInt
  import opened ShpAssets
  import opened ShpRenderer

  /** Pixel `e` of `c` is pixel `e` of `c0` with every channel halved. */
  ghost predicate HalvedFrom(c0: Canvas, c: Canvas, e: nat)
    requires c0.Valid() && c.Valid() && e < c0.Area() && e < c.Area()
  {
    forall k | 0 <= k < 3 :: c.Bgr(e)[k] == c0.Bgr(e)[k] / 2
  }

  /**
   * Pixel `e` has either kept its colour and mark, or went from unmarked to
   * marked with its colour halved exactly once.
   */
  ghost predicate DarkenedAtMostOnce(c0: Canvas, c: Canvas, e: nat)
    requires c0.Valid() && c.Valid() && e < c0.Area() && e < c.Area()
  {
    || (c.Bgr(e) == c0.Bgr(e) && c.shadows[e] == c0.shadows[e])
    || (!c0.shadows[e] && c.shadows[e] && HalvedFrom(c0, c, e))
  }

  ghost predicate ShadowPassInvariant(c0: Canvas, c: Canvas) {
    && SameShape(c0, c)
    && c.zBuffer == c0.zBuffer
    && c.heightBuffer == c0.heightBuffer
    && forall e: nat | e < c0.Area() :: DarkenedAtMostOnce(c0, c, e)
  }

  /**
   * One shadow pixel darkens its destination exactly when the destination is on
   * the surface, the source is opaque, the destination is not yet marked, the
   * shadow depth reaches the stored z and the cast height reaches the stored
   * height; it then halves each channel and sets the mark, and touches nothing else.
   */
  lemma ShadowPixelDarkensIffAccepted(j: ShadowJob, c: Canvas, pal: byte, d: int, y: nat)
    requires c.Valid()
    ensures var c' := ShadowPixelAt(j, c, pal, d, y);
      && (c' != c <==> ShadowAccepts(j, c, pal, d, y))
      && (ShadowAccepts(j, c, pal, d, y) ==>
            c'.shadows[d] && !c.shadows[d] && HalvedFrom(c, c', d))
      && (forall e: nat | e < c.Area() && e != d :: SamePixel(c, c', e))
  {
    var c' := ShadowPixelAt(j, c, pal, d, y);
    if ShadowAccepts(j, c, pal, d, y) {
      assert c'.shadows[d] != c.shadows[d];
      forall k | 0 <= k < 3
        ensures c'.Bgr(d)[k] == c.Bgr(d)[k] / 2
      {
        assert c'.Bgr(d)[k] == c'.pixels[3 * d + k];
      }
    }
    forall e: nat | e < c.Area() && e != d
      ensures SamePixel(c, c', e)
    {
      if ShadowAccepts(j, c, pal, d, y) {
        assert c'.Bgr(e) == c.Bgr(e) by {
          assert c'.pixels[3 * e] == c.pixels[3 * e];
          assert c'.pixels[3 * e + 1] == c.pixels[3 * e + 1];
          assert c'.pixels[3 * e + 2] == c.pixels[3 * e + 2];
        }
      }
    }
  }

  lemma {:induction false} ShadowPixelKeepsInvariant(j: ShadowJob, c0: Canvas, c: Canvas, pal: byte, d: int, y: nat)
    requires c0.Valid() && ShadowPassInvariant(c0, c)
    ensures ShadowPassInvariant(c0, ShadowPixelAt(j, c, pal, d, y))
  {
    var c' := ShadowPixelAt(j, c, pal, d, y);
    ShadowPixelDarkensIffAccepted(j, c, pal, d, y);
    forall e: nat | e < c0.Area()
      ensures DarkenedAtMostOnce(c0, c', e)
    {
      assert DarkenedAtMostOnce(c0, c, e);
      if e == d && ShadowAccepts(j, c, pal, d, y) {
        // Unmarked before this step, so still the original colour.
        assert !c.shadows[e];
        assert c.Bgr(e) == c0.Bgr(e) && !c0.shadows[e];
        assert HalvedFrom(c0, c', e);
      } else if e != d {
        assert SamePixel(c, c', e);
      }
    }
  }

  lemma {:induction false} ShadowRowKeepsInvariant(j: ShadowJob, c0: Canvas, c: Canvas, y: nat, n: nat)
    requires j.WellFormed() && c0.Valid() && ShadowPassInvariant(c0, c) && y < j.img.height && n <= j.img.width
    ensures ShadowPassInvariant(c0, ShadowRowPixels(j, c, y, n))
    decreases n
  {
    if n > 0 {
      ShadowRowKeepsInvariant(j, c0, c, y, n - 1);
      var c' := ShadowRowPixels(j, c, y, n - 1);
      ShadowPixelKeepsInvariant(j, c0, c', ShadowPal(j, n - 1, y), Dest(j.offX, j.offY, c'.width, n - 1, y), y);
    }
  }

  lemma {:induction false} ShadowRowsKeepInvariant(j: ShadowJob, c0: Canvas, n: nat)
    requires j.WellFormed() && c0.Valid() && n <= j.img.height
    ensures ShadowPassInvariant(c0, ShadowRows(j, c0, n))
    decreases n
  {
    if n == 0 {
      assert forall e: nat | e < c0.Area() :: DarkenedAtMostOnce(c0, c0, e);
    } else {
      ShadowRowsKeepInvariant(j, c0, n - 1);
      if j.offY + (n - 1) >= 0 {
        ShadowRowKeepsInvariant(j, c0, ShadowRows(j, c0, n - 1), n - 1, j.img.width);
      }
    }
  }

  /**
   * Over a whole shadow pass each surface pixel is darkened at most once: it
   * either keeps its colour and mark, or was unmarked and ends marked with each
   * channel halved once. A pixel marked before the pass keeps its colour, and
   * the z and height planes are never written.
   */
  lemma ShadowPassDarkensAtMostOnce(j: ShadowJob, c: Canvas, e: nat)
    requires j.WellFormed() && c.Valid() && e < c.Area()
    ensures var r := ShadowRows(j, c, j.img.height);
      && r.zBuffer == c.zBuffer && r.heightBuffer == c.heightBuffer
      && DarkenedAtMostOnce(c, r, e)
      && (c.shadows[e] ==> SamePixel(c, r, e))
  {
    ShadowRowsKeepInvariant(j, c, j.img.height);
  }
}

=== FILE: terrain_drawable.dfy ===
/**
 * CNCMaps.Engine/Drawables/TerrainDrawable.cs: every Draw builds an inner sprite
 * drawable that shares the terrain's props, draws the alpha overlays, then the
 * shadow, then the sprite without its own shadow. Bounds need that inner sprite.
 */
module TerrainDrawable {
  import opened Wrappers
  import opened CsInt
  import opened Geometry
  import opened ShpAssets
  import opened GameTypes
  import opened Ini
  import opened DrawableRules
  import SD = ShpDrawable
  import R = ShpRenderer

  /**
   * What a terrain draw reads besides the drawable: the art section and load
   * context for the inner sprite, the theater, the file system, and the alpha
   * overlays' blend of the surface's colour bytes (floating point, not part of
   * this model).
   */
  datatype TerrainEnv = TerrainEnv(
    ctx: LoadContext,
    art: IniSection,
    theater: SD.ActiveTheater,
    fileExists: string -> bool,
    openShp: string -> Option<ShpFile>,
    alphaBlend: (string, GameObject, seq<byte>) -> seq<byte>)

  /**
   * The inner ShpDrawable before its sprite is opened: a fresh drawable of the
   * same name and owner, index 0 as the constructor leaves it, its art fields
   * read, and the terrain's own props.
   */
  function InnerBase(d: Drawable, env: TerrainEnv): (inner: Drawable)
    ensures inner.props == d.props && inner.owner == d.owner && inner.index == 0
    ensures !inner.traits.invisibleInGame && !inner.traits.flat && inner.traits.isBuildingPart
  {
    var blank := NewDrawable(d.name, 0).(owner := d.owner);
    LoadFromArtEssential(env.ctx, env.art, blank).(props := d.props)
  }

  /** One alpha overlay: its blend replaces the colour bytes when it keeps their length. */
  function DrawAlphaImage(file: string, obj: GameObject, env: TerrainEnv, c: R.Canvas): (c': R.Canvas)
    requires c.Valid()
    ensures c'.Valid() && R.SameShape(c, c') && c'.zBuffer == c.zBuffer && c'.heightBuffer == c.heightBuffer
    ensures c'.shadows == c.shadows
  {
    var blended := env.alphaBlend(file, obj, c.pixels);
    if |blended| == |c.pixels| then c.(pixels := blended) else c
  }

  /** The alpha overlays, in the order they were added. */
  function DrawAlphaImages(files: seq<string>, obj: GameObject, env: TerrainEnv, c: R.Canvas): (c': R.Canvas)
    requires c.Valid()
    ensures c'.Valid() && R.SameShape(c, c') && c'.zBuffer == c.zBuffer && c'.heightBuffer == c.heightBuffer
    ensures c'.shadows == c.shadows
    decreases |files|
  {
    if |files| == 0 then c else DrawAlphaImages(files[1..], obj, env, DrawAlphaImage(files[0], obj, env, c))
  }

  /** The terrain after Draw, with its inner sprite, and what Draw did to the surface. */
  datatype TerrainOutcome = TerrainOutcome(drawable: Drawable, state: R.RenderState)

  /**
   * `TerrainDrawable.Draw`. A fault in the inner sprite's file name ends the
   * draw with the inner sprite created but without a sprite.
   */
  function Draw(d: Drawable, obj: GameObject, env: TerrainEnv, denv: SD.DrawEnv, c: R.Canvas,
                shadows: bool): (r: TerrainOutcome)
    requires c.Valid()
    ensures var base := InnerBase(d, env);
      var fn := SD.GetFilename(base, env.art.name, env.ctx.engine, env.theater, env.fileExists);
      && (fn.Fail? ==> r == TerrainOutcome(d.(terrainShp := Some(InnerSprite(Option.None))), R.RenderState(c, true)))
      && (fn.Ok? ==>
            var inner := base.(shp := env.openShp(fn.value));
            var afterAlpha := DrawAlphaImages(d.alphaImages, obj, env, c);
            // the shadow pass, then the sprite with its own shadow switched off
            var afterShadow := if shadows then SD.DrawShadow(inner, obj, denv, afterAlpha)
                               else R.RenderState(afterAlpha, false);
            && r.drawable.terrainShp == Some(InnerSprite(inner.shp))
            && (afterShadow.faulted ==> r.state == afterShadow)
            && (!afterShadow.faulted ==> r.state == SD.Draw(inner, obj, denv, afterShadow.canvas, false).state))
    // the props are shared with the inner sprite, whose draw leaves them as they were
    ensures d.owner != Some(Infantry) ==> r.drawable.props == d.props
    ensures !shadows ==> r.state.canvas.shadows == c.shadows
    ensures r.drawable.(terrainShp := d.terrainShp, props := d.props) == d
  {
    var base := InnerBase(d, env);
    match SD.GetFilename(base, env.art.name, env.ctx.engine, env.theater, env.fileExists)
    case Fail(_) => TerrainOutcome(d.(terrainShp := Some(InnerSprite(Option.None))), R.RenderState(c, true))
    case Ok(fn) =>
      var inner := base.(shp := env.openShp(fn));
      var afterAlpha := DrawAlphaImages(d.alphaImages, obj, env, c);
      var afterShadow := if shadows then SD.DrawShadow(inner, obj, denv, afterAlpha)
                         else R.RenderState(afterAlpha, false);
      var sprite := if afterShadow.faulted then Option.None else Some(SD.Draw(inner, obj, denv, afterShadow.canvas, false));
      var props := if sprite.Some? then sprite.value.drawable.props else inner.props;
      var state := if sprite.Some? then sprite.value.state else afterShadow;
      TerrainOutcome(d.(terrainShp := Some(InnerSprite(inner.shp)), props := props), state)
  }

  /**
   * `TerrainDrawable.GetBounds`: empty when hidden in game, or before a draw has
   * created the inner sprite, or when that sprite's file was not found;
   * otherwise the same placement as ShpDrawable's.
   */
  function GetBounds(d: Drawable, obj: GameObject, denv: SD.DrawEnv): (r: Rectangle)
    ensures d.traits.invisibleInGame ==> r == EmptyRectangle
    ensures d.terrainShp.None? || d.terrainShp.value.shp.None? ==> r == EmptyRectangle
  {
    if d.traits.invisibleInGame then EmptyRectangle
    else if d.terrainShp.None? || d.terrainShp.value.shp.None? then EmptyRectangle
    else
      var b := R.GetBounds(d.terrainShp.value.shp.value, denv.decide(d.props.frameDecider, obj), denv.boundsRng);
      SD.PlaceBounds(b, obj, denv.getOffset(d.props, obj))
  }

  /** A visible terrain with a sprite is bounded exactly as a ShpDrawable with that sprite. */
  lemma BoundsAgreeWithShpDrawable(d: Drawable, obj: GameObject, denv: SD.DrawEnv)
    requires d.terrainShp.Some?
    ensures GetBounds(d, obj, denv) == SD.GetBounds(d.(shp := d.terrainShp.value.shp), obj, denv)
  {
  }

  /** After a draw that found its sprite, the bounds are the sprite's bounds. */
  lemma BoundsAfterDraw(d: Drawable, obj: GameObject, env: TerrainEnv, denv: SD.DrawEnv, c: R.Canvas, shadows: bool)
    requires c.Valid()
    ensures var t := Draw(d, obj, env, denv, c, shadows).drawable;
      t.terrainShp.Some? && (t.terrainShp.value.shp.Some? && !d.traits.invisibleInGame ==>
        GetBounds(t, obj, denv) == SD.GetBounds(t.(shp := t.terrainShp.value.shp), obj, denv))
  {
  }
}

=== FILE: theater.dfy ===
/**
 * Theater-letter substitution in asset file names (ObjectCollection's
 * ApplyNewTheaterIfNeeded and ApplyNewTheater). Indexing a string past its end
 * throws in the source; here that is the `IndexOutOfRange` fault.
 */
module Theater {
  import opened Wrappers
  import opened GameTypes

  /** `imageFileName` with its second character replaced by `c`. */
  function WithTheaterChar(fileName: string, c: char): string
    requires |fileName| >= 2
  {
    fileName[1 := c]
  }

  /**
   * `ApplyNewTheater`: try the active theater's letter, then the generic 'G',
   * then keep the original letter. Only index 1 ever changes.
   */
  function ApplyNewTheater(fileName: string, theaterChar: char, fileExists: string -> bool): (r: Result<string, Fault>)
    ensures r.Fail? <==> |fileName| < 2
    ensures r.Ok? ==>
      && |r.value| == |fileName|
      && (forall i | 0 <= i < |fileName| && i != 1 :: r.value[i] == fileName[i])
      && (fileExists(WithTheaterChar(fileName, theaterChar)) ==> r.value[1] == theaterChar)
      && (var themed, generic := WithTheaterChar(fileName, theaterChar), WithTheaterChar(fileName, 'G');
          && (!fileExists(themed) && fileExists(generic) ==> r.value[1] == 'G')
          && (!fileExists(themed) && !fileExists(generic) ==> r.value == fileName))
  {
    if |fileName| < 2 then Fail(IndexOutOfRange)
    else
      var themed := WithTheaterChar(fileName, theaterChar);
      if fileExists(themed) then Ok(themed)
      else
        var generic := WithTheaterChar(fileName, 'G');
        if fileExists(generic) then Ok(generic)
        else Ok(WithTheaterChar(generic, fileName[1]))
  }

  /** The substituted name is one that exists, or the name unchanged. */
  lemma ApplyNewTheaterExistsOrOriginal(fileName: string, theaterChar: char, fileExists: string -> bool)
    requires |fileName| >= 2
    ensures var r := ApplyNewTheater(fileName, theaterChar, fileExists).value;
      fileExists(r) || r == fileName
  {
  }

  /**
   * Whether an art name may take part in theater substitution; reading a
   * character the name does not have throws. Tiberian Sun and Firestorm need
   * G, N or C then A or T; Red Alert 2 adds U; later engines look only at the
   * second letter, which may be A, T, U, D, L or N.
   */
  function TheaterEligible(engine: EngineType, artName: string): (r: Result<bool, Fault>)
    ensures engine.RedAlert2? || engine.AtMostFirestorm() ==>
      && (r.Fail? <==> |artName| == 0 || (artName[0] in "GNC" && |artName| < 2))
      && (r.Ok? ==> (r.value <==> artName[0] in "GNC"
                                  && artName[1] in (if engine.RedAlert2? then "ATU" else "AT")))
    ensures engine.YurisRevenge? ==>
      && (r.Fail? <==> |artName| < 2)
      && (r.Ok? ==> (r.value <==> artName[1] in "ATUDLN"))
  {
    if engine.AtMostFirestorm() || engine.RedAlert2? then
      if |artName| == 0 then Fail(IndexOutOfRange)
      else if !(artName[0] in ['G', 'N', 'C']) then Ok(false)
      else if |artName| < 2 then Fail(IndexOutOfRange)
      else if engine.RedAlert2? then Ok(artName[1] in ['A', 'T', 'U'])
      else Ok(artName[1] in ['A', 'T'])
    else if |artName| < 2 then Fail(IndexOutOfRange)
    else Ok(artName[1] in ['A', 'T', 'U', 'D', 'L', 'N'])
  }

  /** `ApplyNewTheaterIfNeeded`: substitute only for an eligible art name. */
  function ApplyNewTheaterIfNeeded(engine: EngineType, artName: string, fileName: string, theaterChar: char,
                                   fileExists: string -> bool): (r: Result<string, Fault>)
    ensures TheaterEligible(engine, artName) == Ok(false) ==> r == Ok(fileName)
    ensures TheaterEligible(engine, artName) == Ok(true) ==> r == ApplyNewTheater(fileName, theaterChar, fileExists)
    ensures TheaterEligible(engine, artName).Fail? ==> r.Fail?
    ensures r.Ok? ==> |r.value| == |fileName|
  {
    var eligible :- TheaterEligible(engine, artName);
    if eligible then ApplyNewTheater(fileName, theaterChar, fileExists) else Ok(fileName)
  }

  /**
   * The Yuri's Revenge walkthrough: art GATOWR, active theater letter U. The file
   * GUTOWR.shp is used when it exists, else GGTOWR.shp, else the name is kept.
   */
  lemma YurisRevengeTheaterExample(fileExists: string -> bool)
    ensures var r := ApplyNewTheaterIfNeeded(YurisRevenge, "GATOWR", "GATOWR.shp", 'U', fileExists);
      && (fileExists("GUTOWR.shp") ==> r == Ok("GUTOWR.shp"))
      && (!fileExists("GUTOWR.shp") && fileExists("GGTOWR.shp") ==> r == Ok("GGTOWR.shp"))
      && (!fileExists("GUTOWR.shp") && !fileExists("GGTOWR.shp") ==> r == Ok("GATOWR.shp"))
  {
    assert WithTheaterChar("GATOWR.shp", 'U') == "GUTOWR.shp";
    assert WithTheaterChar("GATOWR.shp", 'G') == "GGTOWR.shp";
  }
}

=== FILE: tile_drawable.dfy ===
/**
 * CNCMaps.Engine/Drawables/TmpDrawable.cs (class TileDrawable): the guards of a
 * terrain tile's draw and the choice of its sub-tile image. The tile-set entry
 * resolves a map tile to its TMP file; decoding TMP files is not part of this
 * model, so a file is its list of images.
 */
module TileDrawable {
  import opened Wrappers
  import opened CsInt
  import opened GameTypes

  /** One decoded TMP image, identified by its position in the file. */
  datatype TmpImage = TmpImage(id: nat)

  datatype TmpFile = TmpFile(images: seq<TmpImage>)

  /** A map tile as the tile drawable sees it: its sub-tile number and its place. */
  datatype TileCell = TileCell(tile: MapTile, subTile: byte)

  /** A tile-set entry: its display name and the TMP file it gives a map tile. */
  datatype TileSetEntry = TileSetEntry(display: string, tmpFor: TileCell -> Option<TmpFile>)

  datatype Tile = Tile(name: string, entry: Option<TileSetEntry>)

  /** The constructor: the name comes from the entry when there is one. */
  function NewTile(rulesName: string, entry: Option<TileSetEntry>): (t: Tile)
    ensures t.entry == entry
    ensures t.name == (if entry.Some? then entry.value.display else rulesName)
  {
    Tile(if entry.Some? then entry.value.display else rulesName, entry)
  }

  /** `TsEntry?.GetTmpFile(t)`. */
  function TmpOf(t: Tile, cell: TileCell): Option<TmpFile> {
    if t.entry.None? then Option.None else t.entry.value.tmpFor(cell)
  }

  /**
   * `GetTileImage`: nothing without a file or images; the sub-tile's image when
   * the file has it, else the first image.
   */
  function GetTileImage(t: Tile, cell: TileCell): (r: Option<TmpImage>)
    ensures var tmp := TmpOf(t, cell);
      && (r.None? <==> tmp.None? || |tmp.value.images| == 0)
      && (r.Some? && cell.subTile < |tmp.value.images| ==> r.value == tmp.value.images[cell.subTile])
      && (r.Some? && cell.subTile >= |tmp.value.images| ==> r.value == tmp.value.images[0])
  {
    match TmpOf(t, cell)
    case None => Option.None
    case Some(tmp) =>
      if |tmp.images| == 0 then Option.None
      else if |tmp.images| > cell.subTile then Some(tmp.images[cell.subTile])
      else Some(tmp.images[0])
  }

  /** `DoesSubTileExist`: false only for a file that lacks a non-zero sub-tile. */
  function DoesSubTileExist(t: Tile, cell: TileCell): (r: bool)
    ensures !r <==> TmpOf(t, cell).Some? && cell.subTile > 0 && cell.subTile > |TmpOf(t, cell).value.images| - 1
  {
    var tmp := TmpOf(t, cell);
    if tmp.Some? && cell.subTile > 0 && cell.subTile > |tmp.value.images| - 1 then false else true
  }

  /** When the sub-tile exists and the file has images, the image drawn is exactly that sub-tile's. */
  lemma ExistingSubTileIsChosen(t: Tile, cell: TileCell)
    requires DoesSubTileExist(t, cell) && TmpOf(t, cell).Some? && |TmpOf(t, cell).value.images| > 0
    ensures GetTileImage(t, cell) == Some(TmpOf(t, cell).value.images[cell.subTile])
  {
  }

  /** When the sub-tile is missing, the first image stands in for it. */
  lemma MissingSubTileFallsBack(t: Tile, cell: TileCell)
    requires !DoesSubTileExist(t, cell) && |TmpOf(t, cell).value.images| > 0
    ensures GetTileImage(t, cell) == Some(TmpOf(t, cell).value.images[0])
  {
  }

  /**
   * `TileDrawable.Draw`: nothing without an object or an entry; otherwise the
   * entry's TMP file for the tile, if any, goes to the TMP renderer (not part of
   * this model), whose drawing is `render`.
   */
  function Draw<S>(t: Tile, cell: Option<TileCell>, render: (TileCell, TmpFile, S) -> S, s: S): (r: S)
    ensures cell.None? || t.entry.None? ==> r == s
    ensures cell.Some? && TmpOf(t, cell.value).None? ==> r == s
    ensures cell.Some? && TmpOf(t, cell.value).Some? ==> r == render(cell.value, TmpOf(t, cell.value).value, s)
  {
    if cell.None? || t.entry.None? then s
    else match t.entry.value.tmpFor(cell.value)
      case None => s
      case Some(tmp) => render(cell.value, tmp, s)
  }
}

=== FILE: wrappers.dfy ===
/** Failure-compatible result types shared by every module of the model. */
module Wrappers {

  /** A value that may be absent, standing for a C# reference that may be null. */
  datatype Option<+T> = None | Some(value: T) {
    function GetOr(default: T): T {
      match this
      case Some(v) => v
      case None => default
    }
  }

  /** The outcome of an operation that can throw: `Fail` stands for the exception. */
  datatype Result<+T, +E> = Ok(value: T) | Fail(error: E) {
    predicate IsFailure() {
      Fail?
    }

    function PropagateFailure<U>(): Result<U, E>
      requires Fail?
    {
      Fail(error)
    }

    function Extract(): T
      requires Ok?
    {
      value
    }
  }
}
